=== FILE: README.md ===
# claude-code-tracer in Dafny

This project models the logic at the centre of claude-code-tracer. The tool
records conversations with the Claude CLI and with the Claude Code SDK,
masks sensitive data in them, and stores them as sessions of numbered
interactions. The model covers these parts:

- **The privacy guard** (`privacy.dfy`, `defaults.dfy`, `templates.dfy`). This is an ordered
  registry of redaction patterns, each with a regular expression, a
  description, a replacement and a sensitivity level from LOW (1) to
  MAXIMUM (5). `scan_and_mask` walks the registry. It tests each enabled
  pattern against the original text and rewrites the running, already
  masked text. `analyze_sensitivity` takes the highest level detected.
  Patterns can be added, disabled and enabled, and content can be
  whitelisted by its digest. Python's `re` module is a parameter
  (`RegexEngine`). One part of `re.sub` is written out, because the
  default registry depends on it: how a replacement template is parsed,
  and which templates raise for a pattern with a given number of groups
  and given group names.
- **The PTY monitor** (`sanitizer.dfy`, `pty_monitor.dfy`). It splits the
  terminal traffic of one CLI session into interactions.
  - `_strip_ansi` and `_clean_claude_output` are written out in full, as
    the fixed regular expressions they apply.
  - The capture-mode state machine is modelled with its three modes
    `waiting`, `user_input` and `assistant_output`. Its transitions are
    `_capture_input`, `_process_output_buffer`, `_save_interaction` and
    `_complete_session`.
  - The line buffering of `_monitor_loop` is a pure step function, and the
    loop itself runs over a sequence of terminal events. The loop takes the
    buffering rule as a parameter: `AsWritten` is the code's rule, which
    `start_monitoring` uses, and `Intended` is the corrected one (see
    "## Findings").
- **The SDK monitor** (`monitor_v2.dfy`). This covers the keyword classifier
  `_analyze_context` and the per-session interaction counters of
  `monitor_query`.
- **The record validators** (`interaction.dfy`, `session.dfy`,
  `dependencies.dfy`, `config.dfy`):
  - the Pydantic field validators and bounds of interactions and sessions;
  - the API's list-query parameters and its Bearer-token extraction;
  - the settings validators for CORS origins and the log level.

`strings.dfy` holds the Python `str` operations the source relies on:
`strip`, `split`, `join`, `find`, `in`, `replace`, `upper`, `lower` and
`str(n)`. `results.dfy` holds `Option` and `Result`.

Behaviours of the code that the model keeps as they are:

- **Malformed patterns.** A pattern that does not compile makes
  `re.finditer` raise, and the whole scan fails with it
  (`Privacy.ScanAndMask`, `Privacy.FaultingPatternRaises`).
- **Replacement order.** Each enabled pattern that matches the original
  text substitutes its own replacement into the running text, in registry
  order. Overlapping matches are not resolved otherwise, and the guard
  never consults the `privacy_mode` setting, which the API only reports.
- **Sensitivity levels.** There are five levels, CRITICAL (4) included.
- **Sanitizer idempotence.** `_strip_ansi` is not idempotent: deleting one
  sequence can join its neighbours into a new one
  (`Sanitizer.StripAnsiNotIdempotent`). `_clean_claude_output` can produce
  a `cwd:` that its input did not contain (`Sanitizer.CleanCanEndInCwd`).
- **Capture modes.** Only a keystroke chunk without Enter is added to the
  user text, and only in the modes `waiting` and `user_input`.
- **Enter in the same chunk.** A prompt typed as one chunk ending in Enter
  (`list files\r`) is never added to the user buffer, so that exchange is
  not recorded (`PtyMonitor.EnterChunkNotRecorded`).
- **No flush at exit.** `_complete_session` does not save the pending
  buffers when the child process exits (`PtyMonitor.CompleteSession`).
- **Masking of saved text.** `_save_interaction` calls `mask_text`, which
  the privacy module does not define. Here it is the parameter `mask`.

## Model

| member | source | states |
|---|---|---|
| Strings.Filter | src/claude_code_tracer/core/pty_monitor.py:53-56 | deleting a character class keeps exactly the characters outside it and never lengthens the text |
| Strings.FilterAppend | src/claude_code_tracer/core/pty_monitor.py:53-56 | deleting a character class from two joined texts is deleting it from each: the kept characters stay in their order |
| Strings.FilterKeepsAll | src/claude_code_tracer/core/pty_monitor.py:53-56 | a text with nothing to delete is unchanged |
| Strings.Strip | src/claude_code_tracer/core/pty_monitor.py:228 | `str.strip()` returns the slice that is left once the whitespace runs at both ends are cut; the slice is trimmed, and trimmed text is unchanged |
| Strings.Split | src/claude_code_tracer/core/pty_monitor.py:225 | `split` returns at least one piece, and no piece holds the separator |
| Strings.SplitCount | src/claude_code_tracer/utils/config.py:101 | there is one more piece than there are separators |
| Strings.JoinSplit | src/claude_code_tracer/core/pty_monitor.py:225 | joining the pieces with the separator gives the text back |
| Strings.SplitJoin | src/claude_code_tracer/utils/config.py:101 | splitting a join of separator-free pieces gives the pieces back |
| Strings.LastPieceAfter | src/claude_code_tracer/core/pty_monitor.py:191-192 | `lines[-1]` is the text after the last separator, and a text with a separator splits into at least two pieces |
| Strings.Find | src/claude_code_tracer/core/monitor_v2.py:274 | the substring test finds the first occurrence, or reports correctly that there is none |
| Strings.ReplaceAll | src/claude_code_tracer/api/dependencies.py:47 | `replace` leaves text without the pattern unchanged, and deleting never lengthens the text |
| Strings.ReplaceAllFirst | src/claude_code_tracer/api/dependencies.py:47 | `replace` scans left to right: the text before the first occurrence is kept, that occurrence becomes the replacement, and the rest is replaced in the same way |
| Strings.Upper | src/claude_code_tracer/utils/config.py:108 | `upper` keeps the text the same up to case and leaves no lower-case letter |
| Strings.UpperUnique | src/claude_code_tracer/utils/config.py:108 | those two properties determine the upper-cased text completely |
| Strings.Lower | src/claude_code_tracer/core/monitor_v2.py:270 | `lower` keeps the text the same up to case and leaves no upper-case letter |
| Strings.LowerUnique | src/claude_code_tracer/core/monitor_v2.py:270 | those two properties determine the lower-cased text completely |
| Strings.LowerOfUpper | src/claude_code_tracer/core/monitor_v2.py:270 | lower-casing an upper-cased text gives the lower-cased text |
| Config.UpperIdempotent | src/claude_code_tracer/utils/config.py:108 | upper-casing twice is upper-casing once |
| Strings.NatToStringInjective | src/claude_code_tracer/core/pty_monitor.py:275 | distinct counters give distinct decimal strings |
| Privacy.LevelValueInjective | src/claude_code_tracer/core/privacy.py:15-21 | the five levels have distinct values, so a value identifies its level |
| Templates.DigitValue | src/claude_code_tracer/core/privacy.py:211-216 | an ASCII digit's value is the digit that `str(n)` writes for it |
| Templates.DecimalOfNatToString | src/claude_code_tracer/core/privacy.py:211-216 | `int` of the decimal rendering of a number is that number, so `\g<N>` reads back N |
| Templates.NameEnd | src/claude_code_tracer/core/privacy.py:211-216 | the group name closes at a `>` token |
| Templates.NameEndPlain | src/claude_code_tracer/core/privacy.py:211-216 | a name without `>` or backslashes is closed by the `>` right after it |
| Templates.OctalRun | src/claude_code_tracer/core/privacy.py:211-216 | `\0` takes at most two more octal digits, and stops at the first other character |
| Templates.NoBackslashNoFault | src/claude_code_tracer/core/privacy.py:211-216 | a replacement without backslashes never makes `re.sub` raise, whatever the groups |
| Templates.PlainPrefix | src/claude_code_tracer/core/privacy.py:211-216 | a backslash-free prefix does not affect whether a replacement is refused |
| Templates.EscapedBackslash | src/claude_code_tracer/core/privacy.py:211-216 | a doubled backslash in a replacement is accepted |
| Templates.KnownLetterEscape | src/claude_code_tracer/core/privacy.py:211-216 | the escapes `\a \b \f \n \r \t \v` are accepted |
| Templates.BadLetterEscape | src/claude_code_tracer/core/privacy.py:211-216 | a backslash before any other ASCII letter except `g`, such as `\U`, is refused |
| Templates.MissingAngleBracket | src/claude_code_tracer/core/privacy.py:211-216 | `\g` not followed by `<` is refused |
| Templates.NamedReference | src/claude_code_tracer/core/privacy.py:211-216 | `\g<name>` is refused if and only if the name is empty, a number above the group count or the group limit, or not a group name of the pattern, or the rest is refused |
| Templates.NumberedReference | src/claude_code_tracer/core/privacy.py:211-216 | `\N` for a digit N from 1 to 9 is refused if and only if the pattern has fewer than N groups, or the rest is refused |
| Templates.OctalEscape | src/claude_code_tracer/core/privacy.py:211-216 | three octal digits after a backslash are refused if and only if their value exceeds 0o377, or the rest is refused |
| Templates.FewerGroupsRefuseMore | src/claude_code_tracer/core/privacy.py:211-216 | a pattern with fewer groups and group names refuses every template that one with more refuses |
| Privacy.FaultingPatternRaises | src/claude_code_tracer/core/privacy.py:199-216 | one enabled pattern that fails to compile, or that matches with a replacement refused for that pattern's groups, makes the scan raise at or before it |
| Privacy.AcceptedTemplatesRaiseOnlyOnCompile | src/claude_code_tracer/core/privacy.py:199-216 | with compiling patterns and replacements that even a pattern without groups accepts, the scan never raises |
| Privacy.FiringSnoc | src/claude_code_tracer/core/privacy.py:199-207 | a pattern placed last is reported last, exactly when it matches the original content |
| Privacy.ApplySubsSnoc | src/claude_code_tracer/core/privacy.py:211-216 | the substitution of a later pattern runs on the text that the earlier substitutions produced |
| Privacy.FiringMembers | src/claude_code_tracer/core/privacy.py:199-207 | the patterns applied are exactly the registered patterns that are enabled, compile and match the original content |
| Privacy.FiringNone | src/claude_code_tracer/core/privacy.py:199-207 | when no pattern matches, nothing is reported or substituted |
| Privacy.DetectionsCharacterised | src/claude_code_tracer/core/privacy.py:199-207 | a description is reported if and only if an enabled, matching pattern has it |
| Privacy.DisabledPatternInert | src/claude_code_tracer/core/privacy.py:201-203 | a disabled pattern can be removed without changing what is reported, substituted or raised |
| Privacy.ScanAndMask | src/claude_code_tracer/core/privacy.py:193-218 | empty content comes back unchanged with no detections; otherwise the scan raises the first fault; otherwise it returns the content rewritten by the matching patterns in order, and their descriptions in registry order; unchanged with `[]` when nothing matches |
| Privacy.MaxDetectedLevel | src/claude_code_tracer/core/privacy.py:232-237 | the result is at least the start level, at least every detected pattern's level, and is either the start or some detected pattern's level |
| Privacy.AnalyzeSensitivity | src/claude_code_tracer/core/privacy.py:220-246 | fails if and only if the scan raises; with no detections it gives SAFE, score 0 and no approval; otherwise the score is the highest detected level, its name is recorded, and approval is needed if and only if the score is at least 3; the level name is the name of the one level whose value is the score |
| Privacy.DetectedLevelAttained | src/claude_code_tracer/core/privacy.py:232-237 | when anything is detected, the highest level found is the level of some registered pattern whose description was detected, so LOW is reported only when a detected pattern is LOW |
| Privacy.FirstWith | src/claude_code_tracer/core/privacy.py:252-264 | finds the first pattern with the description, or none exists |
| Privacy.SetEnabled | src/claude_code_tracer/core/privacy.py:252-264 | only the flag of the first pattern with the description changes; an unknown description changes nothing |
| Privacy.DisableThenEnable | src/claude_code_tracer/core/privacy.py:252-264 | disabling and then re-enabling an enabled pattern restores the registry |
| Privacy.DisableSilences | src/claude_code_tracer/core/privacy.py:252-257 | after `disable_pattern` the pattern no longer fires, and the scan behaves as if it were removed |
| Privacy.AddCustomPattern | src/claude_code_tracer/core/privacy.py:248-250 | the pattern is appended; earlier patterns and the whitelist are unchanged |
| Privacy.CustomReferenceRaises | src/claude_code_tracer/core/privacy.py:199-216 | a custom pattern `abc` without groups and with the replacement `\1` makes the scan of `abc` raise |
| Privacy.AddedPatternScansLast | src/claude_code_tracer/core/privacy.py:248-250 | an added pattern is searched for in the original content, is reported after all others, and rewrites the text they already masked |
| Privacy.WhitelistedByDigest | src/claude_code_tracer/core/privacy.py:271-274 | whitelisting goes by digest alone: contents with the same digest are whitelisted together |
| Privacy.WhitelistAdd | src/claude_code_tracer/core/privacy.py:266-274 | afterwards, content is whitelisted if and only if it was before or shares the added content's digest |
| Privacy.PatternsSummary | src/claude_code_tracer/core/privacy.py:276-284 | one entry per pattern, in order, giving its description, level name and flag |
| Privacy.SummaryAfterDisable | src/claude_code_tracer/core/privacy.py:276-284 | after `disable_pattern` the summary differs only in that one entry's flag |
| Defaults.WindowsTemplateRejected | src/claude_code_tracer/core/privacy.py:158-160 | the Windows user-directory replacement as written holds a refused escape, whatever the groups |
| Defaults.AsWrittenScanRaises | src/claude_code_tracer/core/privacy.py:158-160 | with the registry as written, any content the Windows pattern matches makes the scan raise |
| Defaults.WindowsTemplateAccepted | src/claude_code_tracer/core/privacy.py:158-160 | the corrected replacement is accepted, whatever the groups |
| Defaults.PlainAccepted | src/claude_code_tracer/core/privacy.py:43-191 | replacements without backslashes are all accepted |
| Defaults.AcceptedJoin | src/claude_code_tracer/core/privacy.py:43-191 | the registry assembled from accepted parts is accepted |
| Defaults.DefaultTemplatesAccepted | src/claude_code_tracer/core/privacy.py:43-191 | every corrected default replacement is accepted |
| Defaults.DefaultScanNeverRaises | src/claude_code_tracer/core/privacy.py:43-191 | with the corrected defaults, the scan raises only if a pattern fails to compile |
| Defaults.NewGuard | src/claude_code_tracer/core/privacy.py:37-41 | a new guard holds the defaults as the source writes them, then the custom patterns, and an empty whitelist |
| Defaults.NewGuardRaisesOnWindowsPath | src/claude_code_tracer/core/privacy.py:37-41 | such a guard raises on any content the Windows pattern matches, whatever the custom patterns |
| Defaults.NewGuardCorrected | src/claude_code_tracer/core/privacy.py:37-41 | the same constructor over the corrected defaults |
| Defaults.NewGuardCorrectedNeverRaises | src/claude_code_tracer/core/privacy.py:37-41 | the corrected guard with accepted custom replacements raises only if a pattern fails to compile |
| Defaults.PrefixFaultRaises | src/claude_code_tracer/core/privacy.py:37-41 | a guard whose registry starts with a faulting default raises |
| Defaults.WindowsAsWrittenAt | src/claude_code_tracer/core/privacy.py:158-160 | the Windows pattern is entry 17 of the default registry |
| Sanitizer.DeleteMatches | src/claude_code_tracer/core/pty_monitor.py:48 | deleting matches never lengthens the text or adds characters |
| Sanitizer.DeleteNothing | src/claude_code_tracer/core/pty_monitor.py:48 | text with no match anywhere comes back unchanged |
| Sanitizer.AnsiMatch | src/claude_code_tracer/core/pty_monitor.py:47 | every match of the escape-sequence pattern starts with ESC |
| Sanitizer.StripAnsi | src/claude_code_tracer/core/pty_monitor.py:44-48 | the result is no longer than the input and has no new characters |
| Sanitizer.StripAnsiPlain | src/claude_code_tracer/core/pty_monitor.py:44-48 | text without ESC is unchanged |
| Sanitizer.RenderMatched | src/claude_code_tracer/core/pty_monitor.py:47 | each well-formed CSI, OSC, string-command or private-mode sequence is matched exactly, whatever follows |
| Sanitizer.StripAnsiRoundTrip | src/claude_code_tracer/core/pty_monitor.py:44-48 | stripping text interleaved with well-formed sequences gives back exactly the text |
| Sanitizer.DoubleEscUnmatched | src/claude_code_tracer/core/pty_monitor.py:47 | no alternative matches at an ESC followed by another ESC |
| Sanitizer.StripAnsiNotIdempotent | src/claude_code_tracer/core/pty_monitor.py:44-48 | a second strip can delete more: `ESC ESC [ m [ m` strips to `ESC [ m`, which then strips to nothing |
| Sanitizer.CollapseSpace | src/claude_code_tracer/core/pty_monitor.py:59 | every whitespace character left is a single space, and a space is added only where whitespace was |
| Sanitizer.CollapseFixpoint | src/claude_code_tracer/core/pty_monitor.py:59 | the collapse leaves text unchanged if and only if the text is already collapsed |
| Sanitizer.CollapseIdempotent | src/claude_code_tracer/core/pty_monitor.py:59 | collapsing twice is collapsing once |
| Sanitizer.CollapseKeepsText | src/claude_code_tracer/core/pty_monitor.py:59 | the collapse keeps every other character, in order |
| Sanitizer.NoteEnd | src/claude_code_tracer/core/pty_monitor.py:66 | the greedy `.*tokens.*\)` ends at a closing parenthesis |
| Sanitizer.TokenNoteMatch | src/claude_code_tracer/core/pty_monitor.py:66 | a token-note match runs from `(` to `)` |
| Sanitizer.NoteEndAtLastParen | src/claude_code_tracer/core/pty_monitor.py:66 | the note ends at the last `)` of the line when `tokens` comes before it |
| Sanitizer.TokenNoteMatched | src/claude_code_tracer/core/pty_monitor.py:66 | a timing note `(<digits>s … tokens … )` is matched exactly up to its closing parenthesis |
| Sanitizer.NoteJoinsNeighbours | src/claude_code_tracer/core/pty_monitor.py:66 | deleting a token note joins the text on either side of it |
| Sanitizer.TokenNoteCanFormCwd | src/claude_code_tracer/core/pty_monitor.py:65-66 | the token-note deletion, which runs after the `cwd:` deletion, can form a new `cwd:` |
| Sanitizer.DeleteNoise | src/claude_code_tracer/core/pty_monitor.py:63-67 | the five boilerplate deletions never lengthen the text or add characters |
| Sanitizer.CleanClaudeOutput | src/claude_code_tracer/core/pty_monitor.py:50-69 | the result is trimmed, has no box-drawing or bullet glyph, has no whitespace but plain spaces (so no newline), and has no characters that are not in the input except spaces |
| Sanitizer.NoMarkerNoMatch | src/claude_code_tracer/core/pty_monitor.py:63-67 | a boilerplate pattern deletes nothing from text without its marker |
| Sanitizer.CleanKeepsPlainText | src/claude_code_tracer/core/pty_monitor.py:50-69 | trimmed, collapsed, undecorated output with no boilerplate passes through unchanged |
| Sanitizer.CleanCanEndInCwd | src/claude_code_tracer/core/pty_monitor.py:50-69 | `cw(1s tokens)d:` does not contain `cwd:` but cleans to `cwd:` |
| Sanitizer.CutWholeLine | src/claude_code_tracer/core/pty_monitor.py:64-65 | a line that starts with the marker is deleted whole |
| Sanitizer.CutAtMarker | src/claude_code_tracer/core/pty_monitor.py:64-65 | on one line, `marker.*` keeps exactly the text before the first marker, and no marker remains |
| PtyMonitor.InteractionIdInjective | src/claude_code_tracer/core/pty_monitor.py:275 | interaction ids `int-<n>` are distinct for distinct counters |
| PtyMonitor.IdsUnique | src/claude_code_tracer/core/pty_monitor.py:274-287 | no two interactions of a well-formed session share an id |
| PtyMonitor.CaptureInput | src/claude_code_tracer/core/pty_monitor.py:200-217 | Enter switches to `assistant_output` and does not add the chunk; other chunks move `waiting` to `user_input` and are appended, or are dropped while the response is awaited; nothing else changes |
| PtyMonitor.TypingAccumulates | src/claude_code_tracer/core/pty_monitor.py:210-217 | keystroke chunks without Enter pile up, in order, in the user buffer |
| PtyMonitor.Cleaned | src/claude_code_tracer/core/pty_monitor.py:255-256 | the stripped buffer text has no whitespace at either end |
| PtyMonitor.SaveInteraction | src/claude_code_tracer/core/pty_monitor.py:252-294 | with no user text nothing changes (the buffers are not cleared); otherwise exactly one interaction is appended, the count goes up by one and both buffers are cleared |
| PtyMonitor.SaveKeepsWellFormed | src/claude_code_tracer/core/pty_monitor.py:255-287 | saving keeps the invariant: interaction i has number i and id `int-i`, its prompt is the masked, cleaned user text and its response the masked, cleaned assistant text, and the count is the number of interactions |
| PtyMonitor.SavedInteractionContents | src/claude_code_tracer/core/pty_monitor.py:255-283 | the new interaction has id `int-<count>` and the old count as its number, carries the stripped buffers and the masked, cleaned prompt; its response is empty when the cleaned output is empty and the masked cleaned output otherwise |
| PtyMonitor.Kept | src/claude_code_tracer/core/pty_monitor.py:227-240 | recorded lines are stripped and are never blank, `>`, or the echo of the user text |
| PtyMonitor.CapturedIsJoin | src/claude_code_tracer/core/pty_monitor.py:242 | the appended text is the recorded lines, each closed by a newline |
| PtyMonitor.CapturedLines | src/claude_code_tracer/core/pty_monitor.py:225-242 | splitting the appended text at newlines gives back exactly the recorded lines |
| PtyMonitor.ProcessOutputBuffer | src/claude_code_tracer/core/pty_monitor.py:219-250 | outside `assistant_output` nothing changes; recorded interactions are only ever appended, in step with the count |
| PtyMonitor.ProcessKeepsWellFormed | src/claude_code_tracer/core/pty_monitor.py:219-250 | processing output keeps the session invariant |
| PtyMonitor.ResponseLinesAppended | src/claude_code_tracer/core/pty_monitor.py:221-243 | without a prompt, the buffer's recorded lines are appended to the assistant text, and nothing else changes |
| PtyMonitor.PromptClosesExchange | src/claude_code_tracer/core/pty_monitor.py:246-250 | a `>` while the response is awaited tries one save and returns to `waiting` |
| PtyMonitor.TypedPromptRecorded | src/claude_code_tracer/core/pty_monitor.py:200-250 | typing key by key, Enter, then a prompt records one interaction with the typed text |
| PtyMonitor.EnterChunkNotRecorded | src/claude_code_tracer/core/pty_monitor.py:205-209 | a chunk that holds its own Enter, typed into an empty buffer, records nothing |
| PtyMonitor.BufferingAsWritten | src/claude_code_tracer/core/pty_monitor.py:182-192 | the buffer is processed if and only if the chunk has a newline or `>`, and then it is processed whole; what is kept has no newline |
| PtyMonitor.AsWrittenRefeedsLastLine | src/claude_code_tracer/core/pty_monitor.py:185-192 | the line kept after a newline-only chunk was just processed, and it is processed again at the next flush |
| PtyMonitor.AsWrittenDuplicatesPartialLine | src/claude_code_tracer/core/pty_monitor.py:185-192 | `ab\ncd` and then `ef>` feed `cd` twice |
| PtyMonitor.Buffering | src/claude_code_tracer/core/pty_monitor.py:182-192 | corrected rule: the processed part and the kept part together are the buffer; the kept part has no newline, and is empty after a `>` |
| PtyMonitor.BufferingKeepsSameLine | src/claude_code_tracer/core/pty_monitor.py:189-192 | the corrected rule keeps the same incomplete line as the code does |
| PtyMonitor.FeedAll | src/claude_code_tracer/core/pty_monitor.py:180-192 | over any run of chunks, each output character is processed exactly once or still waits |
| PtyMonitor.Release | src/claude_code_tracer/core/pty_monitor.py:182-192 | under either rule a chunk flushes if and only if it has a newline or `>`; the code's rule processes the whole buffer, the corrected one splits it into processed and waiting parts; what waits has no newline |
| PtyMonitor.OutputStep | src/claude_code_tracer/core/pty_monitor.py:179-192 | one terminal chunk, under either rule, keeps the session invariant, only appends interactions, and keeps no newline in the buffer |
| PtyMonitor.OutputStepRulesKeepSame | src/claude_code_tracer/core/pty_monitor.py:185-192 | the code's rule and the corrected one leave the same text waiting after a chunk |
| PtyMonitor.OutputStepAsWrittenFeedsWhole | src/claude_code_tracer/core/pty_monitor.py:185-186 | under the code's rule a chunk with a newline or `>` has the whole buffer, waiting text included, processed |
| PtyMonitor.MonitorLoop | src/claude_code_tracer/core/pty_monitor.py:137-198 | the loop, under either buffering rule, leaves the session as it is when the first event is a process exit, an empty read or Ctrl-D; it keeps the session invariant and only appends interactions |
| PtyMonitor.LoopIgnoresAfterStop | src/claude_code_tracer/core/pty_monitor.py:141-176 | the loop breaks at the first process exit, empty read or Ctrl-D: the events after it have no effect |
| PtyMonitor.CompleteSession | src/claude_code_tracer/core/pty_monitor.py:302-307 | completion marks the session completed with the given total and flushes nothing |
| PtyMonitor.StartMonitoring | src/claude_code_tracer/core/pty_monitor.py:77-135 | with the loop buffering as the code does, the session is `pty-<stamp>` for the command and ends completed; its total equals its number of interactions, numbered 0, 1, … with ids `int-<i>`, each prompt the masked, cleaned user text and each response the masked, cleaned assistant text |
| MonitorV2.MentionsAnyMeans | src/claude_code_tracer/core/monitor_v2.py:274 | `any(word in text …)` holds if and only if some word occurs in the text |
| MonitorV2.FirstRule | src/claude_code_tracer/core/monitor_v2.py:273-283 | finds the first category with a keyword in the text, or none has one |
| MonitorV2.IntentIsFirstMatch | src/claude_code_tracer/core/monitor_v2.py:273-283 | the intent is the first matching category in the fixed order, else `general` |
| MonitorV2.Detected | src/claude_code_tracer/core/monitor_v2.py:293-295 | a language is listed if and only if its table row has a keyword in the text |
| MonitorV2.DetectLanguages | src/claude_code_tracer/core/monitor_v2.py:286-299 | at most three languages, and the cut to three drops none |
| MonitorV2.DetectedInOrder | src/claude_code_tracer/core/monitor_v2.py:293-295 | a table in rank order yields languages in strictly ascending rank |
| MonitorV2.LanguagesInTableOrder | src/claude_code_tracer/core/monitor_v2.py:286-299 | languages come in the order python, javascript, typescript, each at most once |
| MonitorV2.LanguageDetectedIff | src/claude_code_tracer/core/monitor_v2.py:293-295 | a language is listed if and only if one of its keywords occurs |
| MonitorV2.Complexity | src/claude_code_tracer/core/monitor_v2.py:301 | the score lies in [0, 1], is 1 if and only if the length is at least 5000, and is length/5000 below that |
| MonitorV2.ComplexityMonotone | src/claude_code_tracer/core/monitor_v2.py:301 | longer text never scores lower |
| MonitorV2.AnalyzeText | src/claude_code_tracer/core/monitor_v2.py:297-303 | frameworks and topics are empty, the score lies in [0, 1], and there are at most three languages |
| MonitorV2.AnalyzeContext | src/claude_code_tracer/core/monitor_v2.py:268-303 | the same bounds for a prompt and its response |
| MonitorV2.AnalysisIntent | src/claude_code_tracer/core/monitor_v2.py:273-283 | the recorded intent names the first matching category, and is `general` if and only if none matches |
| MonitorV2.AnalysisLanguages | src/claude_code_tracer/core/monitor_v2.py:286-299 | a language name is recorded if and only if one of its keywords occurs |
| MonitorV2.AnalysisMeaning | src/claude_code_tracer/core/monitor_v2.py:268-303 | the analysis of a prompt and response is that of the lower-cased `prompt\nresponse`, scored by its length |
| MonitorV2.AnalysisIgnoresCase | src/claude_code_tracer/core/monitor_v2.py:270 | inputs that differ only in letter case get the same analysis |
| MonitorV2.CreateSession | src/claude_code_tracer/core/monitor_v2.py:178-219 | a successful creation registers the session with counter 0; a failed one changes nothing; every active session has a counter |
| MonitorV2.CompleteSession | src/claude_code_tracer/core/monitor_v2.py:221-266 | a successful completion forgets the session and its counter; other sessions' counters are untouched |
| MonitorV2.MonitorQuery | src/claude_code_tracer/core/monitor_v2.py:69-189 | a query numbers at most two interactions, keeps the bookkeeping consistent, and leaves other sessions' counters alone; when it raises, nothing was numbered, and the session is active afterwards exactly when it was before or its project path is absolute; an already active session, or a refused path, leaves everything unchanged |
| MonitorV2.QueryNumbering | src/claude_code_tracer/core/monitor_v2.py:93-169 | the user interaction gets n, the assistant interaction n + 1, and the counter ends at n + 2; a new session starts at 0 |
| MonitorV2.QueryUserSaveFails | src/claude_code_tracer/core/monitor_v2.py:108-113 | a failing save of the user interaction escapes the query: nothing is numbered, the counter stays where it was and the session stays active |
| MonitorV2.QueryWithoutSession | src/claude_code_tracer/core/monitor_v2.py:80-87 | if storing the new session fails silently, nothing is numbered and nothing changes |
| MonitorV2.QueryRelativePathRaises | src/claude_code_tracer/core/monitor_v2.py:178-189 | a new session whose project path does not start with `/` is refused by the session validator before the `try`: the query raises, nothing is registered and nothing is numbered |
| MonitorV2.QueryStreamFails | src/claude_code_tracer/core/monitor_v2.py:93-176 | a failing stream numbers only the user interaction, with the counter n; a successful completion then forgets the session and its counter, and a failing one, swallowed, leaves it active at n + 1 |
| MonitorV2.Queries | src/claude_code_tracer/core/monitor_v2.py:69-176 | repeated queries keep the bookkeeping consistent |
| MonitorV2.QueriesNumberConsecutively | src/claude_code_tracer/core/monitor_v2.py:93-169 | k queries with an absolute project path (or an already active session) in which everything succeeds raise nothing and number their interactions start, start + 1, …, start + 2k − 1, with no gaps or repeats |
| Interactions.ValidateTokens | src/claude_code_tracer/models/interaction.py:30-36 | afterwards, total = prompt + completion (missing keys read as 0), with prompt, completion and every other key kept; the counts are unchanged if and only if they were already consistent |
| Interactions.ValidateTokensIdempotent | src/claude_code_tracer/models/interaction.py:30-36 | repairing twice is repairing once |
| Interactions.DefaultTokensConsistent | src/claude_code_tracer/models/interaction.py:24-26 | the default counts pass unchanged |
| Interactions.ValidateMessageType | src/claude_code_tracer/models/interaction.py:68-75 | accepted, and returned unchanged, if and only if it is user, assistant or system; otherwise a `ValueError` |
| Interactions.MessageTypesAccepted | src/claude_code_tracer/models/interaction.py:70-75 | each of the three names passes |
| Interactions.CheckInteraction | src/claude_code_tracer/models/interaction.py:61-75 | a record is accepted, unchanged, if and only if its message type is known, its sequence number is non-negative and every tool time is non-negative |
| Interactions.TotalToolExecutionTime | src/claude_code_tracer/models/interaction.py:133-139 | 0 without tools, and non-negative for a valid record |
| Interactions.IsError | src/claude_code_tracer/models/interaction.py:124-126 | an interaction is an error if and only if some error message was recorded |
| Interactions.HasToolUsage | src/claude_code_tracer/models/interaction.py:128-131 | an interaction has tool usage if and only if some tool is in its list |
| Interactions.TotalToolTimeNonNegative | src/claude_code_tracer/models/interaction.py:133-139 | with valid tools the sum is non-negative and bounds every single tool's time |
| Interactions.TotalToolTimeAppend | src/claude_code_tracer/models/interaction.py:136-139 | the sum over two lists of tools is the sum of their sums |
| Interactions.UnmeasuredToolsAddNothing | src/claude_code_tracer/models/interaction.py:136-139 | tools without a time count as 0 |
| Interactions.CheckSearchRequest | src/claude_code_tracer/models/interaction.py:151-152 | accepted, unchanged, if and only if the limit is in 1..100 and the offset is non-negative |
| Interactions.DefaultSearchAccepted | src/claude_code_tracer/models/interaction.py:151-152 | the defaults, 20 and 0, pass |
| Sessions.ValidateProjectPath | src/claude_code_tracer/models/session.py:19-25 | accepted, and returned unchanged, if and only if the path starts with `/` |
| Sessions.ProjectPathExtends | src/claude_code_tracer/models/session.py:19-25 | an accepted path stays accepted when extended |
| Sessions.ValidateStatus | src/claude_code_tracer/models/session.py:27-34 | accepted, unchanged, if and only if it is active, completed, error or timeout |
| Sessions.DefaultStatusAccepted | src/claude_code_tracer/models/session.py:16 | the default status `active` passes |
| Sessions.MonitorStatusesAccepted | src/claude_code_tracer/models/session.py:29-34 | `active` and `completed` pass |
| Sessions.CheckSession | src/claude_code_tracer/models/session.py:59-65 | a stored session is accepted, unchanged, if and only if its path, its status and its non-negative total all pass |
| Sessions.NewSessionAccepted | src/claude_code_tracer/models/session.py:59-65 | a new session with an absolute path and the defaults passes |
| Dependencies.CommonQueryParams | src/claude_code_tracer/api/dependencies.py:63-85 | accepted if and only if limit is in 1..100, offset is at least 0 and the order is asc or desc; the four values are stored unchanged; otherwise HTTP 400 |
| Dependencies.ChecksInOrder | src/claude_code_tracer/api/dependencies.py:73-80 | a bad limit is reported first, then a bad offset |
| Dependencies.DefaultsAccepted | src/claude_code_tracer/api/dependencies.py:66-71 | the defaults are accepted |
| Dependencies.BearerToken | src/claude_code_tracer/api/dependencies.py:44-47 | there is a token if and only if the header is present and starts with `Bearer `; the token is at most the header minus the prefix |
| Dependencies.BearerTokenReplacesAll | src/claude_code_tracer/api/dependencies.py:47 | the token is the header with every `Bearer ` removed |
| Dependencies.BearerTokenRoundTrip | src/claude_code_tracer/api/dependencies.py:44-47 | `Bearer ` followed by a token that does not contain the prefix gives the token back |
| Dependencies.BearerTokenRemovesInnerPrefix | src/claude_code_tracer/api/dependencies.py:47 | `Bearer aBearer b` gives `ab`, not `aBearer b` |
| Dependencies.OptionalUser | src/claude_code_tracer/api/dependencies.py:39-60 | no usable header means no user and no provider call; otherwise the provider's answer for the token |
| Config.ParseCorsOrigins | src/claude_code_tracer/utils/config.py:97-102 | a list passes unchanged; a string gives one trimmed, comma-free origin per comma plus one |
| Config.CorsRoundTrip | src/claude_code_tracer/utils/config.py:97-102 | trimmed, comma-free origins joined by commas parse back to themselves |
| Config.CorsPiecesAreStripped | src/claude_code_tracer/utils/config.py:100-101 | each origin is the stripped piece between commas, and the pieces rejoin to the text |
| Config.ValidateLogLevel | src/claude_code_tracer/utils/config.py:104-110 | accepted, returned upper-cased, if and only if the upper-cased text is one of the five level names; otherwise a `ValueError` |
| Config.LogLevelIdempotent | src/claude_code_tracer/utils/config.py:104-110 | an accepted level validates to itself |
| Config.LogLevelIgnoresCase | src/claude_code_tracer/utils/config.py:104-110 | spellings that differ only in case are accepted together and give the same level |
| Config.DefaultLogLevelAccepted | src/claude_code_tracer/utils/config.py:44 | the default `INFO` passes |
| Config.ExactlyOneEnvironment | src/claude_code_tracer/utils/config.py:112-125 | exactly one of the three environment predicates holds |

## Left out

- Terminal and process I/O is not modelled. This covers PTY allocation, raw mode, `select`, `os.read`/`os.write`, process spawning, the debug log and the JSON session files. `_monitor_loop` runs over a sequence of events: a keyboard chunk, a terminal chunk, or the exit of the process.
- Each event carries an already decoded chunk. UTF-8 decoding with `errors='ignore'` is not modelled, so an empty chunk stands for an empty read. A non-empty read that decodes to nothing is not told apart from it.
- An `OSError` from `process.poll`, `select`, `os.read` or `os.write` ends the loop (pty_monitor.py:196-198). One raised while capturing is different: writing the session file or the debug log fails inside the inner handlers at lines 167 and 193, which log it, and the loop continues. I/O errors are not modelled.
- PtyMonitor.SaveInteraction: always succeeds. In the code, `_save_session` can raise after the interaction has been appended and counted (pty_monitor.py:285-289). The buffers are then not cleared, the rest of `_process_output_buffer` is skipped, the mode stays `assistant_output`, and `_monitor_loop` does not reset its output buffer for that chunk.
- Clocks are not modelled. Start and end times are left out, and the formatted start time of a PTY session is a parameter.
- `hashlib.sha256` is the parameter `digest` of the whitelist.
- Python's `re` engine is not modelled for the privacy patterns: compiling, searching, the groups of a compiled pattern, and substituting are the parameter `RegexEngine`. Which replacement templates `re.sub` refuses for a pattern's groups is written out (`templates.dfy`), following the template parser of Python 3.12's `re` module.
- Privacy.ScanAndMask: every refused template is reported as `RegexError` with the template. Python raises `IndexError`, not `re.error`, for `\g<name>` with an identifier that is not a group name of the pattern.
- Privacy.SetEnabled: registry entries are values, so only the entry at the first matching index changes. `disable_pattern` and `enable_pattern` set the flag on the `SensitivePattern` object itself. A custom pattern object that was added twice, or that is shared with another guard or kept by the caller, changes everywhere it is referenced. The defaults are built afresh for each guard, so this only concerns custom patterns.
- `mask_text` and `get_privacy_guard` are called but not defined in the privacy module. Masking is the parameter `mask`.
- The privacy module uses `Any` without importing it, so importing the module would raise `NameError`. The model assumes the module loads.
- Sanitizer.CleanClaudeOutput: does not promise that `/help for help` or `cwd:` are absent from the result, because the later token-note deletion can form them again (`Sanitizer.CleanCanEndInCwd`).
- Sanitizer.CleanClaudeOutput: the step `re.sub(r'^\s*\n', '', …)` is not written out. No newline survives the whitespace collapse before it, so it changes nothing.
- Sanitizer.TokenNoteMatch: `\d` matches only ASCII digits here. Python's `\d` on `str` also matches other Unicode decimal digits.
- Strings.Upper: only ASCII letters change case. Python's `str.upper` also maps other letters.
- Strings.Lower: only ASCII letters change case. Python's `str.lower` also maps other letters.
- MonitorV2.Complexity: uses exact real division, not floating point.
- The SDK monitor's stream, its storage back ends (local file or Supabase), the generation of session ids from MD5 and the clock, and the prompt masking are not modelled. The project path `_create_session` records, and whether storing the session, the user save, the stream and completion succeed, are the parameter `QueryRun`. Only the path validator of the session record is modelled among the things that can raise before `_create_session`'s `try`.
- The fields of the records that no modelled rule reads are left out: UUIDs, datetimes, costs, metadata, response times, and the float bounds on costs.
- Pydantic's exception wrapping and the exact validation messages are not modelled. A rejection is a `ValueError` or, for the API, an HTTP 400.
- `PrivacyMode` is never read by the privacy guard. Modes and overlap resolution are therefore not modelled.
- The following are database, HTTP or foreign-call plumbing and are not part of this model: the FastAPI routes and app, `get_current_user`, the Supabase service, the SQL setup, the older SDK monitor `core/monitor.py`, the API capture script, the CLI entry points and the viewer.
- Console output (`print`) and debug logging are not modelled.

## Findings

| source | as written | input that shows it | evidently intended | confidence | as-written member | corrected member |
|---|---|---|---|---|---|---|
| src/claude_code_tracer/core/privacy.py:158-160 | The replacement `'C:\\Users\\[USERNAME]'` is a non-raw literal. It is therefore the text `C:\Users\[USERNAME]`, and `re.sub`'s template parser refuses its `\U` escape with `re.error` | content `C:\Users\alice`: the Windows pattern matches, so `scan_and_mask` raises instead of masking | the raw replacement `r'C:\\Users\\[USERNAME]'`, which produces `C:\Users\[USERNAME]` | not executed | Defaults.AsWrittenScanRaises | Defaults.DefaultScanNeverRaises |
| src/claude_code_tracer/core/pty_monitor.py:185-192 | After a chunk with a newline and no `>`, the whole buffer is processed and its incomplete last line is kept. That line is then processed again with the next flush | the chunks `ab\ncd` then `ef>`: `cd` is processed in the first flush and again, as `cdef>`, in the second | process only the complete lines and keep the incomplete one for later | not executed | PtyMonitor.AsWrittenDuplicatesPartialLine | PtyMonitor.FeedAll |

=== FILE: config.dfy ===
/** The settings validators: the comma-separated CORS origin list, the
    log-level check and the environment predicates. Reading the settings
    from the environment and the `.env` file is not modelled. */
module Config {
  import opened Results
  import opened Strings

  // ---------------------------------------------------------------------
  // CORS origins
  // ---------------------------------------------------------------------

  /** The raw `cors_origins` value before validation: a comma-separated
      string from the environment, or an already parsed list. */
  datatype CorsValue = CorsText(text: string) | CorsList(origins: seq<string>)

  const DefaultCorsOrigins: seq<string> := ["http://localhost:3000", "http://localhost:8000"]

  function StripAll(parts: seq<string>): (r: seq<string>)
    ensures |r| == |parts| && forall i :: 0 <= i < |parts| ==> r[i] == Strip(parts[i])
  {
    seq(|parts|, i requires 0 <= i < |parts| => Strip(parts[i]))
  }

  /** `Settings.parse_cors_origins`: a string becomes one stripped origin
      per comma-separated piece; anything else passes through unchanged. */
  function ParseCorsOrigins(v: CorsValue): (r: CorsValue)
    ensures v.CorsList? ==> r == v
    ensures v.CorsText? ==> r.CorsList? && |r.origins| == multiset(v.text)[','] + 1
    ensures v.CorsText? ==> forall i :: 0 <= i < |r.origins| ==>
      IsTrimmed(r.origins[i]) && ',' !in r.origins[i]
  {
    match v
    case CorsList(_) => v
    case CorsText(s) =>
      var pieces := Split(s, ',');
      SplitCount(s, ',');
      var origins := StripAll(pieces);
      assert forall i :: 0 <= i < |origins| ==> ',' !in origins[i] by {
        forall i | 0 <= i < |origins|
          ensures ',' !in origins[i]
        {
          assert ',' !in pieces[i];
          assert forall k :: 0 <= k < |origins[i]| ==> origins[i][k] in pieces[i];
        }
      }
      CorsList(origins)
  }

  /** Writing trimmed origins without commas as one comma-separated string
      and parsing it gives the origins back. */
  lemma CorsRoundTrip(origins: seq<string>)
    requires |origins| >= 1
    requires forall i :: 0 <= i < |origins| ==> IsTrimmed(origins[i]) && ',' !in origins[i]
    ensures ParseCorsOrigins(CorsText(Join(origins, ','))) == CorsList(origins)
  {
    SplitJoin(origins, ',');
    var r := ParseCorsOrigins(CorsText(Join(origins, ',')));
    assert StripAll(origins) == origins;
  }

  /** The pieces are the stripped text between consecutive commas: putting
      them back together with commas restores the text up to the spaces
      around each origin. */
  lemma CorsPiecesAreStripped(s: string)
    ensures var r := ParseCorsOrigins(CorsText(s));
      var pieces := Split(s, ',');
      && Join(pieces, ',') == s
      && forall i :: 0 <= i < |r.origins| ==> r.origins[i] == Strip(pieces[i])
  {
    JoinSplit(s, ',');
  }

  // ---------------------------------------------------------------------
  // Log level
  // ---------------------------------------------------------------------

  const LogLevels: seq<string> := ["DEBUG", "INFO", "WARNING", "ERROR", "CRITICAL"]

  const DefaultLogLevel: string := "INFO"

  /** `Settings.validate_log_level`: the upper-cased level when it is one
      of the five names, a `ValueError` otherwise. */
  function ValidateLogLevel(v: string): (r: Result<string>)
    ensures r.Ok? <==> Upper(v) in LogLevels
    ensures r.Ok? ==> r.value == Upper(v) && r.value in LogLevels
    ensures r.Fail? ==> r.error.ValueError?
  {
    var u := Upper(v);
    if u !in LogLevels then Fail(ValueError("Invalid log level: " + v))
    else Ok(u)
  }

  lemma UpperIdempotent(s: string)
    ensures Upper(Upper(s)) == Upper(s)
  {
    var u := Upper(s);
    assert forall i :: 0 <= i < |s| ==> UpperChar(u[i]) == u[i];
  }

  /** Validating an accepted level again changes nothing. */
  lemma LogLevelIdempotent(v: string)
    requires ValidateLogLevel(v).Ok?
    ensures ValidateLogLevel(ValidateLogLevel(v).value) == ValidateLogLevel(v)
  {
    UpperIdempotent(v);
  }

  /** Spellings that differ only in letter case are accepted or rejected
      together, and accepted ones give the same level. */
  lemma LogLevelIgnoresCase(a: string, b: string)
    requires Lower(a) == Lower(b)
    ensures ValidateLogLevel(a).Ok? <==> ValidateLogLevel(b).Ok?
    ensures ValidateLogLevel(a).Ok? ==> ValidateLogLevel(a).value == ValidateLogLevel(b).value
  {
    forall i | 0 <= i < |a|
      ensures UpperChar(a[i]) == UpperChar(b[i])
    {
      assert LowerChar(a[i]) == LowerChar(b[i]);
    }
    assert Upper(a) == Upper(b);
  }

  /** The default level passes. */
  lemma DefaultLogLevelAccepted()
    ensures ValidateLogLevel(DefaultLogLevel) == Ok(DefaultLogLevel)
  {
    assert Upper(DefaultLogLevel) == DefaultLogLevel;
  }

  // ---------------------------------------------------------------------
  // Environment
  // ---------------------------------------------------------------------

  datatype Environment = Development | Production | Testing

  const DefaultEnvironment: Environment := Production

  predicate IsDevelopment(e: Environment) { e == Development }
  predicate IsProduction(e: Environment) { e == Production }
  predicate IsTesting(e: Environment) { e == Testing }

  /** Exactly one of the three predicates holds. */
  lemma ExactlyOneEnvironment(e: Environment)
    ensures (if IsDevelopment(e) then 1 else 0) + (if IsProduction(e) then 1 else 0)
      + (if IsTesting(e) then 1 else 0) == 1
  {
  }
}

=== FILE: defaults.dfy ===
/** The registry `PrivacyGuard` starts with: the default patterns as the
    source writes them, and the same registry with the Windows
    user-directory replacement corrected. */
module Defaults {
  import opened Results
  import opened Templates
  import opened Privacy

  function Pattern(pattern: string, description: string, replacement: string, level: SensitivityLevel): SensitivePattern {
    SensitivePattern(pattern, description, replacement, level, true)
  }

  /** The replacement the source gives the Windows user-directory pattern:
      the Python literal 'C:\\Users\\[USERNAME]', i.e. the text `C:\Users\[USERNAME]`. */
  const WindowsReplacementAsWritten: string := @"C:\Users\[USERNAME]"

  /** A pattern whose replacement has no backslash, so that the template
      parser accepts it whatever groups the pattern has. */
  type PlainPattern = p: SensitivePattern | '\\' !in p.replacement
    witness SensitivePattern("", "", "", Low, false)

  /** An enabled pattern with a replacement free of backslashes. */
  function Plain(pattern: string, description: string, replacement: string, level: SensitivityLevel): PlainPattern
    requires '\\' !in replacement
  {
    Pattern(pattern, description, replacement, level)
  }

  /** Templates a pattern without groups accepts, all of them. */
  predicate AllAccepted(ps: seq<SensitivePattern>) {
    forall i :: 0 <= i < |ps| ==> !TemplateFault(ps[i].replacement, NoGroups)
  }

  lemma PlainAccepted(ps: seq<PlainPattern>)
    ensures AllAccepted(ps)
  {
    forall i | 0 <= i < |ps|
      ensures !TemplateFault(ps[i].replacement, NoGroups)
    {
      NoBackslashNoFault(ps[i].replacement, NoGroups);
    }
  }

  lemma AcceptedJoin(a: seq<SensitivePattern>, p: SensitivePattern, b: seq<SensitivePattern>)
    requires AllAccepted(a) && !TemplateFault(p.replacement, NoGroups) && AllAccepted(b)
    ensures AllAccepted(a + [p] + b)
  {
    var ps := a + [p] + b;
    forall i | 0 <= i < |ps|
      ensures !TemplateFault(ps[i].replacement, NoGroups)
    {
      if i < |a| {
        assert ps[i] == a[i];
      } else if i > |a| {
        assert ps[i] == b[i - |a| - 1];
      }
    }
  }

  /** The default patterns of `_load_default_patterns`, in registry order.
      The Windows user-directory replacement is written so that `re.sub`
      reproduces `C:\Users\[USERNAME]`. */
  const OpenAiKey: PlainPattern := Plain(@"sk-[a-zA-Z0-9]{48}", "OpenAI API Key", "[OPENAI_API_KEY]", Maximum)
  const AnthropicKey: PlainPattern := Plain(@"ANTHROPIC_API_KEY=[a-zA-Z0-9\-_]{40,}", "Anthropic API Key", "ANTHROPIC_API_KEY=[REDACTED]", Maximum)
  const GitHubToken: PlainPattern := Plain(@"ghp_[a-zA-Z0-9]{36}", "GitHub Personal Access Token", "[GITHUB_TOKEN]", Maximum)
  const GitHubSecret: PlainPattern := Plain(@"ghs_[a-zA-Z0-9]{36}", "GitHub Secret", "[GITHUB_SECRET]", Maximum)
  const PostgresUrl: PlainPattern := Plain(@"postgresql://[^@\s]+:[^@\s]+@[^/\s]+/\w+", "PostgreSQL Connection String", "postgresql://[USER]:[PASS]@[HOST]/[DB]", Critical)
  const MongoDbUrl: PlainPattern := Plain(@"mongodb\+srv://[^@\s]+:[^@\s]+@[^/\s]+", "MongoDB Connection String", "mongodb+srv://[USER]:[PASS]@[HOST]", Critical)
  const MySqlUrl: PlainPattern := Plain(@"mysql://[^@\s]+:[^@\s]+@[^/\s]+/\w+", "MySQL Connection String", "mysql://[USER]:[PASS]@[HOST]/[DB]", Critical)
  const SupabaseUrl: PlainPattern := Plain(@"https://[a-zA-Z0-9]+\.supabase\.co", "Supabase Project URL", "https://[PROJECT].supabase.co", High)
  const JwtToken: PlainPattern := Plain(@"eyJ[a-zA-Z0-9\-_=]+\.[a-zA-Z0-9\-_=]+\.[a-zA-Z0-9\-_=]+", "JWT Token", "[JWT_TOKEN]", Critical)
  const AwsAccessKey: PlainPattern := Plain(@"AKIA[0-9A-Z]{16}", "AWS Access Key ID", "[AWS_ACCESS_KEY_ID]", Maximum)
  const EmailAddress: PlainPattern := Plain(@"\b[A-Za-z0-9._%+-]+@[A-Za-z0-9.-]+\.[A-Z|a-z]{2,}\b", "Email Address", "[EMAIL]", Medium)
  const PhoneJp: PlainPattern := Plain(@"\b\d{3}-\d{4}-\d{4}\b", "Japanese Phone Number", "[PHONE_JP]", High)
  const PhoneUs: PlainPattern := Plain(@"\b\d{3}-\d{3}-\d{4}\b", "US Phone Number", "[PHONE_US]", High)
  const CardNumber: PlainPattern := Plain(@"\b\d{4}[\s\-]?\d{4}[\s\-]?\d{4}[\s\-]?\d{4}\b", "Credit Card Number", "[CARD_NUMBER]", Maximum)
  const Ssn: PlainPattern := Plain(@"\b\d{3}-\d{2}-\d{4}\b", "SSN", "[SSN]", Maximum)
  const MacUserDir: PlainPattern := Plain(@"/Users/[^/\s]+", "macOS User Directory", "/Users/[USERNAME]", Low)
  const LinuxHomeDir: PlainPattern := Plain(@"/home/[^/\s]+", "Linux Home Directory", "/home/[USERNAME]", Low)
  const WindowsUserDir: SensitivePattern := Pattern(@"C:\\Users\\[^\\s\\]+", "Windows User Directory", WindowsReplacement, Low)
  const PrivateIp: PlainPattern := Plain(@"\b(?:10\.|172\.(?:1[6-9]|2[0-9]|3[01])\.|192\.168\.)\d{1,3}\.\d{1,3}\b", "Private IP Address", "[PRIVATE_IP]", Medium)
  const PasswordAssignment: PlainPattern := Plain(@"(?i)password\s*[:=]\s*[""\']?[^\s""\']{8,}", "Password Assignment", "password=[REDACTED]", Maximum)
  const SecretAssignment: PlainPattern := Plain(@"(?i)secret\s*[:=]\s*[""\']?[^\s""\']{8,}", "Secret Assignment", "secret=[REDACTED]", Maximum)
  const ApiKeyAssignment: PlainPattern := Plain(@"(?i)api_key\s*[:=]\s*[""\']?[^\s""\']{16,}", "API Key Assignment", "api_key=[REDACTED]", Maximum)

  /** The defaults that come before the Windows user-directory pattern. */
  const DefaultsBeforeWindows: seq<PlainPattern> := [
    OpenAiKey,
    AnthropicKey,
    GitHubToken,
    GitHubSecret,
    PostgresUrl,
    MongoDbUrl,
    MySqlUrl,
    SupabaseUrl,
    JwtToken,
    AwsAccessKey,
    EmailAddress,
    PhoneJp,
    PhoneUs,
    CardNumber,
    Ssn,
    MacUserDir,
    LinuxHomeDir
  ]

  /** The defaults that come after it. */
  const DefaultsAfterWindows: seq<PlainPattern> := [
    PrivateIp,
    PasswordAssignment,
    SecretAssignment,
    ApiKeyAssignment
  ]

  const DefaultPatterns: seq<SensitivePattern> := DefaultsBeforeWindows + [WindowsUserDir] + DefaultsAfterWindows

  /** Index of the Windows user-directory pattern in the default registry. */
  const WindowsIndex: nat := 17

  /** The Windows user-directory pattern exactly as the source writes it. */
  const WindowsUserDirAsWritten: SensitivePattern := WindowsUserDir.(replacement := WindowsReplacementAsWritten)

  /** The default registry exactly as the source writes it. */
  const DefaultPatternsAsWritten: seq<SensitivePattern> :=
    DefaultsBeforeWindows + [WindowsUserDirAsWritten] + DefaultsAfterWindows

  /** A faulting pattern makes any registry containing it raise. */
  lemma FaultAfterPrefix(before: seq<SensitivePattern>, p: SensitivePattern, after: seq<SensitivePattern>,
                         e: RegexEngine, content: string)
    requires Faults(p, e, content)
    ensures FirstFault(before + [p] + after, e, content).Some?
  {
    assert (before + [p] + after)[|before|] == p;
    FaultingPatternRaises(before + [p] + after, |before|, e, content);
  }

  /** As written, the Windows replacement holds the escape `\U`, which the
      template parser refuses whatever groups the pattern has. */
  lemma WindowsTemplateRejected(g: Groups)
    ensures TemplateFault(WindowsReplacementAsWritten, g)
  {
    var t := WindowsReplacementAsWritten;
    assert t == "C:" + (['\\', 'U'] + @"sers\[USERNAME]");
    BadLetterEscape('U', @"sers\[USERNAME]", g);
    PlainPrefix("C:", ['\\', 'U'] + @"sers\[USERNAME]", g);
  }

  /** So, with the registry as written, any content in which the Windows
      pattern matches (say `C:\Users\alice`) makes `scan_and_mask` raise. */
  lemma AsWrittenScanRaises(e: RegexEngine, content: string)
    requires e.search(WindowsUserDirAsWritten.pattern, content)
    ensures FirstFault(DefaultPatternsAsWritten, e, content).Some?
  {
    var w := WindowsUserDirAsWritten;
    assert w.enabled && w.replacement == WindowsReplacementAsWritten;
    WindowsTemplateRejected(e.groups(w.pattern));
    assert Faults(w, e, content);
    assert |DefaultsBeforeWindows| == WindowsIndex;
    FaultAfterPrefix(DefaultsBeforeWindows, w, DefaultsAfterWindows, e, content);
  }

  /** Every corrected default replacement is accepted by the template parser. */
  lemma DefaultTemplatesAccepted()
    ensures forall i :: 0 <= i < |DefaultPatterns| ==> !TemplateFault(DefaultPatterns[i].replacement, NoGroups)
  {
    PlainAccepted(DefaultsBeforeWindows);
    PlainAccepted(DefaultsAfterWindows);
    WindowsTemplateAccepted(NoGroups);
    AcceptedJoin(DefaultsBeforeWindows, WindowsUserDir, DefaultsAfterWindows);
  }

  /** With the corrected defaults, a scan raises only for a pattern that
      does not compile. */
  lemma DefaultScanNeverRaises(e: RegexEngine, content: string)
    requires forall i :: 0 <= i < |DefaultPatterns| ==> e.compiles(DefaultPatterns[i].pattern)
    ensures FirstFault(DefaultPatterns, e, content).None?
  {
    DefaultTemplatesAccepted();
    AcceptedTemplatesRaiseOnlyOnCompile(DefaultPatterns, e, content);
  }

  /** The corrected Windows replacement, the raw template `C:\\Users\\[USERNAME]`,
      put together from its pieces: each doubled backslash stands for one. */
  const WindowsReplacement: string := "C:" + (@"\\" + ("Users" + (@"\\" + "[USERNAME]")))

  /** The corrected Windows replacement is accepted by the template parser. */
  lemma WindowsTemplateAccepted(g: Groups)
    ensures !TemplateFault(WindowsReplacement, g)
  {
    NoBackslashNoFault("[USERNAME]", g);
    EscapedBackslash("[USERNAME]", g);
    PlainPrefix("Users", @"\\" + "[USERNAME]", g);
    EscapedBackslash("Users" + (@"\\" + "[USERNAME]"), g);
    PlainPrefix("C:", @"\\" + ("Users" + (@"\\" + "[USERNAME]")), g);
  }

  /** `PrivacyGuard(custom_patterns)`: the default patterns as the source
      writes them, followed by the custom patterns, and an empty whitelist. */
  function NewGuard(custom: seq<SensitivePattern>): (g: PrivacyGuard)
    ensures |g.patterns| == |DefaultPatternsAsWritten| + |custom|
    ensures g.patterns[..|DefaultPatternsAsWritten|] == DefaultPatternsAsWritten
    ensures g.patterns[|DefaultPatternsAsWritten|..] == custom
    ensures g.whitelist == {}
  {
    PrivacyGuard(DefaultPatternsAsWritten + custom, {})
  }

  /** The same constructor with the corrected Windows replacement. */
  function NewGuardCorrected(custom: seq<SensitivePattern>): (g: PrivacyGuard)
    ensures |g.patterns| == |DefaultPatterns| + |custom|
    ensures g.patterns[..|DefaultPatterns|] == DefaultPatterns
    ensures g.patterns[|DefaultPatterns|..] == custom
    ensures g.whitelist == {}
  {
    PrivacyGuard(DefaultPatterns + custom, {})
  }

  /** A guard built as the source builds it raises on any content the
      Windows pattern matches, whatever custom patterns it was given. */
  lemma NewGuardRaisesOnWindowsPath(custom: seq<SensitivePattern>, e: RegexEngine, content: string)
    requires e.search(WindowsUserDirAsWritten.pattern, content)
    ensures FirstFault(NewGuard(custom).patterns, e, content).Some?
  {
    var w := WindowsUserDirAsWritten;
    WindowsTemplateRejected(e.groups(w.pattern));
    assert w.enabled && Faults(w, e, content);
    WindowsAsWrittenAt();
    PrefixFaultRaises(NewGuard(custom).patterns, DefaultPatternsAsWritten, WindowsIndex, e, content);
  }

  /** The corrected guard, given custom patterns whose templates are
      accepted, raises only for a pattern that does not compile. */
  lemma NewGuardCorrectedNeverRaises(custom: seq<SensitivePattern>, e: RegexEngine, content: string)
    requires AllAccepted(custom)
    requires AllCompile(DefaultPatterns, e) && AllCompile(custom, e)
    ensures FirstFault(NewGuardCorrected(custom).patterns, e, content).None?
  {
    DefaultTemplatesAccepted();
    var ps := NewGuardCorrected(custom).patterns;
    assert ps == DefaultPatterns + custom;
    BothParts(DefaultPatterns, custom, e);
    AcceptedTemplatesRaiseOnlyOnCompile(ps, e, content);
  }

  /** Every pattern compiles. */
  predicate AllCompile(ps: seq<SensitivePattern>, e: RegexEngine) {
    forall i :: 0 <= i < |ps| ==> e.compiles(ps[i].pattern)
  }

  lemma BothParts(a: seq<SensitivePattern>, b: seq<SensitivePattern>, e: RegexEngine)
    requires AllAccepted(a) && AllAccepted(b) && AllCompile(a, e) && AllCompile(b, e)
    ensures AllAccepted(a + b) && AllCompile(a + b, e)
  {
    var ps := a + b;
    forall i | 0 <= i < |ps|
      ensures !TemplateFault(ps[i].replacement, NoGroups) && e.compiles(ps[i].pattern)
    {
      if i < |a| {
        assert ps[i] == a[i];
      } else {
        assert ps[i] == b[i - |a|];
      }
    }
  }

  /** A registry that starts with `d` raises if some pattern of `d` faults. */
  lemma PrefixFaultRaises(ps: seq<SensitivePattern>, d: seq<SensitivePattern>, k: nat, e: RegexEngine, content: string)
    requires |d| <= |ps| && ps[..|d|] == d && k < |d| && Faults(d[k], e, content)
    ensures FirstFault(ps, e, content).Some?
  {
    assert ps[k] == ps[..|d|][k];
    FaultingPatternRaises(ps, k, e, content);
  }

  /** The Windows pattern as written sits at `WindowsIndex`. */
  lemma WindowsAsWrittenAt()
    ensures WindowsIndex < |DefaultPatternsAsWritten|
    ensures DefaultPatternsAsWritten[WindowsIndex] == WindowsUserDirAsWritten
  {
    assert |DefaultsBeforeWindows| == WindowsIndex;
  }
}

=== FILE: dependencies.dfy ===
/** The API's request-level checks: the list-endpoint query parameters and
    the optional Bearer authentication header. The identity provider that
    resolves a token to a user is a parameter. */
module Dependencies {
  import opened Results
  import opened Strings

  /** The query parameters of a list endpoint, as stored once accepted. */
  datatype QueryParams = QueryParams(limit: int, offset: int, sortBy: string, sortOrder: string)

  const DefaultParams: QueryParams := QueryParams(50, 0, "created_at", "desc")

  predicate SortOrderOk(s: string) {
    s == "asc" || s == "desc"
  }

  /** `CommonQueryParams.__init__`: the limit, the offset and the sort order
      are checked in that order, and the first that fails answers 400. */
  function CommonQueryParams(limit: int, offset: int, sortBy: string, sortOrder: string): (r: Result<QueryParams>)
    ensures r.Ok? <==> 1 <= limit <= 100 && offset >= 0 && SortOrderOk(sortOrder)
    ensures r.Ok? ==> r.value == QueryParams(limit, offset, sortBy, sortOrder)
    ensures r.Fail? ==> r.error.HttpError? && r.error.status == 400
  {
    if limit < 1 || limit > 100 then Fail(HttpError(400, "Limit must be between 1 and 100"))
    else if offset < 0 then Fail(HttpError(400, "Offset must be non-negative"))
    else if !SortOrderOk(sortOrder) then Fail(HttpError(400, "Sort order must be 'asc' or 'desc'"))
    else Ok(QueryParams(limit, offset, sortBy, sortOrder))
  }

  /** A bad limit is reported whatever else is wrong, and a bad offset
      before a bad sort order. */
  lemma ChecksInOrder(limit: int, offset: int, sortBy: string, sortOrder: string)
    ensures !(1 <= limit <= 100) ==>
      CommonQueryParams(limit, offset, sortBy, sortOrder) == Fail(HttpError(400, "Limit must be between 1 and 100"))
    ensures 1 <= limit <= 100 && offset < 0 ==>
      CommonQueryParams(limit, offset, sortBy, sortOrder) == Fail(HttpError(400, "Offset must be non-negative"))
  {
  }

  /** The defaults are accepted and stored as given. */
  lemma DefaultsAccepted()
    ensures CommonQueryParams(50, 0, "created_at", "desc") == Ok(DefaultParams)
  {
  }

  /** The scheme prefix of the `Authorization` header. */
  const Bearer: string := "Bearer "

  /** The token `get_optional_user` sends to the identity provider: none
      when the header is missing or lacks the prefix, and otherwise the
      header with every occurrence of the prefix removed. */
  function BearerToken(authorization: Option<string>): (r: Option<string>)
    ensures r.Some? <==> authorization.Some? && StartsWith(authorization.value, Bearer)
    ensures r.Some? ==> |r.value| <= |authorization.value| - |Bearer|
  {
    match authorization
    case None => None
    case Some(h) =>
      if !StartsWith(h, Bearer) then None
      else
        assert h == Bearer + h[|Bearer|..];
        var token := ReplaceAll(h[|Bearer|..], Bearer, "");
        ReplacePrefix(h, Bearer);
        Some(token)
  }

  lemma ReplacePrefix(h: string, pat: string)
    requires |pat| > 0 && StartsWith(h, pat)
    ensures ReplaceAll(h, pat, "") == ReplaceAll(h[|pat|..], pat, "")
  {
  }

  /** The token is the header with every `"Bearer "` removed. */
  lemma BearerTokenReplacesAll(h: string)
    requires StartsWith(h, Bearer)
    ensures BearerToken(Some(h)) == Some(ReplaceAll(h, Bearer, ""))
  {
    ReplacePrefix(h, Bearer);
  }

  /** A token that does not itself hold the prefix comes back intact. */
  lemma BearerTokenRoundTrip(token: string)
    requires !Contains(token, Bearer)
    ensures BearerToken(Some(Bearer + token)) == Some(token)
  {
    var h := Bearer + token;
    assert StartsWith(h, Bearer);
    assert h[|Bearer|..] == token;
  }

  /** A prefix repeated inside the header is removed as well, so the token
      is not simply the text after the first prefix. */
  lemma BearerTokenRemovesInnerPrefix()
    ensures BearerToken(Some("Bearer aBearer b")) == Some("ab")
  {
    var h := "Bearer aBearer b";
    assert StartsWith(h, Bearer);
    var t := h[|Bearer|..];
    assert t == "aBearer b";
    assert t[..|Bearer|][0] == 'a' && Bearer[0] == 'B';
    assert !StartsWith(t, Bearer);
    assert t[1..] == "Bearer b" && StartsWith(t[1..], Bearer);
    assert t[1..][|Bearer|..] == "b";
    assert !StartsWith("b", Bearer);
    assert ReplaceAll("b", Bearer, "") == ['b'] + ReplaceAll("", Bearer, "") == "b";
    assert ReplaceAll(t[1..], Bearer, "") == "" + ReplaceAll("b", Bearer, "");
    assert ReplaceAll(t, Bearer, "") == [t[0]] + ReplaceAll(t[1..], Bearer, "") == "ab";
  }

  /** `get_optional_user`: the user the provider knows for the token, and
      none without a usable header. A provider that fails answers none. */
  function OptionalUser<U>(authorization: Option<string>, lookup: string -> Option<U>): (r: Option<U>)
    ensures BearerToken(authorization).None? ==> r.None?
    ensures BearerToken(authorization).Some? ==> r == lookup(BearerToken(authorization).value)
  {
    match BearerToken(authorization)
    case None => None
    case Some(token) => lookup(token)
  }
}

=== FILE: interaction.dfy ===
/** The interaction records and their field validators: the token-count
    repair of the performance metrics, the message-type check, the
    non-negative bounds, the computed properties of a stored interaction
    and the bounds of a search request. A validator either returns the
    (possibly repaired) value or fails with a `ValueError`; which message
    Pydantic attaches is not modelled. */
module Interactions {
  import opened Results
  import opened Strings

  // ---------------------------------------------------------------------
  // Token counts
  // ---------------------------------------------------------------------

  /** The `tokens_used` dictionary. */
  type TokenCounts = map<string, int>

  /** `v.get(key, 0)` */
  function Get(v: TokenCounts, key: string): int {
    if key in v then v[key] else 0
  }

  predicate TokensConsistent(v: TokenCounts) {
    Get(v, "total") == Get(v, "prompt") + Get(v, "completion")
  }

  /** `PerformanceMetrics.validate_tokens`: the total is rewritten to the
      sum of the prompt and completion counts when it disagrees. */
  function ValidateTokens(v: TokenCounts): (r: TokenCounts)
    ensures TokensConsistent(r)
    ensures Get(r, "prompt") == Get(v, "prompt") && Get(r, "completion") == Get(v, "completion")
    ensures forall k :: k != "total" ==> (k in r <==> k in v)
    ensures forall k :: k != "total" && k in v ==> k in r && r[k] == v[k]
    ensures TokensConsistent(v) <==> r == v
  {
    if !TokensConsistent(v) then
      assert "total" != "prompt" && "total" != "completion";
      v["total" := Get(v, "prompt") + Get(v, "completion")]
    else v
  }

  /** Repairing twice is repairing once. */
  lemma ValidateTokensIdempotent(v: TokenCounts)
    ensures ValidateTokens(ValidateTokens(v)) == ValidateTokens(v)
  {
  }

  /** The default dictionary is already consistent. */
  lemma DefaultTokensConsistent()
    ensures var d := map["prompt" := 0, "completion" := 0, "total" := 0];
      ValidateTokens(d) == d
  {
    var d := map["prompt" := 0, "completion" := 0, "total" := 0];
    assert Get(d, "total") == 0 && Get(d, "prompt") == 0 && Get(d, "completion") == 0;
  }

  // ---------------------------------------------------------------------
  // Message type and field bounds
  // ---------------------------------------------------------------------

  const MessageTypes: set<string> := {"user", "assistant", "system"}

  /** `InteractionBase.validate_message_type` */
  function ValidateMessageType(v: string): (r: Result<string>)
    ensures r.Ok? <==> v in MessageTypes
    ensures r.Ok? ==> r.value == v
    ensures r.Fail? ==> r.error.ValueError?
  {
    if v !in MessageTypes then Fail(ValueError("Invalid message type"))
    else Ok(v)
  }

  /** The validator accepts each of the three names. */
  lemma MessageTypesAccepted()
    ensures ValidateMessageType("user") == Ok("user")
    ensures ValidateMessageType("assistant") == Ok("assistant")
    ensures ValidateMessageType("system") == Ok("system")
  {
  }

  /** One tool call: its name, its execution time when it was measured,
      and the error it reported. */
  datatype ToolUsage = ToolUsage(toolName: string, executionTimeMs: Option<int>, error: Option<string>)

  /** `execution_time_ms` carries `ge=0`. */
  predicate ValidTool(t: ToolUsage) {
    t.executionTimeMs.Some? ==> t.executionTimeMs.value >= 0
  }

  /** The fields of a stored interaction the properties read. */
  datatype Interaction = Interaction(
    messageType: string,
    sequenceNumber: int,
    toolsUsed: seq<ToolUsage>,
    errorMessage: Option<string>)

  /** What the field declarations and the message-type validator admit:
      a known message type, a non-negative sequence number and valid tools. */
  predicate ValidInteraction(i: Interaction) {
    && i.messageType in MessageTypes
    && i.sequenceNumber >= 0
    && AllValid(i.toolsUsed)
  }

  predicate AllValid(tools: seq<ToolUsage>) {
    forall k :: 0 <= k < |tools| ==> ValidTool(tools[k])
  }

  /** Building a stored interaction: succeeds exactly for the records the
      field rules admit, and returns them unchanged. */
  function CheckInteraction(i: Interaction): (r: Result<Interaction>)
    ensures r.Ok? <==> ValidInteraction(i)
    ensures r.Ok? ==> r.value == i
    ensures r.Fail? ==> r.error.ValueError?
  {
    match ValidateMessageType(i.messageType)
    case Fail(e) => Fail(e)
    case Ok(_) =>
      if i.sequenceNumber < 0 then Fail(ValueError("sequence_number < 0"))
      else if !AllValid(i.toolsUsed) then
        Fail(ValueError("execution_time_ms < 0"))
      else Ok(i)
  }

  /** `Interaction.is_error`: an error message was recorded, whatever it says. */
  function IsError(i: Interaction): (b: bool)
    ensures b <==> exists m :: i.errorMessage == Some(m)
  {
    i.errorMessage != None
  }

  /** `Interaction.has_tool_usage`: some tool was used. */
  function HasToolUsage(i: Interaction): (b: bool)
    ensures b <==> exists t :: t in i.toolsUsed
  {
    if |i.toolsUsed| > 0 then assert i.toolsUsed[0] in i.toolsUsed; true else false
  }

  /** `tool.execution_time_ms or 0` */
  function ToolTime(t: ToolUsage): int {
    match t.executionTimeMs
    case None => 0
    case Some(ms) => ms
  }

  /** `sum(tool.execution_time_ms or 0 for tool in tools)` */
  function TotalToolTime(tools: seq<ToolUsage>): int
    decreases |tools|
  {
    if |tools| == 0 then 0 else ToolTime(tools[0]) + TotalToolTime(tools[1..])
  }

  /** `Interaction.total_tool_execution_time_ms` */
  function TotalToolExecutionTime(i: Interaction): (r: int)
    ensures !HasToolUsage(i) ==> r == 0
    ensures ValidInteraction(i) ==> r >= 0
  {
    TotalToolTimeNonNegative(i.toolsUsed);
    TotalToolTime(i.toolsUsed)
  }

  /** With every measured time non-negative, the total is too, and no
      single tool's time exceeds it. */
  lemma {:induction false} TotalToolTimeNonNegative(tools: seq<ToolUsage>)
    ensures AllValid(tools) ==> TotalToolTime(tools) >= 0
    ensures AllValid(tools) ==> forall k :: 0 <= k < |tools| ==> ToolTime(tools[k]) <= TotalToolTime(tools)
    decreases |tools|
  {
    if |tools| > 0 && AllValid(tools) {
      var tail := tools[1..];
      assert forall k :: 0 <= k < |tail| ==> tail[k] == tools[k + 1];
      TotalToolTimeNonNegative(tail);
      assert ValidTool(tools[0]);
    }
  }

  /** The total over two lists of tools is the sum of their totals. */
  lemma {:induction false} TotalToolTimeAppend(a: seq<ToolUsage>, b: seq<ToolUsage>)
    ensures TotalToolTime(a + b) == TotalToolTime(a) + TotalToolTime(b)
    decreases |a|
  {
    if |a| > 0 {
      TotalToolTimeAppend(a[1..], b);
      assert (a + b)[1..] == a[1..] + b;
    } else {
      assert a + b == b;
    }
  }

  /** Tools without a measured time add nothing. */
  lemma {:induction false} UnmeasuredToolsAddNothing(tools: seq<ToolUsage>)
    requires forall k :: 0 <= k < |tools| ==> tools[k].executionTimeMs.None?
    ensures TotalToolTime(tools) == 0
    decreases |tools|
  {
    if |tools| > 0 {
      var tail := tools[1..];
      assert forall k :: 0 <= k < |tail| ==> tail[k] == tools[k + 1];
      UnmeasuredToolsAddNothing(tail);
    }
  }

  // ---------------------------------------------------------------------
  // Search request
  // ---------------------------------------------------------------------

  datatype SearchRequest = SearchRequest(query: Option<string>, limit: int, offset: int)

  /** The `limit` (between 1 and 100) and `offset` (non-negative) bounds of
      `InteractionSearchRequest`. */
  function CheckSearchRequest(s: SearchRequest): (r: Result<SearchRequest>)
    ensures r.Ok? <==> 1 <= s.limit <= 100 && s.offset >= 0
    ensures r.Ok? ==> r.value == s
    ensures r.Fail? ==> r.error.ValueError?
  {
    if s.limit < 1 then Fail(ValueError("limit < 1"))
    else if s.limit > 100 then Fail(ValueError("limit > 100"))
    else if s.offset < 0 then Fail(ValueError("offset < 0"))
    else Ok(s)
  }

  /** The defaults (limit 20, offset 0) are accepted. */
  lemma DefaultSearchAccepted(query: Option<string>)
    ensures CheckSearchRequest(SearchRequest(query, 20, 0)).Ok?
  {
  }
}

=== FILE: monitor_v2.dfy ===
/** The SDK-based monitor's pure parts: the keyword classifier
    `_analyze_context` and the per-session interaction counters that number
    the user and assistant interactions of each query. The SDK stream, the
    storage back ends and the clock are not modelled; whether each of them
    succeeds is a parameter. */
module MonitorV2 {
  import opened Results
  import opened Strings
  import Sessions

  datatype Intent = Debugging | CodeGeneration | Refactoring | Testing | Explanation | General {
    function Name(): string {
      match this
      case Debugging => "debugging"
      case CodeGeneration => "code_generation"
      case Refactoring => "refactoring"
      case Testing => "testing"
      case Explanation => "explanation"
      case General => "general"
    }
  }

  datatype Language = Python | JavaScript | TypeScript {
    function Name(): string {
      match this
      case Python => "python"
      case JavaScript => "javascript"
      case TypeScript => "typescript"
    }

    /** Position in the keyword table. */
    function Rank(): nat {
      match this
      case Python => 0
      case JavaScript => 1
      case TypeScript => 2
    }
  }

  /** `any(word in text for word in words)` */
  function MentionsAny(text: string, words: seq<string>): bool
    decreases |words|
  {
    |words| > 0 && (Contains(text, words[0]) || MentionsAny(text, words[1..]))
  }

  /** The text mentions one of the words exactly when one of them occurs in it. */
  lemma {:induction false} MentionsAnyMeans(text: string, words: seq<string>)
    ensures MentionsAny(text, words) <==> exists i :: 0 <= i < |words| && Contains(text, words[i])
    decreases |words|
  {
    if |words| > 0 {
      MentionsAnyMeans(text, words[1..]);
      assert forall i :: 0 <= i < |words| - 1 ==> words[1..][i] == words[i + 1];
      if Contains(text, words[0]) {
        assert 0 < |words| && Contains(text, words[0]);
      } else if exists i :: 0 <= i < |words| && Contains(text, words[i]) {
        var i :| 0 <= i < |words| && Contains(text, words[i]);
        assert words[1..][i - 1] == words[i];
      }
    }
  }

  const DebuggingWords: seq<string> := ["fix", "bug", "error", "issue"]
  const CodeGenerationWords: seq<string> := ["create", "implement", "add", "new"]
  const RefactoringWords: seq<string> := ["refactor", "improve", "optimize"]
  const TestingWords: seq<string> := ["test", "testing", "unittest"]
  const ExplanationWords: seq<string> := ["explain", "understand", "what", "how"]

  const PythonWords: seq<string> := ["def ", "import ", "self.", "pip", ".py"]
  const JavaScriptWords: seq<string> := ["const ", "let ", "var ", "function ", ".js"]
  const TypeScriptWords: seq<string> := ["interface ", "type ", ": string", ": number", ".ts"]

  /** The intent chain of `_analyze_context`, as written. */
  function ClassifyIntent(text: string): Intent {
    if MentionsAny(text, DebuggingWords) then Debugging
    else if MentionsAny(text, CodeGenerationWords) then CodeGeneration
    else if MentionsAny(text, RefactoringWords) then Refactoring
    else if MentionsAny(text, TestingWords) then Testing
    else if MentionsAny(text, ExplanationWords) then Explanation
    else General
  }

  /** The categories in the order they are tried. */
  const IntentRules: seq<(Intent, seq<string>)> := [
    (Debugging, DebuggingWords), (CodeGeneration, CodeGenerationWords),
    (Refactoring, RefactoringWords), (Testing, TestingWords),
    (Explanation, ExplanationWords)]

  /** Index of the first rule with a keyword in the text. */
  function FirstRule<T>(rules: seq<(T, seq<string>)>, text: string): (r: Option<nat>)
    ensures r.Some? ==> r.value < |rules| && MentionsAny(text, rules[r.value].1)
    ensures r.Some? ==> forall j :: 0 <= j < r.value ==> !MentionsAny(text, rules[j].1)
    ensures r.None? ==> forall j :: 0 <= j < |rules| ==> !MentionsAny(text, rules[j].1)
    decreases |rules|
  {
    if |rules| == 0 then None
    else if MentionsAny(text, rules[0].1) then Some(0)
    else
      var r := FirstRule(rules[1..], text);
      assert forall j :: 0 <= j < |rules| - 1 ==> rules[1..][j] == rules[j + 1];
      match r
      case None => None
      case Some(k) => Some(k + 1)
  }

  /** The intent is that of the first category with a keyword in the text,
      and `general` when there is none. */
  lemma IntentIsFirstMatch(text: string)
    ensures ClassifyIntent(text) == match FirstRule(IntentRules, text)
      case None => General
      case Some(k) => IntentRules[k].0
  {
    var r := FirstRule(IntentRules, text);
    if r.Some? {
      var k := r.value;
      assert k < 5;
      if k >= 1 { assert !MentionsAny(text, IntentRules[0].1); }
      if k >= 2 { assert !MentionsAny(text, IntentRules[1].1); }
      if k >= 3 { assert !MentionsAny(text, IntentRules[2].1); }
      if k >= 4 { assert !MentionsAny(text, IntentRules[3].1); }
      assert MentionsAny(text, IntentRules[k].1);
    } else {
      assert !MentionsAny(text, IntentRules[0].1) && !MentionsAny(text, IntentRules[1].1);
      assert !MentionsAny(text, IntentRules[2].1) && !MentionsAny(text, IntentRules[3].1);
      assert !MentionsAny(text, IntentRules[4].1);
    }
  }

  /** The languages whose keywords occur, in table order. */
  function Detected(rules: seq<(Language, seq<string>)>, text: string): (r: seq<Language>)
    ensures |r| <= |rules|
    ensures forall l :: l in r <==> exists k :: 0 <= k < |rules| && rules[k].0 == l && MentionsAny(text, rules[k].1)
    decreases |rules|
  {
    if |rules| == 0 then []
    else
      var rest := Detected(rules[1..], text);
      assert forall k :: 0 <= k < |rules| - 1 ==> rules[1..][k] == rules[k + 1];
      (if MentionsAny(text, rules[0].1) then [rules[0].0] else []) + rest
  }

  function Keywords(l: Language): seq<string> {
    match l
    case Python => PythonWords
    case JavaScript => JavaScriptWords
    case TypeScript => TypeScriptWords
  }

  const LanguageRules: seq<(Language, seq<string>)> :=
    [(Python, PythonWords), (JavaScript, JavaScriptWords), (TypeScript, TypeScriptWords)]

  /** The language list of `_analyze_context`, cut to three entries; the
      table has three rows, so the cut never drops a language. */
  function DetectLanguages(text: string): (r: seq<Language>)
    ensures |r| <= 3
    ensures r == Detected(LanguageRules, text)
  {
    var d := Detected(LanguageRules, text);
    assert |LanguageRules| == 3;
    d[..if |d| < 3 then |d| else 3]
  }

  predicate Ascending(ls: seq<Language>) {
    forall i, j :: 0 <= i < j < |ls| ==> ls[i].Rank() < ls[j].Rank()
  }

  /** Each language is listed once, in table order. */
  lemma {:induction false} DetectedInOrder(rules: seq<(Language, seq<string>)>, text: string)
    requires forall i, j :: 0 <= i < j < |rules| ==> rules[i].0.Rank() < rules[j].0.Rank()
    ensures Ascending(Detected(rules, text))
    decreases |rules|
  {
    if |rules| > 0 {
      var tail := rules[1..];
      assert forall i, j :: 0 <= i < j < |tail| ==> tail[i] == rules[i + 1] && tail[j] == rules[j + 1];
      DetectedInOrder(tail, text);
      var rest := Detected(tail, text);
      if MentionsAny(text, rules[0].1) {
        assert Detected(rules, text) == [rules[0].0] + rest;
        DetectedRanksAbove(tail, text, rules[0].0.Rank());
        ConsAscending(rules[0].0, rest);
      } else {
        assert Detected(rules, text) == rest;
      }
    }
  }

  /** A table whose ranks all exceed `b` detects only languages above `b`. */
  lemma {:induction false} DetectedRanksAbove(rules: seq<(Language, seq<string>)>, text: string, b: int)
    requires forall i :: 0 <= i < |rules| ==> b < rules[i].0.Rank()
    ensures forall j :: 0 <= j < |Detected(rules, text)| ==> b < Detected(rules, text)[j].Rank()
    decreases |rules|
  {
    if |rules| > 0 {
      var tail := rules[1..];
      assert forall i :: 0 <= i < |tail| ==> tail[i] == rules[i + 1];
      DetectedRanksAbove(tail, text, b);
      var head := if MentionsAny(text, rules[0].1) then [rules[0].0] else [];
      assert Detected(rules, text) == head + Detected(tail, text);
    }
  }

  lemma ConsAscending(l: Language, rest: seq<Language>)
    requires Ascending(rest)
    requires forall j :: 0 <= j < |rest| ==> l.Rank() < rest[j].Rank()
    ensures Ascending([l] + rest)
  {
    var r := [l] + rest;
    forall i, j | 0 <= i < j < |r|
      ensures r[i].Rank() < r[j].Rank()
    {
      assert r[j] == rest[j - 1];
      if i > 0 { assert r[i] == rest[i - 1]; }
    }
  }

  /** Each detected language is listed once, in table order. */
  lemma LanguagesInTableOrder(text: string)
    ensures Ascending(DetectLanguages(text))
  {
    assert LanguageRules[0].0.Rank() == 0 && LanguageRules[1].0.Rank() == 1 && LanguageRules[2].0.Rank() == 2;
    DetectedInOrder(LanguageRules, text);
  }

  /** A language is listed exactly when one of its keywords occurs. */
  lemma LanguageDetectedIff(text: string, l: Language)
    ensures l in DetectLanguages(text) <==> MentionsAny(text, Keywords(l))
  {
    assert |LanguageRules| == 3 && LanguageRules[l.Rank()] == (l, Keywords(l));
    assert forall k :: 0 <= k < 3 ==> LanguageRules[k].0.Rank() == k;
  }

  /** `min(1.0, length / 5000)` */
  function Complexity(length: nat): (r: real)
    ensures 0.0 <= r <= 1.0
    ensures r == 1.0 <==> length >= 5000
    ensures length < 5000 ==> r * 5000.0 == length as real
  {
    var ratio := length as real / 5000.0;
    if ratio < 1.0 then ratio else 1.0
  }

  /** Longer text never scores lower. */
  lemma ComplexityMonotone(a: nat, b: nat)
    requires a <= b
    ensures Complexity(a) <= Complexity(b)
  {
  }

  datatype ContextAnalysis = ContextAnalysis(
    intentType: string,
    programmingLanguages: seq<string>,
    frameworks: seq<string>,
    complexityScore: real,
    topics: seq<string>)

  function Names(ls: seq<Language>): (r: seq<string>)
    ensures |r| == |ls| && forall i :: 0 <= i < |ls| ==> r[i] == ls[i].Name()
  {
    seq(|ls|, i requires 0 <= i < |ls| => ls[i].Name())
  }

  /** The text the classifier reads: prompt and response, one per line,
      lower-cased. */
  function CombinedText(prompt: string, response: string): string {
    Lower(prompt + "\n" + response)
  }

  /** `_analyze_context`, given the combined text. */
  function AnalyzeText(text: string): (r: ContextAnalysis)
    ensures r.frameworks == [] && r.topics == []
    ensures 0.0 <= r.complexityScore <= 1.0
    ensures |r.programmingLanguages| <= 3
  {
    ContextAnalysis(ClassifyIntent(text).Name(), Names(DetectLanguages(text)), [], Complexity(|text|), [])
  }

  /** `_analyze_context` */
  function AnalyzeContext(prompt: string, response: string): (r: ContextAnalysis)
    ensures r.frameworks == [] && r.topics == []
    ensures 0.0 <= r.complexityScore <= 1.0
    ensures |r.programmingLanguages| <= 3
  {
    AnalyzeText(CombinedText(prompt, response))
  }

  /** Distinct languages have distinct names. */
  lemma NamesListed(ls: seq<Language>, l: Language)
    ensures l.Name() in Names(ls) <==> l in ls
  {
    if l.Name() in Names(ls) {
      var i :| 0 <= i < |ls| && Names(ls)[i] == l.Name();
      assert ls[i].Name() == l.Name();
    }
  }

  /** The intent recorded is that of the first category with a keyword in
      the text, and `general` exactly when there is none. */
  lemma AnalysisIntent(text: string)
    ensures var r := AnalyzeText(text);
      && (r.intentType == "general" <==> FirstRule(IntentRules, text).None?)
      && (FirstRule(IntentRules, text).Some? ==>
            r.intentType == IntentRules[FirstRule(IntentRules, text).value].0.Name())
  {
    assert AnalyzeText(text).intentType == ClassifyIntent(text).Name();
    IntentNamed(text);
  }

  lemma IntentNamed(text: string)
    ensures ClassifyIntent(text).Name() == "general" <==> FirstRule(IntentRules, text).None?
    ensures FirstRule(IntentRules, text).Some? ==>
      ClassifyIntent(text).Name() == IntentRules[FirstRule(IntentRules, text).value].0.Name()
  {
    IntentIsFirstMatch(text);
    GeneralNamed(ClassifyIntent(text));
  }

  /** Only `General` is named `general`. */
  lemma GeneralNamed(i: Intent)
    ensures i.Name() == "general" <==> i == General
  {
    match i
    case Debugging => assert i.Name()[0] != 'g';
    case CodeGeneration => assert i.Name()[0] != 'g';
    case Refactoring => assert i.Name()[0] != 'g';
    case Testing => assert i.Name()[0] != 'g';
    case Explanation => assert i.Name()[0] != 'g';
    case General =>
  }

  /** The languages recorded are named after exactly those whose keywords
      occur in the text. */
  lemma AnalysisLanguages(text: string)
    ensures forall l: Language :: l.Name() in AnalyzeText(text).programmingLanguages <==> MentionsAny(text, Keywords(l))
  {
    forall l: Language
      ensures l.Name() in Names(DetectLanguages(text)) <==> MentionsAny(text, Keywords(l))
    {
      NamesListed(DetectLanguages(text), l);
      LanguageDetectedIff(text, l);
    }
  }

  /** What the record says about a prompt and its response: the intent and
      the languages of the combined text, and the score of its length. */
  lemma AnalysisMeaning(prompt: string, response: string)
    ensures var text := CombinedText(prompt, response);
      var r := AnalyzeContext(prompt, response);
      && r == AnalyzeText(text)
      && (r.intentType == "general" <==> FirstRule(IntentRules, text).None?)
      && (forall l: Language :: l.Name() in r.programmingLanguages <==> MentionsAny(text, Keywords(l)))
      && r.complexityScore == Complexity(|prompt| + |response| + 1)
  {
    var text := CombinedText(prompt, response);
    AnalysisIntent(text);
    AnalysisLanguages(text);
  }

  /** The classifier does not depend on letter case. */
  lemma AnalysisIgnoresCase(prompt: string, response: string, prompt': string, response': string)
    requires Lower(prompt) == Lower(prompt') && Lower(response) == Lower(response')
    ensures AnalyzeContext(prompt, response) == AnalyzeContext(prompt', response')
  {
    LowerConcat(prompt + "\n", response);
    LowerConcat(prompt' + "\n", response');
    LowerConcat(prompt, "\n");
    LowerConcat(prompt', "\n");
    assert CombinedText(prompt, response) == CombinedText(prompt', response');
  }

  lemma LowerConcat(a: string, b: string)
    ensures Lower(a + b) == Lower(a) + Lower(b)
  {
  }

  // ---------------------------------------------------------------------
  // Interaction counters in `monitor_query`
  // ---------------------------------------------------------------------

  /** The monitor's bookkeeping: the active sessions and their counters. */
  datatype Tracker = Tracker(active: set<string>, counters: map<string, nat>)

  /** Every active session has a counter and only those do. */
  predicate Consistent(t: Tracker) {
    t.active == t.counters.Keys
  }

  /** How one query meets the world: the project path `_create_session`
      records (the `cwd` of the options when given, else the process's
      absolute working directory), and how the parts that can fail turn
      out: storing the new session, saving the user interaction, the SDK
      stream with the assistant save, and the error-path completion. */
  datatype QueryRun = QueryRun(projectPath: string, createOk: bool, userSaveOk: bool, streamOk: bool, completeOk: bool)

  /** The session record is built before `_create_session`'s `try`, so a
      project path its validator refuses raises out of the query. */
  predicate CreateRaises(run: QueryRun) {
    Sessions.ValidateProjectPath(run.projectPath).Fail?
  }

  /** The new state, the sequence numbers given to the interactions the
      query saved (user interaction first), and whether an exception left
      `monitor_query`. */
  datatype QueryResult = QueryResult(tracker: Tracker, numbers: seq<nat>, raised: bool)

  /** `_create_session`: registers the session with counter 0, or leaves
      everything as it was when creation fails. */
  function CreateSession(t: Tracker, id: string, ok: bool): (r: Tracker)
    ensures Consistent(t) ==> Consistent(r)
    ensures ok ==> id in r.active && id in r.counters && r.counters[id] == 0
    ensures !ok ==> r == t
  {
    if ok then Tracker(t.active + {id}, t.counters[id := 0]) else t
  }

  /** `_complete_session` on the error path: an unknown session is left
      alone; otherwise the session and its counter are dropped, unless the
      update itself fails. */
  function CompleteSession(t: Tracker, id: string, ok: bool): (r: Tracker)
    ensures Consistent(t) ==> Consistent(r)
    ensures ok && id in t.active ==> id !in r.active && id !in r.counters
    ensures forall other :: other != id && other in t.counters ==> other in r.counters && r.counters[other] == t.counters[other]
  {
    if id !in t.active || !ok then t
    else Tracker(t.active - {id}, t.counters - {id})
  }

  /** The counter bookkeeping of `monitor_query` for session `id`. */
  function MonitorQuery(t: Tracker, id: string, run: QueryRun): (r: QueryResult)
    requires Consistent(t)
    ensures Consistent(r.tracker)
    ensures |r.numbers| <= 2
    ensures r.raised ==> r.numbers == []
    ensures r.raised ==> (id in t.active || CreateRaises(run) ==> r.tracker == t)
    ensures r.raised ==> (id in r.tracker.active <==> id in t.active || !CreateRaises(run))
    ensures forall other :: other != id && other in t.counters ==> other in r.tracker.counters && r.tracker.counters[other] == t.counters[other]
  {
    if id !in t.active && CreateRaises(run) then QueryResult(t, [], true)
    else
    var t1 := if id in t.active then t else CreateSession(t, id, run.createOk);
    if id !in t1.active then QueryResult(t1, [], false)
    // The user save sits outside the `try`: its failure escapes before the
    // counter moves, and the session stays registered.
    else if !run.userSaveOk then QueryResult(t1, [], true)
    else
      var n := t1.counters[id];
      var t2 := t1.(counters := t1.counters[id := n + 1]);
      if run.streamOk then
        QueryResult(t2.(counters := t2.counters[id := n + 2]), [n, n + 1], false)
      else
        QueryResult(CompleteSession(t2, id, run.completeOk), [n], false)
  }

  /** The user interaction gets the session's counter n and the assistant
      interaction n + 1; the counter then stands at n + 2. A new session
      starts at 0. */
  lemma QueryNumbering(t: Tracker, id: string, run: QueryRun)
    requires Consistent(t) && (id in t.active || (run.createOk && !CreateRaises(run))) && run.userSaveOk && run.streamOk
    ensures var n := if id in t.active then t.counters[id] else 0;
      var r := MonitorQuery(t, id, run);
      && r.numbers == [n, n + 1]
      && id in r.tracker.counters && r.tracker.counters[id] == n + 2
  {
  }

  /** When storing the new session fails nothing is numbered and nothing changes. */
  lemma QueryWithoutSession(t: Tracker, id: string, run: QueryRun)
    requires Consistent(t) && id !in t.active && !run.createOk && !CreateRaises(run)
    ensures MonitorQuery(t, id, run) == QueryResult(t, [], false)
  {
  }

  /** A new session with a relative project path raises out of the query
      before anything is registered or numbered. */
  lemma QueryRelativePathRaises(t: Tracker, id: string, run: QueryRun)
    requires Consistent(t) && id !in t.active
    requires |run.projectPath| == 0 || run.projectPath[0] != '/'
    ensures MonitorQuery(t, id, run) == QueryResult(t, [], true)
  {
  }

  /** A failing user save raises out of the query: nothing is numbered, the
      counter does not move and the session stays active. */
  lemma QueryUserSaveFails(t: Tracker, id: string, run: QueryRun)
    requires Consistent(t) && (id in t.active || (run.createOk && !CreateRaises(run))) && !run.userSaveOk
    ensures var n := if id in t.active then t.counters[id] else 0;
      var r := MonitorQuery(t, id, run);
      && r.raised && r.numbers == []
      && id in r.tracker.active && r.tracker.counters[id] == n
  {
  }

  /** A failing stream numbers only the user interaction, with the
      session's counter n. A successful completion then forgets the session;
      a failing one is swallowed and leaves it active at n + 1. */
  lemma QueryStreamFails(t: Tracker, id: string, run: QueryRun)
    requires Consistent(t) && (id in t.active || (run.createOk && !CreateRaises(run))) && run.userSaveOk && !run.streamOk
    ensures var n := if id in t.active then t.counters[id] else 0;
      var r := MonitorQuery(t, id, run);
      && !r.raised && r.numbers == [n]
      && (run.completeOk ==> id !in r.tracker.active && id !in r.tracker.counters)
      && (!run.completeOk ==> id in r.tracker.active && r.tracker.counters[id] == n + 1)
  {
  }

  /** `k` consecutive queries of one session, with project path `path`,
      in which every store, save, stream and completion succeeds; they stop
      at the first that raises. */
  function Queries(t: Tracker, id: string, path: string, k: nat): (r: QueryResult)
    requires Consistent(t)
    ensures Consistent(r.tracker)
    decreases k
  {
    if k == 0 then QueryResult(t, [], false)
    else
      var first := MonitorQuery(t, id, QueryRun(path, true, true, true, true));
      if first.raised then first
      else
        var rest := Queries(first.tracker, id, path, k - 1);
        QueryResult(rest.tracker, first.numbers + rest.numbers, rest.raised)
  }

  /** Successful queries of one session number its interactions 0, 1, 2, …
      without gaps or repeats. */
  lemma {:induction false} QueriesNumberConsecutively(t: Tracker, id: string, path: string, k: nat)
    requires Consistent(t) && (id in t.active || Sessions.ValidateProjectPath(path).Ok?)
    ensures var start := if id in t.active then t.counters[id] else 0;
      var r := Queries(t, id, path, k);
      && !r.raised && |r.numbers| == 2 * k
      && (forall i :: 0 <= i < 2 * k ==> r.numbers[i] == start + i)
      && (k > 0 ==> id in r.tracker.counters && r.tracker.counters[id] == start + 2 * k)
    decreases k
  {
    if k > 0 {
      var start := if id in t.active then t.counters[id] else 0;
      var run := QueryRun(path, true, true, true, true);
      QueryNumbering(t, id, run);
      var first := MonitorQuery(t, id, run);
      assert id in first.tracker.active && !first.raised;
      QueriesNumberConsecutively(first.tracker, id, path, k - 1);
      var rest := Queries(first.tracker, id, path, k - 1);
      var r := Queries(t, id, path, k);
      assert r.numbers == [start, start + 1] + rest.numbers;
      forall i | 0 <= i < 2 * k
        ensures r.numbers[i] == start + i
      {
        if i >= 2 {
          assert r.numbers[i] == rest.numbers[i - 2];
        }
      }
    }
  }
}

=== FILE: privacy.dfy ===
/** The redaction registry (`PrivacyGuard`): an ordered list of patterns,
    each searched for in the original text and, when it matches, substituted
    into the running masked text. Regular expressions stay opaque: the guard
    only sees whether a pattern compiles, whether it finds a match, and what
    `re.sub` returns. */
module Privacy {
  import opened Results
  import opened Strings
  import opened Templates

  datatype SensitivityLevel = Low | Medium | High | Critical | Maximum {
    /** The enum's integer value. */
    function Value(): (v: nat)
      ensures 1 <= v <= 5
    {
      match this
      case Low => 1
      case Medium => 2
      case High => 3
      case Critical => 4
      case Maximum => 5
    }

    /** The enum member's name. */
    function Name(): string {
      match this
      case Low => "LOW"
      case Medium => "MEDIUM"
      case High => "HIGH"
      case Critical => "CRITICAL"
      case Maximum => "MAXIMUM"
    }
  }

  /** Distinct levels have distinct values, so a level is known by its value. */
  lemma LevelValueInjective(a: SensitivityLevel, b: SensitivityLevel)
    ensures a.Value() == b.Value() <==> a == b
  {
  }

  datatype SensitivePattern = SensitivePattern(
    pattern: string,
    description: string,
    replacement: string,
    level: SensitivityLevel,
    enabled: bool)

  /** What the guard asks of Python's `re` module, always with the flags
      `re.MULTILINE | re.IGNORECASE`:
      `compiles(pattern)` — the pattern is a valid regular expression;
      `search(pattern, text)` — `re.finditer` yields at least one match;
      `groups(pattern)` — the group count and group names of the compiled
      pattern, which decide the templates `re.sub` accepts;
      `sub(pattern, template, text)` — what `re.sub` returns for a template
      the template parser accepts. */
  datatype RegexEngine = RegexEngine(
    compiles: string -> bool,
    search: (string, string) -> bool,
    groups: string -> Groups,
    sub: (string, string, string) -> string)

  datatype PrivacyGuard = PrivacyGuard(patterns: seq<SensitivePattern>, whitelist: set<string>)

  datatype Scan = Scan(masked: string, detected: seq<string>)

  datatype Sensitivity = Sensitivity(level: string, score: nat, requiresApproval: bool, detected: seq<string>)

  datatype PatternSummary = PatternSummary(description: string, level: string, enabled: bool)

  /** The first pattern that faults is the first fault. */
  lemma FirstFaultAt(ps: seq<SensitivePattern>, i: nat, e: RegexEngine, content: string)
    requires i < |ps| && Faults(ps[i], e, content)
    requires forall j :: 0 <= j < i ==> !Faults(ps[j], e, content)
    ensures FirstFault(ps, e, content) == Some(i)
  {
  }

  /** A pattern that makes the scan raise leaves a first fault at or before it. */
  lemma FaultingPatternRaises(ps: seq<SensitivePattern>, k: nat, e: RegexEngine, content: string)
    requires k < |ps| && Faults(ps[k], e, content)
    ensures FirstFault(ps, e, content).Some? && FirstFault(ps, e, content).value <= k
  {
  }

  /** If every template would be accepted even by a pattern without groups,
      only a pattern that fails to compile can make the scan raise. */
  lemma AcceptedTemplatesRaiseOnlyOnCompile(ps: seq<SensitivePattern>, e: RegexEngine, content: string)
    requires forall i :: 0 <= i < |ps| ==> !TemplateFault(ps[i].replacement, NoGroups)
    requires forall i :: 0 <= i < |ps| ==> e.compiles(ps[i].pattern)
    ensures FirstFault(ps, e, content).None?
  {
    forall i | 0 <= i < |ps|
      ensures !Faults(ps[i], e, content)
    {
      FewerGroupsRefuseMore(ps[i].replacement, NoGroups, e.groups(ps[i].pattern));
    }
  }

  /** The pattern takes part in the scan: enabled, valid, and matching the ORIGINAL content. */
  predicate Fires(p: SensitivePattern, e: RegexEngine, content: string) {
    p.enabled && e.compiles(p.pattern) && e.search(p.pattern, content)
  }

  /** The pattern makes the scan raise `re.error`: an enabled pattern that
      does not compile, or one that matches but whose template is refused. */
  predicate Faults(p: SensitivePattern, e: RegexEngine, content: string) {
    p.enabled && (!e.compiles(p.pattern) || (e.search(p.pattern, content) && TemplateFault(p.replacement, e.groups(p.pattern))))
  }

  function FaultOf(p: SensitivePattern, e: RegexEngine): Error {
    if !e.compiles(p.pattern) then RegexError(p.pattern) else RegexError(p.replacement)
  }

  /** The firing patterns, in registry order. */
  function Firing(ps: seq<SensitivePattern>, e: RegexEngine, content: string): seq<SensitivePattern>
    decreases |ps|
  {
    if |ps| == 0 then []
    else (if Fires(ps[0], e, content) then [ps[0]] else []) + Firing(ps[1..], e, content)
  }

  /** Substitutes each pattern of `ps` in turn into the running text. */
  function ApplySubs(ps: seq<SensitivePattern>, e: RegexEngine, text: string): string
    decreases |ps|
  {
    if |ps| == 0 then text
    else ApplySubs(ps[1..], e, e.sub(ps[0].pattern, ps[0].replacement, text))
  }

  function Descriptions(ps: seq<SensitivePattern>): (r: seq<string>)
    ensures |r| == |ps| && forall i :: 0 <= i < |ps| ==> r[i] == ps[i].description
  {
    seq(|ps|, i requires 0 <= i < |ps| => ps[i].description)
  }

  /** Index of the first pattern that makes the scan raise, if any. */
  function FirstFault(ps: seq<SensitivePattern>, e: RegexEngine, content: string): (r: Option<nat>)
    ensures r.Some? ==>
      && r.value < |ps| && Faults(ps[r.value], e, content)
      && forall j :: 0 <= j < r.value ==> !Faults(ps[j], e, content)
    ensures r.None? ==> forall j :: 0 <= j < |ps| ==> !Faults(ps[j], e, content)
    decreases |ps|
  {
    if |ps| == 0 then None
    else if Faults(ps[0], e, content) then Some(0)
    else
      match FirstFault(ps[1..], e, content)
      case None => None
      case Some(k) => Some(k + 1)
  }

  /** A pattern added last is searched for in the original content and, when
      it fires, comes after every pattern already registered. */
  lemma {:induction false} FiringSnoc(ps: seq<SensitivePattern>, p: SensitivePattern, e: RegexEngine, content: string)
    ensures Firing(ps + [p], e, content)
      == Firing(ps, e, content) + (if Fires(p, e, content) then [p] else [])
    decreases |ps|
  {
    if |ps| == 0 {
      assert [p][1..] == [];
    } else {
      assert (ps + [p])[1..] == ps[1..] + [p];
      FiringSnoc(ps[1..], p, e, content);
    }
  }

  /** Substituting one more pattern acts on the text the earlier ones produced. */
  lemma {:induction false} ApplySubsSnoc(ps: seq<SensitivePattern>, p: SensitivePattern, e: RegexEngine, text: string)
    ensures ApplySubs(ps + [p], e, text) == e.sub(p.pattern, p.replacement, ApplySubs(ps, e, text))
    decreases |ps|
  {
    if |ps| == 0 {
      assert [p][1..] == [];
    } else {
      assert (ps + [p])[1..] == ps[1..] + [p];
      ApplySubsSnoc(ps[1..], p, e, e.sub(ps[0].pattern, ps[0].replacement, text));
    }
  }

  /** Every firing pattern is a registered pattern that fires. */
  lemma {:induction false} FiringMembers(ps: seq<SensitivePattern>, e: RegexEngine, content: string)
    ensures forall q :: q in Firing(ps, e, content) <==> q in ps && Fires(q, e, content)
    decreases |ps|
  {
    if |ps| > 0 {
      FiringMembers(ps[1..], e, content);
      assert ps == [ps[0]] + ps[1..];
    }
  }

  /** When no registered pattern fires, nothing is reported or substituted. */
  lemma {:induction false} FiringNone(ps: seq<SensitivePattern>, e: RegexEngine, content: string)
    requires forall i :: 0 <= i < |ps| ==> !Fires(ps[i], e, content)
    ensures Firing(ps, e, content) == []
    decreases |ps|
  {
    if |ps| > 0 {
      FiringNone(ps[1..], e, content);
    }
  }

  /** A description is reported exactly when some registered pattern with
      that description fires. */
  lemma DetectionsCharacterised(ps: seq<SensitivePattern>, e: RegexEngine, content: string, d: string)
    ensures d in Descriptions(Firing(ps, e, content))
      <==> exists i :: 0 <= i < |ps| && Fires(ps[i], e, content) && ps[i].description == d
  {
    var f := Firing(ps, e, content);
    FiringMembers(ps, e, content);
    if d in Descriptions(f) {
      var k :| 0 <= k < |f| && f[k].description == d;
      assert f[k] in ps;
    }
    if exists i :: 0 <= i < |ps| && Fires(ps[i], e, content) && ps[i].description == d {
      var i :| 0 <= i < |ps| && Fires(ps[i], e, content) && ps[i].description == d;
      assert ps[i] in f;
      var k :| 0 <= k < |f| && f[k] == ps[i];
      assert Descriptions(f)[k] == d;
    }
  }

  /** A disabled pattern can be dropped from the registry without changing
      what the scan reports, substitutes or raises. */
  lemma {:induction false} DisabledPatternInert(ps: seq<SensitivePattern>, i: nat, e: RegexEngine, content: string)
    requires i < |ps| && !ps[i].enabled
    ensures Firing(ps, e, content) == Firing(ps[..i] + ps[i + 1..], e, content)
    ensures FirstFault(ps, e, content).None? <==> FirstFault(ps[..i] + ps[i + 1..], e, content).None?
    decreases i
  {
    var rest := ps[..i] + ps[i + 1..];
    if i == 0 {
      assert rest == ps[1..];
    } else {
      DisabledPatternInert(ps[1..], i - 1, e, content);
      assert rest == [ps[0]] + (ps[1..][..i - 1] + ps[1..][i..]);
      assert rest[1..] == ps[1..][..i - 1] + ps[1..][i..];
    }
  }

  /** `scan_and_mask`: walks the registry in order; returns the masked text
      and the descriptions of the patterns that matched. */
  method ScanAndMask(g: PrivacyGuard, e: RegexEngine, content: string) returns (r: Result<Scan>)
    ensures content == "" ==> r == Ok(Scan(content, []))
    ensures content != "" && FirstFault(g.patterns, e, content).None? ==>
      var f := Firing(g.patterns, e, content);
      r == Ok(Scan(ApplySubs(f, e, content), Descriptions(f)))
    ensures content != "" && FirstFault(g.patterns, e, content).Some? ==>
      r == Fail(FaultOf(g.patterns[FirstFault(g.patterns, e, content).value], e))
    ensures (&& content != "" && FirstFault(g.patterns, e, content).None?
             && forall i :: 0 <= i < |g.patterns| ==> !Fires(g.patterns[i], e, content))
      ==> r == Ok(Scan(content, []))
  {
    var ps := g.patterns;
    if content == "" {
      return Ok(Scan(content, []));
    }
    var masked := content;
    var detected: seq<string> := [];
    var i := 0;
    while i < |ps|
      invariant 0 <= i <= |ps|
      invariant forall j :: 0 <= j < i ==> !Faults(ps[j], e, content)
      invariant masked == ApplySubs(Firing(ps[..i], e, content), e, content)
      invariant detected == Descriptions(Firing(ps[..i], e, content))
    {
      var p := ps[i];
      var f := Firing(ps[..i], e, content);
      assert ps[..i + 1] == ps[..i] + [p];
      FiringSnoc(ps[..i], p, e, content);
      if !Fires(p, e, content) {
        assert Firing(ps[..i + 1], e, content) == f + [] == f;
      }
      if p.enabled {
        if !e.compiles(p.pattern) {
          FirstFaultAt(ps, i, e, content);
          return Fail(RegexError(p.pattern));
        }
        if e.search(p.pattern, content) {
          detected := detected + [p.description];
          if TemplateFault(p.replacement, e.groups(p.pattern)) {
            FirstFaultAt(ps, i, e, content);
            return Fail(RegexError(p.replacement));
          }
          ApplySubsSnoc(f, p, e, content);
          assert Firing(ps[..i + 1], e, content) == f + [p];
          masked := e.sub(p.pattern, p.replacement, masked);
        }
      }
      i := i + 1;
    }
    assert ps[..i] == ps;
    if forall j :: 0 <= j < |ps| ==> !Fires(ps[j], e, content) {
      FiringNone(ps, e, content);
    }
    r := Ok(Scan(masked, detected));
  }

  /** The source's loop for the highest level: starting from `acc`, raise it
      to the level of every pattern whose description was detected. */
  function MaxDetectedLevel(ps: seq<SensitivePattern>, detected: seq<string>, acc: SensitivityLevel): (m: SensitivityLevel)
    ensures acc.Value() <= m.Value()
    ensures forall i :: 0 <= i < |ps| && ps[i].description in detected ==> ps[i].level.Value() <= m.Value()
    ensures m == acc || exists i :: 0 <= i < |ps| && ps[i].description in detected && ps[i].level == m
    decreases |ps|
  {
    if |ps| == 0 then acc
    else
      var next := if ps[0].description in detected && ps[0].level.Value() > acc.Value() then ps[0].level else acc;
      var m := MaxDetectedLevel(ps[1..], detected, next);
      assert forall i :: 1 <= i < |ps| ==> ps[i] == ps[1..][i - 1];
      m
  }

  /** `analyze_sensitivity`: SAFE with score 0 when nothing is detected,
      otherwise the highest level among the detected patterns; approval is
      required from HIGH upwards. */
  method AnalyzeSensitivity(g: PrivacyGuard, e: RegexEngine, content: string) returns (r: Result<Sensitivity>)
    ensures r.Fail? <==> content != "" && FirstFault(g.patterns, e, content).Some?
    ensures r.Ok? && content != "" ==> r.value.detected == Descriptions(Firing(g.patterns, e, content))
    ensures r.Ok? && r.value.detected == [] ==> r.value == Sensitivity("SAFE", 0, false, [])
    ensures r.Ok? && r.value.detected != [] ==>
      && 1 <= r.value.score <= 5
      && r.value.requiresApproval == (r.value.score >= 3)
      && (forall i :: 0 <= i < |g.patterns| && g.patterns[i].description in r.value.detected ==>
            g.patterns[i].level.Value() <= r.value.score)
      && (exists i :: 0 <= i < |g.patterns| && g.patterns[i].description in r.value.detected
            && g.patterns[i].level.Value() == r.value.score && r.value.level == g.patterns[i].level.Name())
    ensures r.Ok? && r.value.detected != [] ==>
      forall l: SensitivityLevel :: l.Value() == r.value.score ==> r.value.level == l.Name()
  {
    var scan := ScanAndMask(g, e, content);
    if scan.Fail? {
      return Fail(scan.error);
    }
    var detected := scan.value.detected;
    if detected == [] {
      return Ok(Sensitivity("SAFE", 0, false, []));
    }
    var m := MaxDetectedLevel(g.patterns, detected, Low);
    DetectedLevelAttained(g.patterns, e, content);
    forall l: SensitivityLevel | l.Value() == m.Value()
      ensures l.Name() == m.Name()
    {
      LevelValueInjective(l, m);
    }
    r := Ok(Sensitivity(m.Name(), m.Value(), m.Value() >= High.Value(), detected));
  }

  /** When something is detected, the highest level is the level of some
      detected pattern. */
  lemma DetectedLevelAttained(ps: seq<SensitivePattern>, e: RegexEngine, content: string)
    requires Descriptions(Firing(ps, e, content)) != []
    ensures var d := Descriptions(Firing(ps, e, content));
      exists i :: 0 <= i < |ps| && ps[i].description in d && ps[i].level == MaxDetectedLevel(ps, d, Low)
  {
    var f := Firing(ps, e, content);
    var d := Descriptions(f);
    var m := MaxDetectedLevel(ps, d, Low);
    FiringMembers(ps, e, content);
    assert f[0] in ps;
    var i0 :| 0 <= i0 < |ps| && ps[i0] == f[0];
    assert ps[i0].description == d[0];
    if m == Low {
      assert ps[i0].level.Value() <= 1;
      assert ps[i0].level == Low;
    }
  }

  /** The first pattern carrying description `d` sits at index `k`. */
  predicate IsFirstWith(ps: seq<SensitivePattern>, d: string, k: int) {
    0 <= k < |ps| && ps[k].description == d && forall j :: 0 <= j < k ==> ps[j].description != d
  }

  /** Index of the first pattern with description `d`, if any. */
  function FirstWith(ps: seq<SensitivePattern>, d: string): (r: Option<nat>)
    ensures r.Some? ==> IsFirstWith(ps, d, r.value)
    ensures r.None? ==> forall i :: 0 <= i < |ps| ==> ps[i].description != d
    decreases |ps|
  {
    if |ps| == 0 then None
    else if ps[0].description == d then Some(0)
    else
      match FirstWith(ps[1..], d)
      case None => None
      case Some(k) => Some(k + 1)
  }

  /** The loop of `enable_pattern` / `disable_pattern`: sets the flag of the
      first pattern with description `d` and stops. */
  function SetEnabled(ps: seq<SensitivePattern>, d: string, flag: bool): (r: seq<SensitivePattern>)
    ensures |r| == |ps|
    ensures (forall i :: 0 <= i < |ps| ==> ps[i].description != d) ==> r == ps
    ensures forall k :: IsFirstWith(ps, d, k) ==>
      r[k] == ps[k].(enabled := flag) && forall i :: 0 <= i < |ps| && i != k ==> r[i] == ps[i]
  {
    match FirstWith(ps, d)
    case None => ps
    case Some(k) => ps[k := ps[k].(enabled := flag)]
  }

  function DisablePattern(g: PrivacyGuard, d: string): PrivacyGuard {
    g.(patterns := SetEnabled(g.patterns, d, false))
  }

  function EnablePattern(g: PrivacyGuard, d: string): PrivacyGuard {
    g.(patterns := SetEnabled(g.patterns, d, true))
  }

  /** Disabling a pattern and enabling it again restores the registry. */
  lemma DisableThenEnable(g: PrivacyGuard, d: string, k: nat)
    requires IsFirstWith(g.patterns, d, k) && g.patterns[k].enabled
    ensures EnablePattern(DisablePattern(g, d), d) == g
  {
    var ps := g.patterns;
    var off := SetEnabled(ps, d, false);
    assert IsFirstWith(off, d, k);
    var on := SetEnabled(off, d, true);
    assert on == ps;
  }

  /** After `disable_pattern(d)` the first pattern named `d` no longer fires,
      and the others fire exactly as before. */
  lemma DisableSilences(g: PrivacyGuard, d: string, k: nat, e: RegexEngine, content: string)
    requires IsFirstWith(g.patterns, d, k)
    ensures var ps' := DisablePattern(g, d).patterns;
      !Fires(ps'[k], e, content)
      && Firing(ps', e, content) == Firing(g.patterns[..k] + g.patterns[k + 1..], e, content)
  {
    var ps := g.patterns;
    var ps' := DisablePattern(g, d).patterns;
    DisabledPatternInert(ps', k, e, content);
    assert ps'[..k] + ps'[k + 1..] == ps[..k] + ps[k + 1..];
  }

  /** `add_custom_pattern` */
  function AddCustomPattern(g: PrivacyGuard, p: SensitivePattern): (r: PrivacyGuard)
    ensures |r.patterns| == |g.patterns| + 1 && r.patterns[|g.patterns|] == p
    ensures r.patterns[..|g.patterns|] == g.patterns && r.whitelist == g.whitelist
  {
    g.(patterns := g.patterns + [p])
  }

  /** A pattern added at runtime is scanned last: it is searched for in the
      original content, and its substitution rewrites the text the earlier
      patterns already masked. */
  lemma AddedPatternScansLast(g: PrivacyGuard, p: SensitivePattern, e: RegexEngine, content: string)
    ensures var before := Firing(g.patterns, e, content);
      var after := Firing(AddCustomPattern(g, p).patterns, e, content);
      && (Fires(p, e, content) ==>
            && after == before + [p]
            && ApplySubs(after, e, content) == e.sub(p.pattern, p.replacement, ApplySubs(before, e, content)))
      && (!Fires(p, e, content) ==> after == before)
  {
    var before := Firing(g.patterns, e, content);
    FiringSnoc(g.patterns, p, e, content);
    ApplySubsSnoc(before, p, e, content);
  }

  /** A custom pattern without groups whose replacement refers to group 1
      makes the scan raise once it matches: `re.sub` refuses the template. */
  lemma CustomReferenceRaises(g: PrivacyGuard, desc: string, level: SensitivityLevel, e: RegexEngine)
    requires e.compiles("abc") && e.search("abc", "abc") && e.groups("abc") == NoGroups
    ensures var p := SensitivePattern("abc", desc, @"\1", level, true);
      FirstFault(AddCustomPattern(g, p).patterns, e, "abc").Some?
  {
    var p := SensitivePattern("abc", desc, @"\1", level, true);
    NumberedReference('1', "", NoGroups);
    assert ['\\', '1'] + "" == p.replacement;
    var ps := AddCustomPattern(g, p).patterns;
    FaultingPatternRaises(ps, |g.patterns|, e, "abc");
  }

  /** `is_whitelisted`: the content's digest is in the whitelist. The
      SHA-256 hex digest is a parameter. */
  predicate IsWhitelisted(g: PrivacyGuard, digest: string -> string, content: string) {
    digest(content) in g.whitelist
  }

  /** Only digests are kept: contents with the same digest are whitelisted
      together. */
  lemma WhitelistedByDigest(g: PrivacyGuard, digest: string -> string, a: string, b: string)
    requires digest(a) == digest(b)
    ensures IsWhitelisted(g, digest, a) <==> IsWhitelisted(g, digest, b)
  {
  }

  /** `whitelist_add` */
  function WhitelistAdd(g: PrivacyGuard, digest: string -> string, content: string): (r: PrivacyGuard)
    ensures r.patterns == g.patterns
    ensures forall c :: IsWhitelisted(r, digest, c) <==> IsWhitelisted(g, digest, c) || digest(c) == digest(content)
  {
    g.(whitelist := g.whitelist + {digest(content)})
  }

  /** `get_patterns_summary`: one entry per registered pattern, in order. */
  function PatternsSummary(g: PrivacyGuard): (r: seq<PatternSummary>)
    ensures |r| == |g.patterns|
    ensures forall i :: 0 <= i < |r| ==>
      r[i] == PatternSummary(g.patterns[i].description, g.patterns[i].level.Name(), g.patterns[i].enabled)
  {
    seq(|g.patterns|, i requires 0 <= i < |g.patterns| =>
      PatternSummary(g.patterns[i].description, g.patterns[i].level.Name(), g.patterns[i].enabled))
  }

  /** The summary after `disable_pattern(d)` differs from the one before
      only in the enabled flag of the first entry described `d`. */
  lemma SummaryAfterDisable(g: PrivacyGuard, d: string, k: nat)
    requires IsFirstWith(g.patterns, d, k)
    ensures var before := PatternsSummary(g);
      PatternsSummary(DisablePattern(g, d)) == before[k := before[k].(enabled := false)]
  {
  }
}

=== FILE: pty_monitor.dfy ===
/** The PTY monitor: the capture state machine that watches the keyboard
    and the CLI's terminal output, cuts the traffic into interactions and
    records them in the session. Reading and writing file descriptors, the
    child process, the clock and the session file are not modelled: the
    monitor loop consumes a sequence of events instead. */
module PtyMonitor {
  import opened Results
  import opened Strings
  import opened Sanitizer

  datatype CaptureMode = Waiting | UserInput | AssistantOutput

  /** One recorded exchange, as `_save_interaction` builds it (the
      timestamp and the constant message type are left out). */
  datatype Interaction = Interaction(
    id: string,
    sequenceNumber: nat,
    userPrompt: string,
    claudeResponse: string,
    rawUser: string,
    rawAssistant: string)

  /** The monitor's mutable state: the two interaction buffers, the
      interaction counter, the capture mode and the interactions recorded
      in the current session. */
  datatype Monitor = Monitor(
    user: string,
    assistant: string,
    count: nat,
    mode: CaptureMode,
    interactions: seq<Interaction>)

  const Fresh: Monitor := Monitor([], [], 0, Waiting, [])

  const Eot: char := '\U{04}'

  function InteractionId(n: nat): string {
    "int-" + NatToString(n)
  }

  /** Interaction identifiers are distinct. */
  lemma InteractionIdInjective(a: nat, b: nat)
    requires InteractionId(a) == InteractionId(b)
    ensures a == b
  {
    PrefixCancel("int-", NatToString(a), NatToString(b));
    NatToStringInjective(a, b);
  }

  /** The invariant of the recorded session: the counter is the number of
      interactions, the i-th interaction is number i, and each one keeps
      the trimmed, non-empty user text it was built from and the masked,
      cleaned version of that text. `mask` stands for the privacy guard's
      text masking. */
  predicate WellFormed(m: Monitor, mask: string -> string) {
    && m.count == |m.interactions|
    && forall i :: 0 <= i < |m.interactions| ==> Entry(m.interactions[i], i, mask)
  }

  /** What the invariant demands of the interaction at position `i`. */
  predicate Entry(it: Interaction, i: nat, mask: string -> string) {
    && it.sequenceNumber == i
    && it.id == InteractionId(i)
    && it.rawUser != []
    && IsTrimmed(it.rawUser)
    && it.userPrompt == mask(CleanClaudeOutput(it.rawUser))
    && it.claudeResponse == Response(it.rawAssistant, mask)
  }

  /** The response `_save_interaction` records for the cleaned assistant
      text: masked when the UI clean-up leaves anything, else empty. */
  function Response(rawAssistant: string, mask: string -> string): string {
    var cleanOutput := CleanClaudeOutput(rawAssistant);
    if cleanOutput == [] then [] else mask(cleanOutput)
  }

  /** In a well-formed session no two interactions share an identifier. */
  lemma IdsUnique(m: Monitor, mask: string -> string, i: nat, j: nat)
    requires WellFormed(m, mask) && i < |m.interactions| && j < |m.interactions| && i != j
    ensures m.interactions[i].id != m.interactions[j].id
  {
    assert Entry(m.interactions[i], i, mask) && Entry(m.interactions[j], j, mask);
    if m.interactions[i].id == m.interactions[j].id {
      InteractionIdInjective(i, j);
    }
  }

  predicate HasEnter(text: string) {
    '\r' in text || '\n' in text
  }

  /** `_capture_input`: Enter switches to capturing the response and does
      not add the chunk to the user buffer; other keystrokes are collected
      while the user is typing and dropped while the response is awaited. */
  function CaptureInput(m: Monitor, text: string): (r: Monitor)
    ensures r.assistant == m.assistant && r.count == m.count && r.interactions == m.interactions
    ensures HasEnter(text) ==> r.mode == AssistantOutput && r.user == m.user
    ensures !HasEnter(text) && m.mode != AssistantOutput ==> r.mode == UserInput && r.user == m.user + text
    ensures !HasEnter(text) && m.mode == AssistantOutput ==> r == m
  {
    if HasEnter(text) then m.(mode := AssistantOutput)
    else
      match m.mode
      case Waiting => m.(mode := UserInput, user := m.user + text)
      case UserInput => m.(user := m.user + text)
      case AssistantOutput => m
  }

  function Concat(chunks: seq<string>): string
    decreases |chunks|
  {
    if |chunks| == 0 then [] else chunks[0] + Concat(chunks[1..])
  }

  /** The keyboard chunks fed to `_capture_input` one after another. */
  function Typing(m: Monitor, chunks: seq<string>): Monitor
    decreases |chunks|
  {
    if |chunks| == 0 then m else Typing(CaptureInput(m, chunks[0]), chunks[1..])
  }

  /** Typed chunks accumulate, in order, in the user buffer until Enter. */
  lemma {:induction false} TypingAccumulates(m: Monitor, chunks: seq<string>)
    requires m.mode != AssistantOutput
    requires forall i :: 0 <= i < |chunks| ==> !HasEnter(chunks[i])
    ensures Typing(m, chunks).user == m.user + Concat(chunks)
    ensures Typing(m, chunks).mode == (if |chunks| == 0 then m.mode else UserInput)
    ensures Typing(m, chunks).interactions == m.interactions
    decreases |chunks|
  {
    if |chunks| > 0 {
      TypingAccumulates(CaptureInput(m, chunks[0]), chunks[1..]);
      assert m.user + chunks[0] + Concat(chunks[1..]) == m.user + Concat(chunks);
    }
  }

  /** The text of one side of the exchange as `_save_interaction` reads it. */
  function Cleaned(buffer: string): (r: string)
    ensures IsTrimmed(r)
  {
    Strip(StripAnsi(buffer))
  }

  /** `_save_interaction`: without user text nothing is recorded and the
      buffers are kept; otherwise the next interaction is appended and the
      buffers are cleared. */
  function SaveInteraction(m: Monitor, mask: string -> string): (r: Monitor)
    ensures Cleaned(m.user) == [] ==> r == m
    ensures Cleaned(m.user) != [] ==>
      && |r.interactions| == |m.interactions| + 1
      && r.interactions[..|m.interactions|] == m.interactions
      && r.count == m.count + 1
      && r.user == [] && r.assistant == [] && r.mode == m.mode
  {
    var userInput := Cleaned(m.user);
    var assistantOutput := Cleaned(m.assistant);
    if userInput == [] then m
    else
      var it := Interaction(
        InteractionId(m.count), m.count,
        mask(CleanClaudeOutput(userInput)),
        Response(assistantOutput, mask),
        userInput, assistantOutput);
      var r := m.(user := [], assistant := [], count := m.count + 1, interactions := m.interactions + [it]);
      assert r.interactions[..|m.interactions|] == m.interactions;
      r
  }

  /** Saving keeps the session well formed. */
  lemma SaveKeepsWellFormed(m: Monitor, mask: string -> string)
    requires WellFormed(m, mask)
    ensures WellFormed(SaveInteraction(m, mask), mask)
  {
    var r := SaveInteraction(m, mask);
    if Cleaned(m.user) != [] {
      var n := |m.interactions|;
      forall i | 0 <= i < |r.interactions|
        ensures Entry(r.interactions[i], i, mask)
      {
        if i < n {
          assert r.interactions[i] == r.interactions[..n][i] == m.interactions[i];
        }
      }
    }
  }

  /** The recorded interaction carries the cleaned buffers of the exchange. */
  lemma SavedInteractionContents(m: Monitor, mask: string -> string)
    requires Cleaned(m.user) != []
    ensures var it := SaveInteraction(m, mask).interactions[|m.interactions|];
      && it.id == InteractionId(m.count) && it.sequenceNumber == m.count
      && it.rawUser == Cleaned(m.user) && it.rawAssistant == Cleaned(m.assistant)
      && it.userPrompt == mask(CleanClaudeOutput(Cleaned(m.user)))
      && (CleanClaudeOutput(Cleaned(m.assistant)) == [] ==> it.claudeResponse == [])
      && (CleanClaudeOutput(Cleaned(m.assistant)) != [] ==>
            it.claudeResponse == mask(CleanClaudeOutput(Cleaned(m.assistant))))
  {
  }

  /** Lines `_process_output_buffer` does not record: blank lines, the bare
      prompt and the echo of the user's own input. */
  predicate Skipped(line: string, echo: string) {
    line == [] || line == ">" || line == echo
  }

  /** The stripped lines that are recorded, in order. */
  function Kept(lines: seq<string>, echo: string): (r: seq<string>)
    ensures forall i :: 0 <= i < |r| ==> !Skipped(r[i], echo) && IsTrimmed(r[i])
    ensures (forall i :: 0 <= i < |lines| ==> '\n' !in lines[i]) ==> forall i :: 0 <= i < |r| ==> '\n' !in r[i]
    decreases |lines|
  {
    if |lines| == 0 then []
    else
      var l := Strip(lines[0]);
      var rest := Kept(lines[1..], echo);
      assert forall i :: 0 <= i < |lines| - 1 ==> lines[1..][i] == lines[i + 1];
      if Skipped(l, echo) then rest else [l] + rest
  }

  /** What the line loop of `_process_output_buffer` appends to the
      assistant buffer: each recorded line followed by a newline. */
  function Captured(lines: seq<string>, echo: string): string
    decreases |lines|
  {
    if |lines| == 0 then []
    else
      var l := Strip(lines[0]);
      (if Skipped(l, echo) then [] else l + "\n") + Captured(lines[1..], echo)
  }

  /** The appended text is the recorded lines, each closed by a newline. */
  lemma {:induction false} CapturedIsJoin(lines: seq<string>, echo: string)
    ensures Captured(lines, echo) == Join(Kept(lines, echo) + [""], '\n')
    decreases |lines|
  {
    if |lines| > 0 {
      CapturedIsJoin(lines[1..], echo);
      var l := Strip(lines[0]);
      var rest := Kept(lines[1..], echo);
      if !Skipped(l, echo) {
        var parts := [l] + rest + [""];
        assert parts[1..] == rest + [""];
        assert Join(parts, '\n') == l + ['\n'] + Join(rest + [""], '\n');
      }
    }
  }

  /** Splitting the appended text at newlines gives back exactly the
      recorded lines (and the empty piece after the last newline). */
  lemma CapturedLines(lines: seq<string>, echo: string)
    requires forall i :: 0 <= i < |lines| ==> '\n' !in lines[i]
    ensures Split(Captured(lines, echo), '\n') == Kept(lines, echo) + [""]
  {
    CapturedIsJoin(lines, echo);
    var parts := Kept(lines, echo) + [""];
    assert forall i :: 0 <= i < |parts| ==> '\n' !in parts[i] by {
      forall i | 0 <= i < |parts|
        ensures '\n' !in parts[i]
      {
        if i == |parts| - 1 {
          assert parts[i] == "";
        }
      }
    }
    SplitJoin(parts, '\n');
  }

  /** `_process_output_buffer`: while the response is awaited, the
      buffer's lines are recorded; a prompt `>` in the buffer then closes
      the interaction and the monitor waits again. */
  function ProcessOutputBuffer(m: Monitor, buffer: string, mask: string -> string): (r: Monitor)
    ensures m.mode != AssistantOutput ==> r == m
    ensures |r.interactions| >= |m.interactions| && r.interactions[..|m.interactions|] == m.interactions
    ensures r.count - |r.interactions| == m.count - |m.interactions|
  {
    if m.mode != AssistantOutput then m
    else
      var clean := StripAnsi(buffer);
      var lines := Split(clean, '\n');
      var m1 := m.(assistant := m.assistant + Captured(lines, Cleaned(m.user)));
      if '>' in clean then SaveInteraction(m1, mask).(mode := Waiting) else m1
  }

  /** Processing output keeps the session well formed. */
  lemma ProcessKeepsWellFormed(m: Monitor, buffer: string, mask: string -> string)
    ensures WellFormed(m, mask) ==> WellFormed(ProcessOutputBuffer(m, buffer, mask), mask)
  {
    if m.mode == AssistantOutput && WellFormed(m, mask) {
      var m1 := m.(assistant := m.assistant + Captured(Split(StripAnsi(buffer), '\n'), Cleaned(m.user)));
      assert WellFormed(m1, mask);
      SaveKeepsWellFormed(m1, mask);
    }
  }

  /** While the response is awaited and no prompt appears, the buffer's
      recorded lines are appended to the assistant buffer and nothing else
      changes. */
  lemma ResponseLinesAppended(m: Monitor, buffer: string, mask: string -> string)
    requires m.mode == AssistantOutput && '>' !in StripAnsi(buffer)
    ensures var r := ProcessOutputBuffer(m, buffer, mask);
      && r.assistant[..|m.assistant|] == m.assistant
      && Split(r.assistant[|m.assistant|..], '\n') == Kept(Split(StripAnsi(buffer), '\n'), Cleaned(m.user)) + [""]
      && r.(assistant := m.assistant) == m
  {
    var lines := Split(StripAnsi(buffer), '\n');
    var r := ProcessOutputBuffer(m, buffer, mask);
    assert r.assistant[|m.assistant|..] == Captured(lines, Cleaned(m.user));
    CapturedLines(lines, Cleaned(m.user));
  }

  /** A prompt while the response is awaited closes the exchange. */
  lemma PromptClosesExchange(m: Monitor, buffer: string, mask: string -> string)
    requires m.mode == AssistantOutput && '>' in StripAnsi(buffer)
    ensures var r := ProcessOutputBuffer(m, buffer, mask);
      && r.mode == Waiting
      && (Cleaned(m.user) != [] ==> |r.interactions| == |m.interactions| + 1 && r.user == [] && r.assistant == [])
      && (Cleaned(m.user) == [] ==> r.interactions == m.interactions)
  {
  }

  /** Typing a prompt key by key, pressing Enter and seeing the prompt
      again records exactly one interaction holding the typed text. */
  lemma TypedPromptRecorded(m: Monitor, chunks: seq<string>, enter: string, buffer: string, mask: string -> string)
    requires m.mode == Waiting && m.user == []
    requires forall i :: 0 <= i < |chunks| ==> !HasEnter(chunks[i])
    requires HasEnter(enter) && '>' in StripAnsi(buffer) && Cleaned(Concat(chunks)) != []
    ensures var r := ProcessOutputBuffer(CaptureInput(Typing(m, chunks), enter), buffer, mask);
      && |r.interactions| == |m.interactions| + 1
      && r.interactions[|m.interactions|].rawUser == Cleaned(Concat(chunks))
      && r.mode == Waiting
  {
    TypingAccumulates(m, chunks);
    var t := Typing(m, chunks);
    assert t.user == Concat(chunks);
    var a := CaptureInput(t, enter);
    var m1 := a.(assistant := a.assistant + Captured(Split(StripAnsi(buffer), '\n'), Cleaned(a.user)));
    SavedInteractionContents(m1, mask);
  }

  /** A chunk typed with its Enter key in it, from an empty user buffer,
      leaves the user buffer empty, so the exchange it starts is not recorded. */
  lemma EnterChunkNotRecorded(m: Monitor, text: string, buffer: string, mask: string -> string)
    requires m.user == [] && HasEnter(text)
    ensures ProcessOutputBuffer(CaptureInput(m, text), buffer, mask).interactions == m.interactions
  {
    var m1 := CaptureInput(m, text);
    assert StripAnsi([]) == [];
    assert Cleaned(m1.user) == [];
  }

  // ---------------------------------------------------------------------
  // Output buffering in `_monitor_loop`
  // ---------------------------------------------------------------------

  /** The output buffer processed now and the part that waits for more output. */
  datatype Flush = Flush(fed: string, kept: string)

  /** The buffering rule as written: the whole buffer is processed whenever
      the chunk holds a newline or a prompt; after a newline-only chunk the
      buffer's last line is kept, although it was just processed. */
  function BufferingAsWritten(carry: string, text: string): (r: Option<Flush>)
    ensures r.None? <==> '\n' !in text && '>' !in text
    ensures r.Some? ==> r.value.fed == carry + text
    ensures r.Some? ==> '\n' !in r.value.kept
  {
    var buffer := carry + text;
    if '\n' in text || '>' in text then
      if '>' in text then Some(Flush(buffer, []))
      else
        var lines := Split(buffer, '\n');
        Some(Flush(buffer, lines[|lines| - 1]))
    else None
  }

  /** The line kept after a newline-only chunk is the tail of the text
      just processed: it is fed again with the next flush. */
  lemma AsWrittenRefeedsLastLine(carry: string, text: string, next: string)
    requires '\n' in text && '>' !in text
    requires BufferingAsWritten(BufferingAsWritten(carry, text).value.kept, next).Some?
    ensures var f := BufferingAsWritten(carry, text).value;
      && |f.kept| <= |f.fed| && f.fed[|f.fed| - |f.kept|..] == f.kept
      && BufferingAsWritten(f.kept, next).value.fed[..|f.kept|] == f.kept
  {
    var buffer := carry + text;
    ConcatMembers(carry, text);
    var k := LastIndexOf(buffer, '\n').value;
    LastPieceAfter(buffer, '\n', k);
  }

  /** The same in full: `ab\ncd` and then `ef>` feed `cd` twice. */
  lemma AsWrittenDuplicatesPartialLine()
    ensures BufferingAsWritten([], "ab\ncd") == Some(Flush("ab\ncd", "cd"))
    ensures BufferingAsWritten("cd", "ef>") == Some(Flush("cdef>", []))
  {
    FirstChunkKeepsCd();
    PromptChunkFlushesAll("cd", "ef>");
  }

  lemma PromptChunkFlushesAll(carry: string, text: string)
    requires carry == "cd" && text == "ef>"
    ensures BufferingAsWritten(carry, text) == Some(Flush("cdef>", []))
  {
    assert text[2] == '>';
    assert carry + text == "cdef>";
  }

  lemma FirstChunkKeepsCd()
    ensures BufferingAsWritten([], "ab\ncd") == Some(Flush("ab\ncd", "cd"))
  {
    LastLineOfFirstChunk("ab\ncd");
    assert [] + "ab\ncd" == "ab\ncd";
  }

  lemma LastLineOfFirstChunk(s: string)
    requires s == "ab\ncd"
    ensures '\n' in s && '>' !in s
    ensures var lines := Split(s, '\n'); lines[|lines| - 1] == "cd"
  {
    assert s[2] == '\n' && s[3] != '\n' && s[4] != '\n';
    LastPieceAfter(s, '\n', 2);
    assert s[3..] == "cd";
  }

  /** The buffering rule as intended: after a newline-only chunk only the
      complete lines are processed and the incomplete last line waits. */
  function Buffering(carry: string, text: string): (r: Option<Flush>)
    ensures r.None? <==> '\n' !in text && '>' !in text
    ensures r.Some? ==> r.value.fed + r.value.kept == carry + text
    ensures r.Some? ==> '\n' !in r.value.kept
    ensures r.Some? && '>' in text ==> r.value.kept == []
  {
    var buffer := carry + text;
    if '\n' in text || '>' in text then
      if '>' in text then Some(Flush(buffer, []))
      else
        ConcatMembers(carry, text);
        var k := LastIndexOf(buffer, '\n').value;
        assert buffer[..k + 1] + buffer[k + 1..] == buffer;
        var tail := buffer[k + 1..];
        assert '\n' !in tail by {
          forall i | 0 <= i < |tail|
            ensures tail[i] != '\n'
          {
            assert tail[i] == buffer[k + 1 + i];
          }
        }
        Some(Flush(buffer[..k + 1], buffer[k + 1..]))
    else None
  }

  /** Both rules keep the same incomplete line; the intended one does not
      process it yet. */
  lemma BufferingKeepsSameLine(carry: string, text: string)
    requires '\n' in text && '>' !in text
    ensures Buffering(carry, text).value.kept == BufferingAsWritten(carry, text).value.kept
  {
    var buffer := carry + text;
    ConcatMembers(carry, text);
    LastPieceAfter(buffer, '\n', LastIndexOf(buffer, '\n').value);
  }

  /** Everything the terminal writes is processed exactly once: the
      processed parts of a run of chunks, followed by what still waits, are
      the whole output. */
  function FeedAll(carry: string, texts: seq<string>): (r: (string, string))
    ensures r.0 + r.1 == carry + Concat(texts)
    decreases |texts|
  {
    if |texts| == 0 then ([], carry)
    else
      match Buffering(carry, texts[0])
      case None =>
        var r := FeedAll(carry + texts[0], texts[1..]);
        assert carry + texts[0] + Concat(texts[1..]) == carry + Concat(texts);
        r
      case Some(f) =>
        var r := FeedAll(f.kept, texts[1..]);
        calc {
          f.fed + r.0 + r.1;
          f.fed + (r.0 + r.1);
          f.fed + (f.kept + Concat(texts[1..]));
          (f.fed + f.kept) + Concat(texts[1..]);
          carry + Concat(texts);
        }
        (f.fed + r.0, r.1)
  }

  /** Which buffering rule the loop follows: the one in the code, or the
      corrected one. */
  datatype Rule = AsWritten | Intended

  /** The flush a rule makes for one chunk. */
  function Release(rule: Rule, carry: string, text: string): (r: Option<Flush>)
    ensures r.None? <==> '\n' !in text && '>' !in text
    ensures r.Some? ==> '\n' !in r.value.kept
    ensures r.Some? && rule.AsWritten? ==> r.value.fed == carry + text
    ensures r.Some? && rule.Intended? ==> r.value.fed + r.value.kept == carry + text
  {
    match rule
    case AsWritten => BufferingAsWritten(carry, text)
    case Intended => Buffering(carry, text)
  }

  /** One terminal chunk: buffer it and process what the rule releases. */
  function OutputStep(m: Monitor, rule: Rule, carry: string, text: string, mask: string -> string): (r: (Monitor, string))
    ensures '\n' !in carry ==> '\n' !in r.1
    ensures WellFormed(m, mask) ==> WellFormed(r.0, mask)
    ensures |r.0.interactions| >= |m.interactions| && r.0.interactions[..|m.interactions|] == m.interactions
  {
    match Release(rule, carry, text)
    case None =>
      ConcatMembers(carry, text);
      (m, carry + text)
    case Some(f) =>
      var m1 := ProcessOutputBuffer(m, f.fed, mask);
      ProcessKeepsWellFormed(m, f.fed, mask);
      (m1, f.kept)
  }

  /** The two rules leave the same text waiting after every chunk; they
      differ only in what they process. */
  lemma OutputStepRulesKeepSame(m: Monitor, carry: string, text: string, mask: string -> string)
    ensures OutputStep(m, AsWritten, carry, text, mask).1 == OutputStep(m, Intended, carry, text, mask).1
  {
    if '\n' in text && '>' !in text {
      BufferingKeepsSameLine(carry, text);
    }
  }

  /** Under the code's rule a chunk with a newline or a prompt has the whole
      buffer processed, the waiting text included. */
  lemma OutputStepAsWrittenFeedsWhole(m: Monitor, carry: string, text: string, mask: string -> string)
    requires '\n' in text || '>' in text
    ensures OutputStep(m, AsWritten, carry, text, mask).0 == ProcessOutputBuffer(m, carry + text, mask)
  {
  }

  // ---------------------------------------------------------------------
  // The monitor loop and the session
  // ---------------------------------------------------------------------

  /** What `select` reports: a chunk read from the keyboard or from the
      CLI's terminal, already decoded, or the end of the CLI process. */
  datatype Event = Keyboard(data: string) | Terminal(data: string) | ProcessExit

  /** The events on which `_monitor_loop` breaks out of its loop: the
      process has exited, a read returned nothing, or the keyboard chunk is
      exactly Ctrl-D. */
  predicate Stops(e: Event) {
    match e
    case ProcessExit => true
    case Keyboard(d) => d == [] || d == [Eot]
    case Terminal(d) => d == []
  }

  /** `_monitor_loop`: it ends when the process exits, when either side
      reads nothing, or when the keyboard chunk is exactly Ctrl-D. The code
      buffers terminal output by the rule `AsWritten`. */
  function MonitorLoop(m: Monitor, rule: Rule, carry: string, events: seq<Event>, mask: string -> string): (r: Monitor)
    requires '\n' !in carry
    ensures WellFormed(m, mask) ==> WellFormed(r, mask)
    ensures |r.interactions| >= |m.interactions| && r.interactions[..|m.interactions|] == m.interactions
    ensures |events| > 0 && Stops(events[0]) ==> r == m
    decreases |events|
  {
    if |events| == 0 then m
    else
      match events[0]
      case ProcessExit => m
      case Keyboard(d) =>
        if d == [] || d == [Eot] then m
        else
          var m1 := CaptureInput(m, d);
          var r := MonitorLoop(m1, rule, carry, events[1..], mask);
          r
      case Terminal(d) =>
        if d == [] then m
        else
          var (m1, c1) := OutputStep(m, rule, carry, d, mask);
          var r := MonitorLoop(m1, rule, c1, events[1..], mask);
          assert r.interactions[..|m.interactions|] == r.interactions[..|m1.interactions|][..|m.interactions|];
          r
  }

  /** Nothing after the first stopping event is read: the loop over the
      events equals the loop over those before it. */
  lemma {:induction false} LoopIgnoresAfterStop(m: Monitor, rule: Rule, carry: string, events: seq<Event>, k: nat, mask: string -> string)
    requires '\n' !in carry
    requires k < |events| && Stops(events[k])
    ensures MonitorLoop(m, rule, carry, events, mask) == MonitorLoop(m, rule, carry, events[..k], mask)
    decreases k
  {
    if k > 0 {
      assert events[..k][0] == events[0] && events[..k][1..] == events[1..][..k - 1];
      match events[0]
      case ProcessExit =>
      case Keyboard(d) =>
        if d != [] && d != [Eot] {
          LoopIgnoresAfterStop(CaptureInput(m, d), rule, carry, events[1..], k - 1, mask);
        }
      case Terminal(d) =>
        if d != [] {
          var (m1, c1) := OutputStep(m, rule, carry, d, mask);
          LoopIgnoresAfterStop(m1, rule, c1, events[1..], k - 1, mask);
        }
    }
  }

  datatype SessionStatus = Active | Completed

  /** The session record `start_monitoring` writes (start and end times and
      the project path are left out). */
  datatype Session = Session(
    id: string,
    command: string,
    status: SessionStatus,
    interactions: seq<Interaction>,
    totalInteractions: Option<nat>)

  /** `_complete_session` */
  function CompleteSession(s: Session, count: nat): (r: Session)
    ensures r.status == Completed && r.totalInteractions == Some(count)
    ensures r.id == s.id && r.command == s.command && r.interactions == s.interactions
  {
    s.(status := Completed, totalInteractions := Some(count))
  }

  /** `start_monitoring`: `stamp` is the formatted start time. The loop
      buffers as the code does. The completed session lists every
      interaction the loop recorded, numbered from 0, and its total agrees
      with that list. */
  function StartMonitoring(stamp: string, command: string, events: seq<Event>, mask: string -> string): (r: Session)
    ensures r.id == "pty-" + stamp && r.command == command && r.status == Completed
    ensures r.totalInteractions == Some(|r.interactions|)
    ensures forall i :: 0 <= i < |r.interactions| ==>
      r.interactions[i].sequenceNumber == i && r.interactions[i].id == InteractionId(i)
    ensures forall i :: 0 <= i < |r.interactions| ==>
      && r.interactions[i].userPrompt == mask(CleanClaudeOutput(r.interactions[i].rawUser))
      && r.interactions[i].claudeResponse == Response(r.interactions[i].rawAssistant, mask)
  {
    var m := MonitorLoop(Fresh, AsWritten, [], events, mask);
    CompleteSession(Session("pty-" + stamp, command, Active, m.interactions, None), m.count)
  }
}

=== FILE: results.dfy ===
/** Failure-carrying values shared by every module of the model.
    Python exceptions raised by the validators become `Fail` values. */
module Results {

  datatype Option<+T> = None | Some(value: T)

  /** The exceptions the modelled code raises. */
  datatype Error =
    | ValueError(message: string)           // pydantic / Python ValueError
    | HttpError(status: int, detail: string) // FastAPI HTTPException
    | RegexError(source: string)            // re.error from a pattern or a template

  datatype Result<+T> = Ok(value: T) | Fail(error: Error)
}

=== FILE: sanitizer.dfy ===
/** The two text filters of the PTY monitor: `_strip_ansi`, which deletes
    terminal control sequences, and `_clean_claude_output`, which deletes
    the CLI's decorations. Every `re.sub(pattern, '', text)` they perform is
    written out as a left-to-right scan that asks, at each position, whether
    the pattern matches there and how long the match is. */
module Sanitizer {
  import opened Results
  import opened Strings

  const Esc: char := '\U{1b}'
  const Bel: char := '\U{07}'

  /** The pattern, given as `m`, matches at the start of `t` with a non-empty match. */
  predicate MatchesAt(m: string -> Option<nat>, t: string) {
    m(t).Some? && 1 <= m(t).value <= |t|
  }

  /** `re.sub(pattern, '', s)` for a pattern without empty matches: `m(t)` is
      the length of the match the pattern makes at the start of `t`, if any.
      After a match the scan resumes right behind it. */
  function DeleteMatches(s: string, m: string -> Option<nat>): (r: string)
    ensures |r| <= |s|
    ensures forall c :: c in r ==> c in s
    decreases |s|
  {
    if |s| == 0 then []
    else if MatchesAt(m, s) then
      var r := DeleteMatches(s[m(s).value..], m);
      assert forall c :: c in s[m(s).value..] ==> c in s;
      r
    else
      var r := DeleteMatches(s[1..], m);
      assert forall c :: c in s[1..] ==> c in s;
      [s[0]] + r
  }

  /** Text in which the pattern matches nowhere comes back unchanged. */
  lemma {:induction false} DeleteNothing(s: string, m: string -> Option<nat>)
    requires forall k :: 0 <= k < |s| ==> !MatchesAt(m, s[k..])
    ensures DeleteMatches(s, m) == s
    decreases |s|
  {
    if |s| > 0 {
      assert s[0..] == s;
      assert forall k :: 0 <= k < |s| - 1 ==> s[1..][k..] == s[k + 1..];
      DeleteNothing(s[1..], m);
    }
  }

  /** A prefix in which no match starts is copied through. */
  lemma {:induction false} DeleteKeepsPrefix(x: string, t: string, m: string -> Option<nat>)
    requires forall k :: 0 <= k < |x| ==> !MatchesAt(m, (x + t)[k..])
    ensures DeleteMatches(x + t, m) == x + DeleteMatches(t, m)
    decreases |x|
  {
    if |x| == 0 {
      assert x + t == t;
    } else {
      assert (x + t)[0..] == x + t;
      assert (x + t)[1..] == x[1..] + t;
      assert forall k :: 0 <= k < |x| - 1 ==> (x[1..] + t)[k..] == (x + t)[k + 1..];
      DeleteKeepsPrefix(x[1..], t, m);
    }
  }

  /** A match at the start is dropped whole. */
  lemma DeleteDropsMatch(x: string, t: string, m: string -> Option<nat>)
    requires |x| >= 1 && m(x + t) == Some(|x|)
    ensures DeleteMatches(x + t, m) == DeleteMatches(t, m)
  {
    assert (x + t)[|x|..] == t;
  }

  // ---------------------------------------------------------------------
  // `_strip_ansi`: the alternation
  //   \x1b\[[0-9;]*[a-zA-Z] | \x1b\].*?\x07 | \x1b[PX^_].*?\x1b\\ | \x1b\[\?[0-9]+[hl]
  // ---------------------------------------------------------------------

  predicate IsParam(c: char) {
    IsAsciiDigit(c) || c == ';'
  }

  /** What `.` may consume before the BEL that ends an OSC sequence is reached. */
  predicate OscBodyChar(c: char) {
    c != '\n' && c != Bel
  }

  /** First alternative: CSI, `ESC [`, parameters, a final letter. The
      parameter run is maximal: backing off would leave a digit or `;`
      where the letter must be. */
  function CsiMatch(t: string): Option<nat> {
    if |t| >= 2 && t[0] == Esc && t[1] == '[' then
      var n := Run(t[2..], IsParam);
      if 2 + n < |t| && IsAsciiLetter(t[2 + n]) then Some(3 + n) else None
    else None
  }

  /** Second alternative: OSC, `ESC ]` up to the first BEL, within one line. */
  function OscMatch(t: string): Option<nat> {
    if |t| >= 2 && t[0] == Esc && t[1] == ']' then
      var n := Run(t[2..], OscBodyChar);
      if 2 + n < |t| && t[2 + n] == Bel then Some(3 + n) else None
    else None
  }

  /** Offset of the first `ESC \` in `t` that no newline precedes. */
  function StOffset(t: string): (r: Option<nat>)
    ensures r.Some? ==> r.value + 1 < |t| && t[r.value] == Esc && t[r.value + 1] == '\\'
    ensures r.Some? ==> forall k :: 0 <= k < r.value ==> t[k] != '\n'
    decreases |t|
  {
    if |t| == 0 || t[0] == '\n' then None
    else if |t| >= 2 && t[0] == Esc && t[1] == '\\' then Some(0)
    else
      match StOffset(t[1..])
      case None => None
      case Some(j) => Some(j + 1)
  }

  /** Third alternative: DCS, SOS, PM or APC, `ESC` and one of `P X ^ _`,
      up to the first string terminator `ESC \`, within one line. */
  function StringMatch(t: string): Option<nat> {
    if |t| >= 2 && t[0] == Esc && t[1] in "PX^_" then
      match StOffset(t[2..])
      case None => None
      case Some(j) => Some(j + 4)
    else None
  }

  /** Fourth alternative: private mode set or reset, `ESC [ ?`, digits, `h` or `l`. */
  function ModeMatch(t: string): Option<nat> {
    if |t| >= 3 && t[0] == Esc && t[1] == '[' && t[2] == '?' then
      var n := Run(t[3..], IsAsciiDigit);
      if n >= 1 && 3 + n < |t| && t[3 + n] in "hl" then Some(4 + n) else None
    else None
  }

  /** The alternation, tried in order at the start of `t`. */
  function AnsiMatch(t: string): (r: Option<nat>)
    ensures r.Some? ==> 1 <= r.value <= |t| && t[0] == Esc
  {
    var a := CsiMatch(t);
    if a.Some? then a
    else
      var b := OscMatch(t);
      if b.Some? then b
      else
        var c := StringMatch(t);
        if c.Some? then c else ModeMatch(t)
  }

  /** `_strip_ansi` */
  function StripAnsi(s: string): (r: string)
    ensures |r| <= |s|
    ensures forall c :: c in r ==> c in s
  {
    DeleteMatches(s, AnsiMatch)
  }

  /** Text without ESC is left alone. */
  lemma StripAnsiPlain(s: string)
    requires Esc !in s
    ensures StripAnsi(s) == s
  {
    forall k | 0 <= k < |s|
      ensures !MatchesAt(AnsiMatch, s[k..])
    {
      assert s[k..][0] == s[k];
    }
    DeleteNothing(s, AnsiMatch);
  }

  /** The control sequences the pattern is written to remove. */
  datatype AnsiCode =
    | Csi(params: string, final: char)          // ESC [ params final
    | Osc(body: string)                         // ESC ] body BEL
    | StringCommand(kind: char, body: string)   // ESC kind body ESC \
    | PrivateMode(digits: string, final: char)  // ESC [ ? digits final

  predicate ValidCode(c: AnsiCode) {
    match c
    case Csi(p, f) => (forall i :: 0 <= i < |p| ==> IsParam(p[i])) && IsAsciiLetter(f)
    case Osc(b) => forall i :: 0 <= i < |b| ==> OscBodyChar(b[i])
    case StringCommand(k, b) => k in "PX^_" && forall i :: 0 <= i < |b| ==> b[i] != '\n' && b[i] != Esc
    case PrivateMode(d, f) => |d| >= 1 && (forall i :: 0 <= i < |d| ==> IsAsciiDigit(d[i])) && f in "hl"
  }

  function Render(c: AnsiCode): string {
    match c
    case Csi(p, f) => [Esc, '['] + p + [f]
    case Osc(b) => [Esc, ']'] + b + [Bel]
    case StringCommand(k, b) => [Esc, k] + b + [Esc, '\\']
    case PrivateMode(d, f) => [Esc, '[', '?'] + d + [f]
  }

  lemma {:induction false} StOffsetOfBody(b: string, t: string)
    requires forall i :: 0 <= i < |b| ==> b[i] != '\n' && b[i] != Esc
    ensures StOffset(b + [Esc, '\\'] + t) == Some(|b|)
    decreases |b|
  {
    var u := b + [Esc, '\\'] + t;
    if |b| == 0 {
      assert u[0] == Esc && u[1] == '\\';
    } else {
      assert u[0] == b[0];
      assert u[1..] == b[1..] + [Esc, '\\'] + t;
      StOffsetOfBody(b[1..], t);
    }
  }

  lemma CsiRendered(p: string, f: char, t: string)
    requires ValidCode(Csi(p, f))
    ensures |Render(Csi(p, f))| == |p| + 3
    ensures AnsiMatch(Render(Csi(p, f)) + t) == Some(|p| + 3)
  {
    var u := Render(Csi(p, f)) + t;
    assert u[2..] == p + ([f] + t);
    RunPrefix(p, [f] + t, IsParam);
    assert u[2 + |p|] == f;
  }

  lemma OscRendered(b: string, t: string)
    requires ValidCode(Osc(b))
    ensures |Render(Osc(b))| == |b| + 3
    ensures AnsiMatch(Render(Osc(b)) + t) == Some(|b| + 3)
  {
    var u := Render(Osc(b)) + t;
    assert CsiMatch(u).None? by { assert u[1] == ']'; }
    assert u[2..] == b + ([Bel] + t);
    RunPrefix(b, [Bel] + t, OscBodyChar);
    assert u[2 + |b|] == Bel;
  }

  lemma StringRendered(k: char, b: string, t: string)
    requires ValidCode(StringCommand(k, b))
    ensures |Render(StringCommand(k, b))| == |b| + 4
    ensures AnsiMatch(Render(StringCommand(k, b)) + t) == Some(|b| + 4)
  {
    var u := Render(StringCommand(k, b)) + t;
    assert u[0] == Esc && u[1] == k;
    assert CsiMatch(u).None? && OscMatch(u).None?;
    assert u[2..] == b + [Esc, '\\'] + t;
    StOffsetOfBody(b, t);
  }

  lemma ModeRendered(d: string, f: char, t: string)
    requires ValidCode(PrivateMode(d, f))
    ensures |Render(PrivateMode(d, f))| == |d| + 4
    ensures AnsiMatch(Render(PrivateMode(d, f)) + t) == Some(|d| + 4)
  {
    var u := Render(PrivateMode(d, f)) + t;
    assert u[0] == Esc && u[1] == '[' && u[2] == '?';
    assert Run(u[2..], IsParam) == 0 by {
      assert u[2..][0] == '?';
    }
    assert CsiMatch(u).None?;
    assert OscMatch(u).None? && StringMatch(u).None?;
    assert u[3..] == d + ([f] + t);
    RunPrefix(d, [f] + t, IsAsciiDigit);
    assert u[3 + |d|] == f;
  }

  /** A well-formed control sequence is matched exactly, whatever follows it. */
  lemma RenderMatched(c: AnsiCode, t: string)
    requires ValidCode(c)
    ensures AnsiMatch(Render(c) + t) == Some(|Render(c)|)
  {
    match c
    case Csi(p, f) => CsiRendered(p, f, t);
    case Osc(b) => OscRendered(b, t);
    case StringCommand(k, b) => StringRendered(k, b, t);
    case PrivateMode(d, f) => ModeRendered(d, f, t);
  }

  /** Terminal output as the CLI writes it: plain text interleaved with control sequences. */
  datatype Segment = Text(text: string) | Code(code: AnsiCode)

  predicate ValidSegment(g: Segment) {
    match g
    case Text(x) => Esc !in x
    case Code(c) => ValidCode(c)
  }

  function Flatten(gs: seq<Segment>): string
    decreases |gs|
  {
    if |gs| == 0 then []
    else (match gs[0] case Text(x) => x case Code(c) => Render(c)) + Flatten(gs[1..])
  }

  function PlainText(gs: seq<Segment>): string
    decreases |gs|
  {
    if |gs| == 0 then []
    else (match gs[0] case Text(x) => x case Code(_) => []) + PlainText(gs[1..])
  }

  /** Stripping rendered terminal output gives back exactly its plain text. */
  lemma {:induction false} StripAnsiRoundTrip(gs: seq<Segment>)
    requires forall i :: 0 <= i < |gs| ==> ValidSegment(gs[i])
    ensures StripAnsi(Flatten(gs)) == PlainText(gs)
    decreases |gs|
  {
    if |gs| > 0 {
      var rest := Flatten(gs[1..]);
      StripAnsiRoundTrip(gs[1..]);
      match gs[0]
      case Text(x) =>
        forall k | 0 <= k < |x|
          ensures !MatchesAt(AnsiMatch, (x + rest)[k..])
        {
          assert (x + rest)[k..][0] == x[k];
        }
        DeleteKeepsPrefix(x, rest, AnsiMatch);
      case Code(c) =>
        RenderMatched(c, rest);
        DeleteDropsMatch(Render(c), rest, AnsiMatch);
    }
  }

  /** Two ESCs in a row: no alternative starts at the first. */
  lemma DoubleEscUnmatched(t: string)
    requires |t| >= 2 && t[0] == Esc && t[1] == Esc
    ensures AnsiMatch(t).None?
  {
  }

  /** One pass is not always enough: deleting an inner sequence can join
      the text around it into a new one, which a second pass deletes. */
  lemma StripAnsiNotIdempotent()
    ensures var s := [Esc] + Render(Csi([], 'm')) + ['[', 'm'];
      && StripAnsi(s) == Render(Csi([], 'm'))
      && StripAnsi(StripAnsi(s)) == []
  {
    var inner := Render(Csi([], 'm'));
    var tail := ['[', 'm'];
    var s := [Esc] + inner + tail;
    DoubleEscUnmatched(s);
    assert s[1..] == inner + tail;
    RenderMatched(Csi([], 'm'), tail);
    DeleteDropsMatch(inner, tail, AnsiMatch);
    StripAnsiPlain(tail);
    assert StripAnsi(s) == [Esc] + tail == inner;
    RenderMatched(Csi([], 'm'), []);
    assert inner + [] == inner;
    DeleteDropsMatch(inner, [], AnsiMatch);
  }

  // ---------------------------------------------------------------------
  // `_clean_claude_output`
  // ---------------------------------------------------------------------

  /** The box-drawing characters of the CLI's frames. */
  const BoxDrawing: set<char> := {
    '\U{256d}', '\U{2500}', '\U{256e}', '\U{2502}', '\U{2570}', '\U{256f}', '\U{2510}',
    '\U{2514}', '\U{2518}', '\U{251c}', '\U{2524}', '\U{252c}', '\U{2534}', '\U{253c}'
  }

  /** The CLI's bullets and arrows. */
  const Bullets: set<char> := {
    '\U{23bf}', '\U{29c9}', '\U{273b}', '\U{25cf}', '\U{2022}', '\U{25b8}', '\U{25b9}', '\U{2b24}'
  }

  predicate NotBoxDrawing(c: char) {
    c !in BoxDrawing
  }

  predicate NotBullet(c: char) {
    c !in Bullets
  }

  predicate NotSpace(c: char) {
    !IsSpace(c)
  }

  /** Every whitespace character is a plain space and none follows another. */
  predicate Collapsed(t: string) {
    forall i :: 0 <= i < |t| && IsSpace(t[i]) ==> t[i] == ' ' && (i + 1 < |t| ==> !IsSpace(t[i + 1]))
  }

  /** `re.sub(r'\s+', ' ', s)`: each maximal whitespace run becomes one space. */
  function CollapseSpace(s: string): (r: string)
    ensures |s| > 0 ==> |r| > 0 && (IsSpace(r[0]) <==> IsSpace(s[0]))
    ensures Collapsed(r)
    ensures forall c :: c in r ==> c in s || c == ' '
    decreases |s|
  {
    if |s| == 0 then []
    else if IsSpace(s[0]) then
      var n := Run(s, IsSpace);
      var rest := CollapseSpace(s[n..]);
      assert forall c :: c in s[n..] ==> c in s;
      [' '] + rest
    else
      var rest := CollapseSpace(s[1..]);
      assert forall c :: c in s[1..] ==> c in s;
      [s[0]] + rest
  }

  /** Collapsed text is exactly the text the collapse leaves unchanged. */
  lemma {:induction false} CollapseFixpoint(s: string)
    ensures CollapseSpace(s) == s <==> Collapsed(s)
    decreases |s|
  {
    if |s| > 0 {
      CollapseFixpoint(s[1..]);
      assert Collapsed(s) ==> Collapsed(s[1..]) by {
        if Collapsed(s) {
          forall i | 0 <= i < |s| - 1 && IsSpace(s[1..][i])
            ensures s[1..][i] == ' ' && (i + 1 < |s| - 1 ==> !IsSpace(s[1..][i + 1]))
          {
            assert s[1..][i] == s[i + 1];
          }
        }
      }
      if IsSpace(s[0]) {
        var n := Run(s, IsSpace);
        if Collapsed(s) {
          assert s[0] == ' ';
          assert n == 1;
          assert s[n..] == s[1..];
        }
        if CollapseSpace(s) == s {
          assert s[0] == ' ';
          var rest := CollapseSpace(s[n..]);
          assert |rest| <= |s| - n;
          assert n == 1;
          assert s[1..] == rest;
        }
      } else {
        if CollapseSpace(s) == s {
          assert CollapseSpace(s[1..]) == s[1..];
        }
      }
    }
  }

  /** The collapse is idempotent. */
  lemma CollapseIdempotent(s: string)
    ensures CollapseSpace(CollapseSpace(s)) == CollapseSpace(s)
  {
    CollapseFixpoint(CollapseSpace(s));
  }

  /** The collapse keeps every non-whitespace character, in order. */
  lemma {:induction false} CollapseKeepsText(s: string)
    ensures Filter(CollapseSpace(s), NotSpace) == Filter(s, NotSpace)
    decreases |s|
  {
    if |s| > 0 {
      if IsSpace(s[0]) {
        var n := Run(s, IsSpace);
        CollapseKeepsText(s[n..]);
        SkipSpaces(s, n);
      } else {
        CollapseKeepsText(s[1..]);
      }
    }
  }

  lemma {:induction false} SkipSpaces(s: string, n: nat)
    requires n <= |s| && forall k :: 0 <= k < n ==> IsSpace(s[k])
    ensures Filter(s, NotSpace) == Filter(s[n..], NotSpace)
    decreases n
  {
    if n > 0 {
      assert s[1..][n - 1..] == s[n..];
      SkipSpaces(s[1..], n - 1);
    }
  }

  predicate NotNewline(c: char) {
    c != '\n'
  }

  /** Length of the rest of the current line: what a trailing `.*` consumes. */
  function LineEnd(t: string): nat {
    Run(t, NotNewline)
  }

  /** A literal pattern with no special characters. */
  function LiteralMatch(p: string, t: string): Option<nat> {
    if StartsWith(t, p) then Some(|p|) else None
  }

  /** A pattern `marker.*`: the marker and the rest of its line. */
  function ToLineEnd(marker: string, t: string): Option<nat> {
    if StartsWith(t, marker) then Some(|marker| + LineEnd(t[|marker|..])) else None
  }

  function LineFrom(marker: string): string -> Option<nat> {
    t => ToLineEnd(marker, t)
  }

  /** `Selected \d+ lines from.*` */
  function SelectedMatch(t: string): Option<nat> {
    if StartsWith(t, "Selected ") then
      var n := Run(t[9..], IsAsciiDigit);
      if n >= 1 && StartsWith(t[9 + n..], " lines from") then
        Some(9 + n + 11 + LineEnd(t[9 + n + 11..]))
      else None
    else None
  }

  /** Within one line, where `.*tokens.*\)` ends: greedy, it ends at the
      line's last `)`, and it matches when `tokens` occurs before that. */
  function NoteEnd(line: string): (r: Option<nat>)
    ensures r.Some? ==> r.value < |line| && line[r.value] == ')'
  {
    match LastIndexOf(line, ')')
    case None => None
    case Some(m) => if Contains(line[..m], "tokens") then Some(m) else None
  }

  /** The current line: what `.*` can reach. */
  function CurrentLine(u: string): (r: string)
    ensures |r| <= |u| && r == u[..|r|]
  {
    u[..LineEnd(u)]
  }

  /** Where `\(\d+s` ends, if it matches at the start of `t`. */
  function NoteStart(t: string): (a: Option<nat>)
    ensures a.Some? ==> 3 <= a.value <= |t| && t[0] == '('
  {
    if |t| >= 1 && t[0] == '(' then
      var n := Run(t[1..], IsAsciiDigit);
      if n >= 1 && 1 + n < |t| && t[1 + n] == 's' then Some(2 + n) else None
    else None
  }

  /** `\(\d+s.*tokens.*\)`: an opening parenthesis, a maximal digit run, `s`,
      then the rest up to the last `)` of the line, which must be preceded
      by `tokens`. */
  function TokenNoteMatch(t: string): (r: Option<nat>)
    ensures r.Some? ==> 1 <= r.value <= |t| && t[0] == '(' && t[r.value - 1] == ')'
  {
    match NoteStart(t)
    case None => None
    case Some(a) =>
      var line := CurrentLine(t[a..]);
      match NoteEnd(line)
      case None => None
      case Some(m) =>
        assert t[a + m] == line[m];
        Some(a + m + 1)
  }

  /** The last `)` of the line closes the note. */
  lemma NoteEndAtLastParen(x: string, y: string)
    requires Contains(x, "tokens") && ')' !in y
    ensures NoteEnd(x + [')'] + y) == Some(|x|)
  {
    var line := x + [')'] + y;
    var m := LastIndexOf(line, ')');
    assert line[|x|] == ')';
    forall k | |x| < k < |line|
      ensures line[k] != ')'
    {
      assert line[k] == y[k - |x| - 1];
    }
    assert line[..|x|] == x;
  }

  /** A timing note as the CLI prints it: `(`, the seconds, `s`, the rest
      of the note, `)`. */
  function Note(d: string, x: string): string {
    ['('] + d + ['s'] + x + [')']
  }

  /** A parenthesised timing note that mentions tokens is matched up to its
      closing parenthesis, when no other `)` follows on its line. */
  lemma TokenNoteMatched(d: string, x: string, y: string)
    requires |d| >= 1 && forall i :: 0 <= i < |d| ==> IsAsciiDigit(d[i])
    requires '\n' !in x && Contains(x, "tokens")
    requires '\n' !in y && ')' !in y
    ensures TokenNoteMatch(Note(d, x) + y) == Some(|Note(d, x)|)
  {
    var line := x + [')'] + y;
    NoteStartOfDigits(d, line);
    WholeLine(line);
    NoteEndAtLastParen(x, y);
    assert Note(d, x) + y == (['('] + d + ['s']) + line;
    TokenNoteIntro(['('] + d + ['s'], line, |x|);
  }

  lemma TokenNoteIntro(head: string, line: string, m: nat)
    requires NoteStart(head + line) == Some(|head|)
    requires CurrentLine(line) == line && NoteEnd(line) == Some(m)
    ensures TokenNoteMatch(head + line) == Some(|head| + m + 1)
  {
    assert (head + line)[|head|..] == line;
  }

  lemma NoteStartOfDigits(d: string, rest: string)
    requires |d| >= 1 && forall i :: 0 <= i < |d| ==> IsAsciiDigit(d[i])
    ensures NoteStart(['('] + d + ['s'] + rest) == Some(2 + |d|)
  {
    var t := ['('] + d + ['s'] + rest;
    assert t[1..] == d + (['s'] + rest);
    RunPrefix(d, ['s'] + rest, IsAsciiDigit);
    assert t[0] == '(' && t[1 + |d|] == 's';
  }

  lemma WholeLine(line: string)
    requires '\n' !in line
    ensures CurrentLine(line) == line
  {
    RunPrefix(line, [], NotNewline);
    assert line + [] == line;
  }

  /** Deleting a token note joins the text on either side of it. */
  lemma NoteJoinsNeighbours(pre: string, d: string, x: string, post: string)
    requires '(' !in pre && '(' !in post
    requires |d| >= 1 && forall i :: 0 <= i < |d| ==> IsAsciiDigit(d[i])
    requires '\n' !in x && Contains(x, "tokens")
    requires '\n' !in post && ')' !in post
    ensures DeleteMatches(pre + (Note(d, x) + post), TokenNoteMatch) == pre + post
  {
    TokenNoteMatched(d, x, post);
    NoteThenPlain(Note(d, x), post);
    NoParenKept(pre, Note(d, x) + post);
  }

  lemma NoteThenPlain(note: string, post: string)
    requires |note| >= 1 && TokenNoteMatch(note + post) == Some(|note|) && '(' !in post
    ensures DeleteMatches(note + post, TokenNoteMatch) == post
  {
    DeleteDropsMatch(note, post, TokenNoteMatch);
    NoParenKept(post, []);
    assert post + [] == post;
  }

  /** A prefix without `(` is kept by the token-note deletion. */
  lemma NoParenKept(pre: string, t: string)
    requires '(' !in pre
    ensures DeleteMatches(pre + t, TokenNoteMatch) == pre + DeleteMatches(t, TokenNoteMatch)
  {
    forall k | 0 <= k < |pre|
      ensures !MatchesAt(TokenNoteMatch, (pre + t)[k..])
    {
      assert (pre + t)[k..][0] == pre[k];
    }
    DeleteKeepsPrefix(pre, t, TokenNoteMatch);
  }

  /** The token-note deletion runs after the `cwd:` deletion and can join
      the text around a note into a new `cwd:`. */
  lemma TokenNoteCanFormCwd(s: string)
    requires s == "cw(1s tokens)d:"
    ensures !Contains(s, "cwd:")
    ensures DeleteMatches(s, TokenNoteMatch) == "cwd:"
  {
    var pre, d, x, post := "cw", "1", " tokens", "d:";
    SpacedTokens(x);
    assert s == pre + (Note(d, x) + post);
    NoteJoinsNeighbours(pre, d, x, post);
    assert pre + post == "cwd:";
    NoCwd(s);
  }

  lemma SpacedTokens(x: string)
    requires x == " tokens"
    ensures Contains(x, "tokens")
  {
    assert x[..6][0] == ' ';
    assert x[1..] == "tokens";
    assert Find(x[1..], "tokens") == Some(0);
  }

  lemma NoCwd(s: string)
    requires s == "cw(1s tokens)d:"
    ensures !Contains(s, "cwd:")
  {
    forall j | 0 <= j <= |s|
      ensures !StartsWith(s[j..], "cwd:")
    {
      if j + 4 <= |s| { NoCwdAt(s, j); }
    }
  }

  lemma NoCwdAt(s: string, j: nat)
    requires s == "cw(1s tokens)d:" && j + 4 <= |s|
    ensures !StartsWith(s[j..], "cwd:")
  {
    assert s[j..][..4][0] == s[j] && s[j..][..4][2] == s[j + 2];
    assert !(s[j] == 'c' && s[j + 2] == 'd');
  }

  const Welcome: string := "Welcome to Claude Code!"

  /** `Welcome to Claude Code!` */
  function WelcomeMatch(t: string): Option<nat> {
    LiteralMatch(Welcome, t)
  }

  /** The five pattern deletions of `_clean_claude_output`, in the order it applies them. */
  function DeleteNoise(t: string): (r: string)
    ensures |r| <= |t|
    ensures forall c :: c in r ==> c in t
  {
    var t1 := DeleteMatches(t, WelcomeMatch);
    var t2 := DeleteMatches(t1, LineFrom("/help for help"));
    var t3 := DeleteMatches(t2, LineFrom("cwd:"));
    var t4 := DeleteMatches(t3, TokenNoteMatch);
    DeleteMatches(t4, SelectedMatch)
  }

  lemma CollapsedSpaces(t: string)
    requires Collapsed(t)
    ensures forall c :: c in t && IsSpace(c) ==> c == ' '
  {
    forall c | c in t && IsSpace(c)
      ensures c == ' '
    {
      var i :| 0 <= i < |t| && t[i] == c;
    }
  }

  lemma StripKeepsOnly(s: string)
    ensures forall c :: c in Strip(s) ==> c in s
  {
    var r := Strip(s);
    forall c | c in r
      ensures c in s
    {
      var i :| 0 <= i < |r| && r[i] == c;
    }
  }

  /** `_clean_claude_output`. The step `re.sub(r'^\s*\n', '', text,
      flags=re.MULTILINE)` needs a newline to match, and none survives the
      whitespace collapse before it, so it leaves the text unchanged and is
      not written out. */
  function CleanClaudeOutput(s: string): (r: string)
    ensures IsTrimmed(r)
    ensures forall c :: c in r ==> NotBoxDrawing(c) && NotBullet(c)
    ensures forall c :: c in r && IsSpace(c) ==> c == ' '
    ensures forall c :: c in r ==> c in s || c == ' '
  {
    var t := Filter(Filter(s, NotBoxDrawing), NotBullet);
    assert NotBoxDrawing(' ') && NotBullet(' ');
    assert forall c :: c in t ==> NotBoxDrawing(c) && NotBullet(c);
    var u := CollapseSpace(t);
    assert forall c :: c in u ==> NotBoxDrawing(c) && NotBullet(c);
    CollapsedSpaces(u);
    var v := DeleteNoise(u);
    StripKeepsOnly(v);
    Strip(v)
  }

  /** A pattern all of whose matches start with `marker` deletes nothing
      from text in which the marker does not occur. */
  lemma NoMarkerNoMatch(s: string, marker: string, m: string -> Option<nat>)
    requires forall t :: m(t).Some? ==> StartsWith(t, marker)
    requires !Contains(s, marker)
    ensures DeleteMatches(s, m) == s
  {
    DeleteNothing(s, m);
  }

  /** Output that carries none of the noise passes through unchanged. */
  lemma CleanKeepsPlainText(s: string)
    requires forall k :: 0 <= k < |s| ==> NotBoxDrawing(s[k]) && NotBullet(s[k])
    requires Collapsed(s) && IsTrimmed(s)
    requires !Contains(s, Welcome) && !Contains(s, "/help for help") && !Contains(s, "cwd:")
    requires '(' !in s && !Contains(s, "Selected ")
    ensures CleanClaudeOutput(s) == s
  {
    FilterKeepsAll(s, NotBoxDrawing);
    FilterKeepsAll(s, NotBullet);
    CollapseFixpoint(s);
    NoMarkerNoMatch(s, Welcome, WelcomeMatch);
    NoMarkerNoMatch(s, "/help for help", LineFrom("/help for help"));
    NoMarkerNoMatch(s, "cwd:", LineFrom("cwd:"));
    forall k | 0 <= k < |s|
      ensures !MatchesAt(TokenNoteMatch, s[k..])
    {
      assert s[k..][0] == s[k];
    }
    DeleteNothing(s, TokenNoteMatch);
    NoMarkerNoMatch(s, "Selected ", SelectedMatch);
  }

  lemma PlainLayout(s: string)
    requires forall k :: 0 <= k < |s| ==> NotBoxDrawing(s[k]) && NotBullet(s[k])
    requires Collapsed(s)
    ensures CollapseSpace(Filter(Filter(s, NotBoxDrawing), NotBullet)) == s
  {
    FilterKeepsAll(s, NotBoxDrawing);
    FilterKeepsAll(s, NotBullet);
    CollapseFixpoint(s);
  }

  lemma CleanOf(s: string, r: string)
    requires CollapseSpace(Filter(Filter(s, NotBoxDrawing), NotBullet)) == s
    requires DeleteNoise(s) == r && IsTrimmed(r)
    ensures CleanClaudeOutput(s) == r
  {
  }

  /** ASCII text carries no decoration. */
  lemma AsciiUndecorated(c: char)
    requires c < '\U{80}'
    ensures NotBoxDrawing(c) && NotBullet(c)
  {
  }

  /** A pattern longer than the text does not occur in it. */
  lemma LongerNotContained(s: string, p: string)
    requires |p| > |s|
    ensures !Contains(s, p)
  {
  }

  /** A pattern whose first character is absent does not occur. */
  lemma FirstCharAbsent(s: string, p: string)
    requires |p| > 0 && p[0] !in s
    ensures !Contains(s, p)
  {
    forall j | 0 <= j <= |s|
      ensures !StartsWith(s[j..], p)
    {
      if j < |s| && |p| <= |s| - j {
        assert s[j..][..|p|][0] == s[j];
      }
    }
  }

  /** So the cleaned output can still hold `cwd:`, although the text given
      to it did not. */
  lemma CleanCanEndInCwd(s: string)
    requires s == "cw(1s tokens)d:"
    ensures !Contains(s, "cwd:") && CleanClaudeOutput(s) == "cwd:"
  {
    NoCwd(s);
    NoiseOfCwdExample(s);
    LayoutOfCwdExample(s);
    CwdTrimmed("cwd:");
    CleanOf(s, "cwd:");
  }

  lemma CwdTrimmed(r: string)
    requires r == "cwd:"
    ensures IsTrimmed(r)
  {
    assert !IsSpace(r[0]) && !IsSpace(r[3]);
  }

  lemma NoiseOfCwdExample(s: string)
    requires s == "cw(1s tokens)d:"
    ensures DeleteNoise(s) == "cwd:"
  {
    TokenNoteCanFormCwd(s);
    LongerNotContained(s, Welcome);
    FirstCharAbsent(s, "/help for help");
    LongerNotContained("cwd:", "Selected ");
    NoMarkerNoMatch(s, Welcome, WelcomeMatch);
    NoMarkerNoMatch(s, "/help for help", LineFrom("/help for help"));
    NoMarkerNoMatch(s, "cwd:", LineFrom("cwd:"));
    NoMarkerNoMatch("cwd:", "Selected ", SelectedMatch);
  }

  lemma LayoutOfCwdExample(s: string)
    requires s == "cw(1s tokens)d:"
    ensures CollapseSpace(Filter(Filter(s, NotBoxDrawing), NotBullet)) == s
  {
    forall k | 0 <= k < |s|
      ensures NotBoxDrawing(s[k]) && NotBullet(s[k])
    {
      AsciiUndecorated(s[k]);
    }
    assert Collapsed(s) by {
      assert forall i :: 0 <= i < |s| && i != 5 ==> !IsSpace(s[i]);
    }
    PlainLayout(s);
  }

  lemma NothingBeforeFirst(s: string, marker: string, k: nat)
    requires |marker| > 0 && Find(s, marker) == Some(k)
    ensures !Contains(s[..k], marker)
  {
    forall j | 0 <= j <= k
      ensures !StartsWith(s[..k][j..], marker)
    {
      if j < k { StartInPrefix(s, k, j, marker); }
    }
  }

  /** Inside a prefix, an occurrence is one of the whole text. */
  lemma StartInPrefix(s: string, k: nat, j: nat, marker: string)
    requires j <= k <= |s|
    ensures StartsWith(s[..k][j..], marker) ==> StartsWith(s[j..], marker)
  {
    if j + |marker| <= k {
      assert s[..k][j..][..|marker|] == s[j..][..|marker|];
    }
  }

  /** A line that starts with the marker is deleted whole. */
  lemma CutWholeLine(s: string, marker: string)
    requires '\n' !in s && StartsWith(s, marker) && |marker| > 0
    ensures DeleteMatches(s, LineFrom(marker)) == []
  {
    assert '\n' !in s[|marker|..];
    assert LineEnd(s[|marker|..]) == |s| - |marker|;
    assert s[|s|..] == [];
  }

  /** On one line, deleting `marker.*` keeps exactly the text before the
      first occurrence of the marker, which therefore no longer occurs. */
  lemma {:induction false} CutAtMarker(s: string, marker: string)
    requires |marker| > 0 && '\n' !in s
    ensures var r := DeleteMatches(s, LineFrom(marker));
      && (Find(s, marker).None? ==> r == s)
      && (Find(s, marker).Some? ==> r == s[..Find(s, marker).value])
      && !Contains(r, marker)
    decreases |s|
  {
    if |s| == 0 {
      assert !StartsWith(s, marker);
    } else if StartsWith(s, marker) {
      CutWholeLine(s, marker);
      assert !StartsWith([], marker);
    } else {
      assert '\n' !in s[1..];
      CutAtMarker(s[1..], marker);
      CutAfterFirstChar(s, marker);
    }
  }

  /** What deleting `marker.*` from one line leaves: the text before the
      first marker, without any marker. */
  predicate CutResult(s: string, marker: string, r: string) {
    && (Find(s, marker).None? ==> r == s)
    && (Find(s, marker).Some? ==> r == s[..Find(s, marker).value])
    && !Contains(r, marker)
  }

  lemma ConsPrefix(s: string, k: nat)
    requires 1 <= k <= |s|
    ensures [s[0]] + s[1..][..k - 1] == s[..k]
  {
    assert s[1..][..k - 1] == s[1..k];
  }

  /** The inductive step of `CutAtMarker`: a first character that starts
      no marker is kept. */
  lemma CutAfterFirstChar(s: string, marker: string)
    requires |marker| > 0 && |s| > 0 && !StartsWith(s, marker)
    requires CutResult(s[1..], marker, DeleteMatches(s[1..], LineFrom(marker)))
    ensures CutResult(s, marker, DeleteMatches(s, LineFrom(marker)))
  {
    var m := LineFrom(marker);
    var r1 := DeleteMatches(s[1..], m);
    assert DeleteMatches(s, m) == [s[0]] + r1;
    if Find(s, marker).Some? {
      var k := Find(s, marker).value;
      assert k == Find(s[1..], marker).value + 1;
      assert r1 == s[1..][..k - 1];
      ConsPrefix(s, k);
      NothingBeforeFirst(s, marker, k);
    } else {
      assert Find(s[1..], marker).None?;
      assert [s[0]] + r1 == s;
    }
  }
}

=== FILE: session.dfy ===
/** The session record's field validators: the project path must be
    absolute, the status must be one of four names, and the stored
    interaction total is non-negative. */
module Sessions {
  import opened Results
  import opened Strings

  /** `SessionBase.validate_project_path` */
  function ValidateProjectPath(v: string): (r: Result<string>)
    ensures r.Ok? <==> |v| > 0 && v[0] == '/'
    ensures r.Ok? ==> r.value == v
    ensures r.Fail? ==> r.error.ValueError?
  {
    if !StartsWith(v, "/") then Fail(ValueError("Project path must be absolute"))
    else Ok(v)
  }

  /** An absolute path stays acceptable under any extension. */
  lemma ProjectPathExtends(v: string, suffix: string)
    requires ValidateProjectPath(v).Ok?
    ensures ValidateProjectPath(v + suffix) == Ok(v + suffix)
  {
    assert (v + suffix)[0] == v[0];
  }

  const Statuses: set<string> := {"active", "completed", "error", "timeout"}

  /** The status a new session record gets. */
  const DefaultStatus: string := "active"

  /** `SessionBase.validate_status` */
  function ValidateStatus(v: string): (r: Result<string>)
    ensures r.Ok? <==> v in Statuses
    ensures r.Ok? ==> r.value == v
    ensures r.Fail? ==> r.error.ValueError?
  {
    if v !in Statuses then Fail(ValueError("Invalid status"))
    else Ok(v)
  }

  /** The default status passes the status validator. */
  lemma DefaultStatusAccepted()
    ensures ValidateStatus(DefaultStatus) == Ok(DefaultStatus)
  {
    assert DefaultStatus in Statuses;
  }

  /** The two statuses the terminal monitor writes pass too. */
  lemma MonitorStatusesAccepted()
    ensures ValidateStatus("active").Ok? && ValidateStatus("completed").Ok?
  {
    assert "completed" in Statuses;
  }

  /** The fields of `SessionInDB` whose bounds are modelled. */
  datatype StoredSession = StoredSession(
    sessionId: string,
    projectPath: string,
    status: string,
    totalInteractions: int)

  predicate ValidSession(s: StoredSession) {
    && |s.projectPath| > 0 && s.projectPath[0] == '/'
    && s.status in Statuses
    && s.totalInteractions >= 0
  }

  /** Building a stored session: accepted exactly when the path, the status
      and the interaction total pass their rules, and then unchanged. */
  function CheckSession(s: StoredSession): (r: Result<StoredSession>)
    ensures r.Ok? <==> ValidSession(s)
    ensures r.Ok? ==> r.value == s
    ensures r.Fail? ==> r.error.ValueError?
  {
    match ValidateProjectPath(s.projectPath)
    case Fail(e) => Fail(e)
    case Ok(_) =>
      match ValidateStatus(s.status)
      case Fail(e) => Fail(e)
      case Ok(_) =>
        if s.totalInteractions < 0 then Fail(ValueError("total_interactions < 0"))
        else Ok(s)
  }

  /** A new session with an absolute path, the default status and the
      default total of 0 is accepted. */
  lemma NewSessionAccepted(id: string, path: string)
    requires |path| > 0 && path[0] == '/'
    ensures CheckSession(StoredSession(id, path, DefaultStatus, 0)) == Ok(StoredSession(id, path, DefaultStatus, 0))
  {
    DefaultStatusAccepted();
  }
}

=== FILE: strings.dfy ===
/** The slice of Python's `str` API that the tracer relies on: whitespace,
    strip, split/join, prefix and substring search, replace, ASCII case
    mapping and decimal rendering of counters. */
module Strings {
  import opened Results

  /** Python's `str.isspace()`, which is also what `\s` matches in a `str`
      pattern of the `re` module. */
  predicate IsSpace(c: char) {
    || ('\t' <= c <= '\r')
    || ('\U{1c}' <= c <= '\U{1f}')
    || c == ' ' || c == '\U{85}' || c == '\U{a0}' || c == '\U{1680}'
    || ('\U{2000}' <= c <= '\U{200a}')
    || c == '\U{2028}' || c == '\U{2029}' || c == '\U{202f}' || c == '\U{205f}'
    || c == '\U{3000}'
  }

  predicate AllSpace(s: string) {
    forall i :: 0 <= i < |s| ==> IsSpace(s[i])
  }

  /** No whitespace at either end: what `str.strip()` leaves behind. */
  predicate IsTrimmed(s: string) {
    s == [] || (!IsSpace(s[0]) && !IsSpace(s[|s| - 1]))
  }

  predicate IsAsciiDigit(c: char) {
    '0' <= c <= '9'
  }

  predicate IsAsciiLetter(c: char) {
    ('a' <= c <= 'z') || ('A' <= c <= 'Z')
  }

  /** Length of the longest prefix of `t` whose characters all satisfy `p`. */
  function Run(t: string, p: char -> bool): (n: nat)
    ensures n <= |t|
    ensures forall k :: 0 <= k < n ==> p(t[k])
    ensures n < |t| ==> !p(t[n])
    decreases |t|
  {
    if |t| == 0 || !p(t[0]) then 0 else 1 + Run(t[1..], p)
  }

  /** `Run` over a prefix that satisfies `p` and is followed by a character that does not. */
  lemma {:induction false} RunPrefix(x: string, y: string, p: char -> bool)
    requires forall k :: 0 <= k < |x| ==> p(x[k])
    requires |y| > 0 ==> !p(y[0])
    ensures Run(x + y, p) == |x|
    decreases |x|
  {
    if |x| > 0 {
      assert (x + y)[1..] == x[1..] + y;
      RunPrefix(x[1..], y, p);
    } else {
      assert x + y == y;
    }
  }

  /** The characters of `s` that satisfy `p`, in order. */
  function Filter(s: string, p: char -> bool): (r: string)
    ensures |r| <= |s|
    ensures forall c :: c in r <==> c in s && p(c)
    decreases |s|
  {
    if |s| == 0 then []
    else
      assert forall c :: c in s <==> c == s[0] || c in s[1..];
      (if p(s[0]) then [s[0]] else []) + Filter(s[1..], p)
  }

  /** The characters of a concatenation are those of its two parts. */
  lemma ConcatMembers(a: string, b: string)
    ensures forall c :: c in a + b <==> c in a || c in b
  {
    forall c | c in a + b
      ensures c in a || c in b
    {
      var i :| 0 <= i < |a + b| && (a + b)[i] == c;
      if i >= |a| {
        assert b[i - |a|] == c;
      }
    }
    forall c | c in b
      ensures c in a + b
    {
      var i :| 0 <= i < |b| && b[i] == c;
      assert (a + b)[|a| + i] == c;
    }
  }

  /** Filtering a concatenation filters each part in place: the kept characters stay in order. */
  lemma {:induction false} FilterAppend(a: string, b: string, p: char -> bool)
    ensures Filter(a + b, p) == Filter(a, p) + Filter(b, p)
    decreases |a|
  {
    if |a| == 0 {
      assert a + b == b;
    } else {
      assert (a + b)[1..] == a[1..] + b;
      FilterAppend(a[1..], b, p);
    }
  }

  /** Filtering keeps a string whose characters all pass. */
  lemma {:induction false} FilterKeepsAll(s: string, p: char -> bool)
    requires forall k :: 0 <= k < |s| ==> p(s[k])
    ensures Filter(s, p) == s
    decreases |s|
  {
    if |s| > 0 {
      FilterKeepsAll(s[1..], p);
    }
  }

  /** Index of the last occurrence of `c` in `s`, if any. */
  function LastIndexOf(s: string, c: char): (r: Option<nat>)
    ensures r.Some? ==> r.value < |s| && s[r.value] == c && forall k :: r.value < k < |s| ==> s[k] != c
    ensures r.None? ==> c !in s
    decreases |s|
  {
    if |s| == 0 then None
    else if s[|s| - 1] == c then Some(|s| - 1)
    else
      var r := LastIndexOf(s[..|s| - 1], c);
      assert forall k :: 0 <= k < |s| - 1 ==> s[..|s| - 1][k] == s[k];
      r
  }

  /** Index where the trailing whitespace of `s` begins. */
  function TrailingStart(s: string): (n: nat)
    ensures n <= |s|
    ensures forall k :: n <= k < |s| ==> IsSpace(s[k])
    ensures n > 0 ==> !IsSpace(s[n - 1])
    decreases |s|
  {
    if |s| == 0 || !IsSpace(s[|s| - 1]) then |s| else TrailingStart(s[..|s| - 1])
  }

  /** `str.strip()`: the slice of `s` left once the whitespace at both ends is cut. */
  function Strip(s: string): (r: string)
    ensures IsTrimmed(r)
    ensures exists i, j ::
      && 0 <= i <= j <= |s| && r == s[i..j]
      && (forall k :: 0 <= k < i ==> IsSpace(s[k]))
      && (forall k :: j <= k < |s| ==> IsSpace(s[k]))
    ensures forall k :: 0 <= k < |r| ==> r[k] in s
    ensures IsTrimmed(s) ==> r == s
  {
    var i := Run(s, IsSpace);
    var n := TrailingStart(s[i..]);
    var r := s[i..i + n];
    StripSlice(s, i, n, r);
    r
  }

  lemma StripSlice(s: string, i: nat, n: nat, r: string)
    requires i <= |s| && n <= |s| - i && r == s[i..i + n]
    requires forall k :: 0 <= k < i ==> IsSpace(s[k])
    requires i < |s| ==> !IsSpace(s[i])
    requires forall k :: n <= k < |s| - i ==> IsSpace(s[i..][k])
    requires n > 0 ==> !IsSpace(s[i..][n - 1])
    ensures IsTrimmed(r)
    ensures forall k :: i + n <= k < |s| ==> IsSpace(s[k])
    ensures forall k :: 0 <= k < |r| ==> r[k] in s
    ensures IsTrimmed(s) ==> i == 0 && n == |s|
  {
    assert forall k :: i + n <= k < |s| ==> s[k] == s[i..][k - i];
    assert forall k :: 0 <= k < |r| ==> r[k] == s[i + k];
  }

  /** `str.split(sep)` for a one-character separator. */
  function Split(s: string, sep: char): (r: seq<string>)
    ensures |r| >= 1
    ensures forall i :: 0 <= i < |r| ==> sep !in r[i]
    decreases |s|
  {
    if |s| == 0 then [""]
    else
      var rest := Split(s[1..], sep);
      if s[0] == sep then [""] + rest
      else [[s[0]] + rest[0]] + rest[1..]
  }

  /** `sep.join(parts)` */
  function Join(parts: seq<string>, sep: char): string
  {
    if |parts| == 0 then ""
    else if |parts| == 1 then parts[0]
    else parts[0] + [sep] + Join(parts[1..], sep)
  }

  /** There is one more piece than there are separators. */
  lemma {:induction false} SplitCount(s: string, sep: char)
    ensures |Split(s, sep)| == multiset(s)[sep] + 1
    decreases |s|
  {
    if |s| > 0 {
      SplitCount(s[1..], sep);
      assert s == [s[0]] + s[1..];
      assert multiset(s) == multiset{s[0]} + multiset(s[1..]);
    }
  }

  /** Joining the pieces with the separator gives back the text. */
  lemma {:induction false} JoinSplit(s: string, sep: char)
    ensures Join(Split(s, sep), sep) == s
    decreases |s|
  {
    if |s| > 0 {
      JoinSplit(s[1..], sep);
      var rest := Split(s[1..], sep);
      if s[0] == sep {
        assert Split(s, sep) == [""] + rest;
        assert (([""] + rest)[1..]) == rest;
        assert s == [sep] + s[1..];
      } else {
        var r := Split(s, sep);
        assert r == [[s[0]] + rest[0]] + rest[1..];
        if |rest| == 1 {
          assert s == [s[0]] + rest[0];
        } else {
          assert r[1..] == rest[1..];
          assert Join(rest, sep) == rest[0] + [sep] + Join(rest[1..], sep);
          assert s == [s[0]] + s[1..];
        }
      }
    }
  }

  /** Splitting undoes joining when no piece holds the separator. */
  lemma {:induction false} SplitJoin(parts: seq<string>, sep: char)
    requires |parts| >= 1
    requires forall i :: 0 <= i < |parts| ==> sep !in parts[i]
    ensures Split(Join(parts, sep), sep) == parts
    decreases |parts|, |parts[0]|
  {
    if |parts| == 1 {
      SplitNoSeparator(parts[0], sep);
    } else if |parts[0]| == 0 {
      SplitJoin(parts[1..], sep);
      var s := Join(parts, sep);
      assert s == [sep] + Join(parts[1..], sep);
      assert s[1..] == Join(parts[1..], sep);
      assert parts == [""] + parts[1..];
    } else {
      var head := parts[0];
      var tail := [head[1..]] + parts[1..];
      assert tail[1..] == parts[1..];
      SplitJoin(tail, sep);
      JoinCons(parts, sep);
      var s := Join(parts, sep);
      assert s[1..] == Join(tail, sep);
      SplitCons(s, sep);
      assert tail[0] == head[1..];
      assert [head[0]] + head[1..] == head;
      assert parts == [head] + parts[1..];
    }
  }

  lemma JoinCons(parts: seq<string>, sep: char)
    requires |parts| >= 2 && |parts[0]| > 0
    ensures Join(parts, sep) == [parts[0][0]] + Join([parts[0][1..]] + parts[1..], sep)
  {
    var tail := [parts[0][1..]] + parts[1..];
    assert tail[1..] == parts[1..];
    assert parts[0] == [parts[0][0]] + parts[0][1..];
  }

  lemma SplitCons(s: string, sep: char)
    requires |s| > 0 && s[0] != sep
    ensures var rest := Split(s[1..], sep);
      Split(s, sep) == [[s[0]] + rest[0]] + rest[1..]
  {
  }

  lemma {:induction false} SplitNoSeparator(s: string, sep: char)
    requires sep !in s
    ensures Split(s, sep) == [s]
    decreases |s|
  {
    if |s| > 0 {
      SplitNoSeparator(s[1..], sep);
      assert s == [s[0]] + s[1..];
    }
  }

  /** Joining two or more pieces is the join of all but the last piece,
      the separator, and the last piece. */
  lemma {:induction false} JoinSnoc(parts: seq<string>, sep: char)
    requires |parts| >= 2
    ensures Join(parts, sep) == Join(parts[..|parts| - 1], sep) + [sep] + parts[|parts| - 1]
    decreases |parts|
  {
    if |parts| > 2 {
      JoinSnoc(parts[1..], sep);
      assert parts[1..][..|parts| - 2] == parts[..|parts| - 1][1..];
    }
  }

  /** The last piece of a split is the text after the last separator, and
      a text holding the separator splits into at least two pieces. */
  lemma {:induction false} LastPieceAfter(s: string, sep: char, k: nat)
    requires k < |s| && s[k] == sep && forall j :: k < j < |s| ==> s[j] != sep
    ensures var r := Split(s, sep); |r| >= 2 && r[|r| - 1] == s[k + 1..]
    decreases |s|
  {
    var rest := Split(s[1..], sep);
    if k == 0 {
      assert sep !in s[1..] by {
        forall i | 0 <= i < |s[1..]|
          ensures s[1..][i] != sep
        {
          assert s[1..][i] == s[i + 1];
        }
      }
      SplitNoSeparator(s[1..], sep);
    } else {
      assert forall j :: k - 1 < j < |s[1..]| ==> s[1..][j] == s[j + 1];
      LastPieceAfter(s[1..], sep, k - 1);
      assert s[1..][k - 1 + 1..] == s[k + 1..];
    }
  }

  predicate StartsWith(s: string, p: string) {
    |p| <= |s| && s[..|p|] == p
  }

  /** The first index where `p` occurs in `s` (`str.find`), if any. */
  function Find(s: string, p: string): (r: Option<nat>)
    ensures r.Some? ==> r.value <= |s| && StartsWith(s[r.value..], p)
    ensures r.Some? ==> forall j :: 0 <= j < r.value ==> !StartsWith(s[j..], p)
    ensures r.None? ==> forall j :: 0 <= j <= |s| ==> !StartsWith(s[j..], p)
    decreases |s|
  {
    if StartsWith(s, p) then Some(0)
    else if |s| == 0 then None
    else
      var t := Find(s[1..], p);
      FindShift(s, p, t);
      if t.Some? then Some(t.value + 1) else None
  }

  lemma FindShift(s: string, p: string, t: Option<nat>)
    requires |s| > 0 && !StartsWith(s, p)
    requires t.Some? ==> t.value <= |s| - 1 && StartsWith(s[1..][t.value..], p)
    requires t.Some? ==> forall j :: 0 <= j < t.value ==> !StartsWith(s[1..][j..], p)
    requires t.None? ==> forall j :: 0 <= j <= |s| - 1 ==> !StartsWith(s[1..][j..], p)
    ensures t.Some? ==> StartsWith(s[t.value + 1..], p)
    ensures t.Some? ==> forall j :: 0 <= j < t.value + 1 ==> !StartsWith(s[j..], p)
    ensures t.None? ==> forall j :: 0 <= j <= |s| ==> !StartsWith(s[j..], p)
  {
    forall j | 1 <= j <= |s| ensures s[j..] == s[1..][j - 1..] { }
  }

  /** Python's `p in s` for strings. */
  predicate Contains(s: string, p: string) {
    Find(s, p).Some?
  }

  /** `s.replace(pat, rep)`: every non-overlapping occurrence, scanning left to right. */
  function ReplaceAll(s: string, pat: string, rep: string): (r: string)
    requires |pat| > 0
    ensures !Contains(s, pat) ==> r == s
    ensures |rep| <= |pat| ==> |r| <= |s|
    decreases |s|
  {
    if |s| == 0 then ""
    else if StartsWith(s, pat) then rep + ReplaceAll(s[|pat|..], pat, rep)
    else
      assert !Contains(s, pat) ==> !Contains(s[1..], pat) by {
        if Contains(s[1..], pat) {
          var k := Find(s[1..], pat).value;
          assert s[1..][k..] == s[k + 1..];
        }
      }
      [s[0]] + ReplaceAll(s[1..], pat, rep)
  }

  /** Away from an occurrence, `replace` copies one character and moves on. */
  lemma ReplaceAllCopies(s: string, pat: string, rep: string)
    requires |pat| > 0 && |s| > 0 && !StartsWith(s, pat)
    ensures ReplaceAll(s, pat, rep) == [s[0]] + ReplaceAll(s[1..], pat, rep)
  {
  }

  /** At an occurrence, `replace` substitutes it and moves past it. */
  lemma ReplaceAllSubstitutes(s: string, pat: string, rep: string)
    requires |pat| > 0 && StartsWith(s, pat)
    ensures ReplaceAll(s, pat, rep) == rep + ReplaceAll(s[|pat|..], pat, rep)
  {
  }

  lemma ConsAssoc(x: string, r: string)
    requires |x| > 0
    ensures [x[0]] + (x[1..] + r) == x + r
  {
    assert [x[0]] + x[1..] == x;
  }

  /** `replace` copies a stretch in which no occurrence starts unchanged. */
  lemma {:induction false} ReplaceAllSkips(x: string, y: string, pat: string, rep: string)
    requires |pat| > 0
    requires forall j :: 0 <= j < |x| ==> !StartsWith((x + y)[j..], pat)
    ensures ReplaceAll(x + y, pat, rep) == x + ReplaceAll(y, pat, rep)
    decreases |x|
  {
    if |x| == 0 {
      assert x + y == y;
    } else {
      var s := x + y;
      assert !StartsWith(s[0..], pat) && s[0..] == s;
      assert s[1..] == x[1..] + y;
      forall j | 0 <= j < |x| - 1
        ensures !StartsWith((x[1..] + y)[j..], pat)
      {
        assert (x[1..] + y)[j..] == s[j + 1..];
      }
      ReplaceAllSkips(x[1..], y, pat, rep);
      ReplaceAllCopies(s, pat, rep);
      ConsAssoc(x, ReplaceAll(y, pat, rep));
    }
  }

  /** `replace` on a stretch free of occurrences followed by an occurrence. */
  lemma SkipThenSubstitute(x: string, y: string, pat: string, rep: string)
    requires |pat| > 0 && StartsWith(y, pat)
    requires forall j :: 0 <= j < |x| ==> !StartsWith((x + y)[j..], pat)
    ensures ReplaceAll(x + y, pat, rep) == x + rep + ReplaceAll(y[|pat|..], pat, rep)
  {
    ReplaceAllSkips(x, y, pat, rep);
    ReplaceAllSubstitutes(y, pat, rep);
    var rest := ReplaceAll(y[|pat|..], pat, rep);
    assert x + (rep + rest) == x + rep + rest;
  }

  /** `replace` on a string whose first occurrence of `pat` is at `k`. */
  lemma ReplaceAllAt(s: string, pat: string, rep: string, k: nat)
    requires |pat| > 0 && k <= |s| && StartsWith(s[k..], pat)
    requires forall j :: 0 <= j < k ==> !StartsWith(s[j..], pat)
    ensures ReplaceAll(s, pat, rep) == s[..k] + rep + ReplaceAll(s[k + |pat|..], pat, rep)
  {
    var x, y := s[..k], s[k..];
    assert s == x + y;
    assert y[|pat|..] == s[k + |pat|..];
    SkipThenSubstitute(x, y, pat, rep);
  }

  /** `replace` copies the text before the first occurrence, substitutes it, and goes on after it. */
  lemma ReplaceAllFirst(s: string, pat: string, rep: string, k: nat)
    requires |pat| > 0 && Find(s, pat) == Some(k)
    ensures k + |pat| <= |s|
    ensures ReplaceAll(s, pat, rep) == s[..k] + rep + ReplaceAll(s[k + |pat|..], pat, rep)
  {
    ReplaceAllAt(s, pat, rep, k);
  }

  function LowerChar(c: char): char {
    if 'A' <= c <= 'Z' then (c as int + 32) as char else c
  }

  function UpperChar(c: char): char {
    if 'a' <= c <= 'z' then (c as int - 32) as char else c
  }

  /** `str.lower()` restricted to ASCII letters: the same text up to case, with no
      upper-case ASCII letter left. */
  function Lower(s: string): (r: string)
    ensures |r| == |s|
    ensures forall i :: 0 <= i < |s| ==> UpperChar(r[i]) == UpperChar(s[i])
    ensures forall i :: 0 <= i < |r| ==> !('A' <= r[i] <= 'Z')
  {
    seq(|s|, i requires 0 <= i < |s| => LowerChar(s[i]))
  }

  /** `str.upper()` restricted to ASCII letters: the same text up to case, with no
      lower-case ASCII letter left. */
  function Upper(s: string): (r: string)
    ensures |r| == |s|
    ensures forall i :: 0 <= i < |s| ==> LowerChar(r[i]) == LowerChar(s[i])
    ensures forall i :: 0 <= i < |r| ==> !('a' <= r[i] <= 'z')
  {
    seq(|s|, i requires 0 <= i < |s| => UpperChar(s[i]))
  }

  /** The two properties `Upper` promises pin its result down. */
  lemma UpperUnique(s: string, r: string)
    requires |r| == |s|
    requires forall i :: 0 <= i < |s| ==> LowerChar(r[i]) == LowerChar(s[i])
    requires forall i :: 0 <= i < |r| ==> !('a' <= r[i] <= 'z')
    ensures r == Upper(s)
  {
    forall i | 0 <= i < |s| ensures r[i] == Upper(s)[i] {
      assert LowerChar(r[i]) == LowerChar(s[i]);
    }
  }

  /** The two properties `Lower` promises pin its result down. */
  lemma LowerUnique(s: string, r: string)
    requires |r| == |s|
    requires forall i :: 0 <= i < |s| ==> UpperChar(r[i]) == UpperChar(s[i])
    requires forall i :: 0 <= i < |r| ==> !('A' <= r[i] <= 'Z')
    ensures r == Lower(s)
  {
    forall i | 0 <= i < |s| ensures r[i] == Lower(s)[i] {
      assert UpperChar(r[i]) == UpperChar(s[i]);
    }
  }

  /** Lower-casing forgets a prior upper-casing. */
  lemma LowerOfUpper(s: string)
    ensures Lower(Upper(s)) == Lower(s)
  {
    var u := Upper(s);
    forall i | 0 <= i < |s| ensures Lower(u)[i] == Lower(s)[i] {
      assert LowerChar(u[i]) == LowerChar(s[i]);
    }
  }

  function DigitChar(d: nat): (c: char)
    requires d < 10
    ensures '0' <= c <= '9' && c as int - '0' as int == d
  {
    ('0' as int + d) as char
  }

  /** `str(n)` for a non-negative integer. */
  function NatToString(n: nat): (r: string)
    ensures |r| >= 1
    ensures n >= 10 ==> |r| >= 2
    decreases n
  {
    if n < 10 then [DigitChar(n)] else NatToString(n / 10) + [DigitChar(n % 10)]
  }

  /** Distinct counters render as distinct strings. */
  lemma {:induction false} NatToStringInjective(a: nat, b: nat)
    requires NatToString(a) == NatToString(b)
    ensures a == b
    decreases a
  {
    var s := NatToString(a);
    if a >= 10 && b >= 10 {
      assert s[..|s| - 1] == NatToString(a / 10) && s[..|s| - 1] == NatToString(b / 10);
      assert s[|s| - 1] == DigitChar(a % 10) && s[|s| - 1] == DigitChar(b % 10);
      NatToStringInjective(a / 10, b / 10);
    }
  }

  /** Two strings with a common prefix are equal exactly when their rests are. */
  lemma PrefixCancel(p: string, x: string, y: string)
    requires p + x == p + y
    ensures x == y
  {
    assert x == (p + x)[|p|..];
    assert y == (p + y)[|p|..];
  }
}

=== FILE: templates.dfy ===
/** The replacement templates of `re.sub`: which templates the parser of
    Python 3.12's `re` module refuses for a given compiled pattern. A
    template is read as tokens, each a single character or a backslash
    with the character after it. */
module Templates {
  import opened Results
  import opened Strings

  /** The groups of a compiled pattern: how many there are, and the names
      of the named ones. A compiled pattern only ever names its groups with
      Python identifiers. */
  datatype Groups = Groups(count: nat, names: set<string>)

  /** A pattern without groups. */
  const NoGroups: Groups := Groups(0, {})

  /** `_sre.MAXGROUPS` of a 64-bit CPython 3.12. */
  const MaxGroups: nat := 1073741823

  predicate IsOctalDigit(c: char) {
    '0' <= c <= '7'
  }

  function DigitValue(c: char): (v: nat)
    requires IsAsciiDigit(c)
    ensures v < 10 && DigitChar(v) == c
  {
    c as int - '0' as int
  }

  predicate AllDigits(s: string) {
    forall i :: 0 <= i < |s| ==> IsAsciiDigit(s[i])
  }

  /** `int(s)` for a string of ASCII digits. */
  function DecimalValue(s: string): nat
    requires AllDigits(s)
    decreases |s|
  {
    if |s| == 0 then 0 else DecimalValue(s[..|s| - 1]) * 10 + DigitValue(s[|s| - 1])
  }

  /** Reading back the decimal rendering of a number gives the number. */
  lemma {:induction false} DecimalOfNatToString(n: nat)
    ensures AllDigits(NatToString(n)) && DecimalValue(NatToString(n)) == n
    decreases n
  {
    var s := NatToString(n);
    if n >= 10 {
      DecimalOfNatToString(n / 10);
      assert s[..|s| - 1] == NatToString(n / 10);
      assert s[|s| - 1] == DigitChar(n % 10);
      assert DigitValue(DigitChar(n % 10)) == n % 10;
    } else {
      assert DigitValue(DigitChar(n)) == n;
    }
  }

  /** Where the `>` token that closes a group name sits in `u`. A backslash
      and the character after it are one token, so `\>` does not close the
      name. None when the template ends first, or ends in a lone backslash. */
  function NameEnd(u: string): (r: Option<nat>)
    ensures r.Some? ==> r.value < |u| && u[r.value] == '>'
    decreases |u|
  {
    if |u| == 0 then None
    else if u[0] == '>' then Some(0)
    else if u[0] == '\\' then
      if |u| == 1 then None
      else match NameEnd(u[2..]) case None => None case Some(k) => Some(k + 2)
    else match NameEnd(u[1..]) case None => None case Some(k) => Some(k + 1)
  }

  /** A name free of `>` and of backslashes is closed by the `>` after it. */
  lemma {:induction false} NameEndPlain(name: string, rest: string)
    requires '>' !in name && '\\' !in name
    ensures NameEnd(name + ">" + rest) == Some(|name|)
    decreases |name|
  {
    var u := name + ">" + rest;
    if |name| == 0 {
      assert u[0] == '>';
    } else {
      assert u[0] == name[0] && u[1..] == name[1..] + ">" + rest;
      NameEndPlain(name[1..], rest);
    }
  }

  /** `\g<name>` is refused: an empty name; a number that reaches
      `MaxGroups` or exceeds the group count; any other name that is not
      one of the pattern's group names. The parser raises `re.error` for a
      name that is not an identifier and `IndexError` for an unknown one. */
  predicate BadGroupName(name: string, g: Groups) {
    if |name| == 0 then true
    else if AllDigits(name) then DecimalValue(name) >= MaxGroups || DecimalValue(name) > g.count
    else name !in g.names
  }

  /** How many octal digits (at most two) follow `\0`. */
  function OctalRun(u: string): (n: nat)
    ensures n <= 2 && n <= |u|
    ensures forall i :: 0 <= i < n ==> IsOctalDigit(u[i])
    ensures n < 2 && n < |u| ==> !IsOctalDigit(u[n])
  {
    if |u| > 0 && IsOctalDigit(u[0]) then (if |u| > 1 && IsOctalDigit(u[1]) then 2 else 1) else 0
  }

  /** `parse_template` raises on `t` for a pattern with groups `g`:
      - a backslash that ends the template;
      - `\g` not followed by `<`, a name that never closes, or a bad name;
      - three octal digits after a backslash with a value above 0o377;
      - a reference `\N` or `\NN` to a group the pattern does not have;
      - a backslash before an ASCII letter other than `\a \b \f \n \r \t \v`.
      `\0` with up to two more octal digits is always a character, and a
      backslash before anything else is kept as it stands. */
  predicate TemplateFault(t: string, g: Groups)
    decreases |t|
  {
    if |t| == 0 then false
    else if t[0] != '\\' then TemplateFault(t[1..], g)
    else if |t| == 1 then true
    else
      var c := t[1];
      if c == 'g' then
        if |t| < 3 || t[2] != '<' then true
        else
          match NameEnd(t[3..])
          case None => true
          case Some(k) => BadGroupName(t[3..3 + k], g) || TemplateFault(t[4 + k..], g)
      else if c == '0' then TemplateFault(t[2 + OctalRun(t[2..])..], g)
      else if IsAsciiDigit(c) then
        if |t| >= 3 && IsAsciiDigit(t[2]) then
          if IsOctalDigit(c) && IsOctalDigit(t[2]) && |t| >= 4 && IsOctalDigit(t[3]) then
            DigitValue(c) * 64 + DigitValue(t[2]) * 8 + DigitValue(t[3]) > 255 || TemplateFault(t[4..], g)
          else DigitValue(c) * 10 + DigitValue(t[2]) > g.count || TemplateFault(t[3..], g)
        else DigitValue(c) > g.count || TemplateFault(t[2..], g)
      else (IsAsciiLetter(c) && c !in "abfnrtv") || TemplateFault(t[2..], g)
  }

  /** A template without backslashes is always accepted. */
  lemma {:induction false} NoBackslashNoFault(t: string, g: Groups)
    requires '\\' !in t
    ensures !TemplateFault(t, g)
    decreases |t|
  {
    if |t| > 0 {
      assert t[0] != '\\';
      assert forall k :: 0 <= k < |t| - 1 ==> t[1..][k] == t[k + 1];
      NoBackslashNoFault(t[1..], g);
    }
  }

  /** A prefix without backslashes does not change whether a template is refused. */
  lemma {:induction false} PlainPrefix(a: string, b: string, g: Groups)
    requires '\\' !in a
    ensures TemplateFault(a + b, g) == TemplateFault(b, g)
    decreases |a|
  {
    if |a| > 0 {
      assert (a + b)[0] == a[0] && (a + b)[1..] == a[1..] + b;
      assert forall c :: c in a[1..] ==> c in a;
      PlainPrefix(a[1..], b, g);
    } else {
      assert a + b == b;
    }
  }

  /** An escaped backslash `\\` is accepted and stands for one backslash. */
  lemma EscapedBackslash(b: string, g: Groups)
    ensures TemplateFault(@"\\" + b, g) == TemplateFault(b, g)
  {
    assert (@"\\" + b)[2..] == b;
  }

  /** The escapes `\a \b \f \n \r \t \v` are accepted. */
  lemma KnownLetterEscape(c: char, b: string, g: Groups)
    requires c in "abfnrtv"
    ensures TemplateFault(['\\', c] + b, g) == TemplateFault(b, g)
  {
    assert (['\\', c] + b)[2..] == b;
  }

  /** A backslash before any other ASCII letter but `g` is refused. */
  lemma BadLetterEscape(c: char, b: string, g: Groups)
    requires IsAsciiLetter(c) && c !in "abfnrtvg"
    ensures TemplateFault(['\\', c] + b, g)
  {
  }

  /** `\g` must be followed by `<`. */
  lemma MissingAngleBracket(b: string, g: Groups)
    requires |b| == 0 || b[0] != '<'
    ensures TemplateFault(@"\g" + b, g)
  {
  }

  /** `\g<name>`, with a name free of `>` and backslashes, is refused
      exactly when the name is bad, or else when the rest is refused. */
  lemma NamedReference(name: string, b: string, g: Groups)
    requires '>' !in name && '\\' !in name
    ensures TemplateFault(@"\g<" + name + ">" + b, g) <==> BadGroupName(name, g) || TemplateFault(b, g)
  {
    var t := @"\g<" + name + ">" + b;
    assert t[3..] == name + ">" + b;
    NameEndPlain(name, b);
    assert t[3..3 + |name|] == name;
    assert t[4 + |name|..] == b;
  }

  /** A one-digit reference `\N` (N from 1 to 9, not followed by a digit)
      is refused exactly when the pattern has fewer than N groups, or else
      when the rest is refused. */
  lemma NumberedReference(d: char, b: string, g: Groups)
    requires '1' <= d <= '9' && (|b| == 0 || !IsAsciiDigit(b[0]))
    ensures TemplateFault(['\\', d] + b, g) <==> DigitValue(d) > g.count || TemplateFault(b, g)
  {
    var t := ['\\', d] + b;
    assert t[2..] == b;
  }

  /** Three octal digits after a backslash, the first not 0, are one
      character; the escape is refused exactly when its value exceeds
      0o377, that is when the first digit is 4 or more. */
  lemma OctalEscape(d1: char, d2: char, d3: char, b: string, g: Groups)
    requires '1' <= d1 <= '7' && IsOctalDigit(d2) && IsOctalDigit(d3)
    ensures TemplateFault(['\\', d1, d2, d3] + b, g) <==> d1 >= '4' || TemplateFault(b, g)
  {
    var t := ['\\', d1, d2, d3] + b;
    assert t[1] == d1 && t[2] == d2 && t[3] == d3 && t[4..] == b;
  }

  /** A pattern with fewer groups, and fewer group names, refuses every
      template a pattern with more refuses. */
  lemma {:induction false} FewerGroupsRefuseMore(t: string, g1: Groups, g2: Groups)
    requires g1.count <= g2.count && g1.names <= g2.names
    ensures TemplateFault(t, g2) ==> TemplateFault(t, g1)
    decreases |t|
  {
    if |t| == 0 {
    } else if t[0] != '\\' {
      FewerGroupsRefuseMore(t[1..], g1, g2);
    } else if |t| == 1 {
    } else if t[1] == 'g' {
      if |t| >= 3 && t[2] == '<' {
        match NameEnd(t[3..])
        case None =>
        case Some(k) =>
          FewerGroupsRefuseMore(t[4 + k..], g1, g2);
      }
    } else if t[1] == '0' {
      FewerGroupsRefuseMore(t[2 + OctalRun(t[2..])..], g1, g2);
    } else if IsAsciiDigit(t[1]) {
      if |t| >= 3 && IsAsciiDigit(t[2]) {
        if IsOctalDigit(t[1]) && IsOctalDigit(t[2]) && |t| >= 4 && IsOctalDigit(t[3]) {
          FewerGroupsRefuseMore(t[4..], g1, g2);
        } else {
          FewerGroupsRefuseMore(t[3..], g1, g2);
        }
      } else {
        FewerGroupsRefuseMore(t[2..], g1, g2);
      }
    } else {
      FewerGroupsRefuseMore(t[2..], g1, g2);
    }
  }
}
